=== FILE: README.md ===
# story_generation1 in Dafny

This project is a verified model of the core of *story_generation1*: a
photo-reflection companion.

**Front end (React).** The front end keeps two things per tab:

- the active profile and the active photo (`ProfileProvider`), mirrored to
  `localStorage`;
- a one-shot chat seed that the fortune-cookie screen leaves for the chat
  screen, stored as `JSON.stringify` text.

Its API wrappers turn HTTP outcomes into thrown errors. Its screens commit to
the context only after the backend accepts a request.

**Back end (FastAPI).** The back end serves:

- a JSON-file profile registry;
- per-profile GPT-4V sessions, with a 15-turn short-term window and
  timestamped upload names;
- a per-user LangChain agent state, with a message-chain graph;
- a per-(user, profile) photo service;
- a long-term memory knowledge graph with networkx semantics:
  - upserting `add_node`/`add_edge`;
  - node-order edge views;
  - `entity_{n}` numbering;
  - photo-tagged relations;
  - recall text.

**How the model is built.** Everything is modelled as pure functions over
immutable data. HTTP answers, language-model replies, the clock, uuids and
the file system are explicit inputs:

- a set or sequence of existing paths stands for the file system;
- a map stands for `localStorage`.

Each module follows one source file:

| module | file |
|---|---|
| `Wrappers`, `Text`, `Paths`, `Digraph` | shared vocabulary: Python/JavaScript string and path semantics, and networkx `DiGraph` |
| `Transcript` | the JSON text of a chat transcript and its parser |
| `SessionStore` | `src/context/ProfileContext.tsx` |
| `Gateway` | `src/api/profiles.ts`, `src/api/photos.ts` |
| `FortunePage`, `ChatPage`, `ProfilesPage` | the page of the same name |
| `ProfilePanel` | `src/components/ProfilePanel.tsx` |
| `PhotoChatPanel` | `src/components/ChatPage.tsx` |
| `PhotosPage` | `src/pages/PhotosPage.tsx` |
| `PhotoPicker` | `src/components/PhotosPage.tsx` |
| `ProfileRegistry` | `pkg/profiles.py` |
| `VisionSessions` | `pkg/gpt4v.py` |
| `Agent` | `pkg/agent.py` |
| `MemoryGraph` | `pkg/memory_kg.py` |
| `PhotoService` | `pkg/photo.py` |
| `Wire` | how the backend's answers reach the client's API wrappers and screens, end to end |

**Behaviour a reader might not expect:**

- Switching profile does not clear the active photo (`SessionStore.ProfileSwitchKeepsPhoto`).
- The fortune-cookie upload writes the photo slot step by step: the data URL first, then each `public_url` it receives. It does not commit once at the end (`FortunePage.UploadFailureKeepsDataUrl`).
- The chat panel holds a selected photo with an empty public URL. The gpt4v select answer carries `auto_reply` and no `url`, and the client reads `url` (`Wire.PanelSelectThenChat`).
- The chat panel never shows the select's `auto_reply`, although the backend records it as a turn (`Wire.PanelSelectThenChat`).
- The photo screens upload through the vision backend, into `data/profiles/{profile}/uploads`, and list through the photo service, from `data/profiles/{user}/{profile}/uploads`. A fresh upload shows up in the list only when the same file is in both directories (`Wire.PickerSelectsUpload`).

## Model

| member | source | states |
|---|---|---|
| SessionStore.ReadSlot | src/context/ProfileContext.tsx:29-33 | a stored value counts only when it is a non-empty string; then it is read back unchanged |
| SessionStore.Mirror | src/context/ProfileContext.tsx:39-40 | the slot exists exactly when the value is truthy and then holds it; no other key changes |
| SessionStore.Hydrate | src/context/ProfileContext.tsx:24-34 | on mount each field is set exactly when its slot holds a non-empty string, to that string; storage is untouched |
| SessionStore.SetSelectedProfile | src/context/ProfileContext.tsx:37-41 | the profile becomes `p`, the photo is kept, the slot mirrors `p`, no other key changes |
| SessionStore.SetUploadedPhoto | src/context/ProfileContext.tsx:44-48 | the photo becomes `p`, the profile is kept, the slot mirrors `p`, no other key changes |
| SessionStore.HydrateEmpty | src/context/ProfileContext.tsx:24-34 | a fresh tab over empty storage has neither a profile nor a photo |
| SessionStore.ReloadAfterSetProfile | src/context/ProfileContext.tsx:28-41 | a reload after setting the profile restores it when truthy, otherwise null; the photo comes back from its own slot |
| SessionStore.ReloadAfterSetPhoto | src/context/ProfileContext.tsx:28-48 | the same reload round trip for the photo |
| SessionStore.ProfileSwitchKeepsPhoto | src/context/ProfileContext.tsx:37-41 | two profile switches never clear the photo, in memory or in its slot |
| Gateway.HandleResponse | src/api/profiles.ts:4-10 | a rejection propagates; a non-2xx status throws the operation's message with status and body; a 2xx gives the parsed body, or `{}` when it does not parse |
| Gateway.StatusMessageCarriesStatus | src/api/profiles.ts:7 | the status can be read back from the error text |
| Gateway.FetchProfiles | src/api/profiles.ts:12-15 | succeeds exactly on a 2xx answer |
| Gateway.CreateProfile | src/api/profiles.ts:17-23 | succeeds exactly on a 2xx answer and then returns the name it was given; otherwise throws the create message with the status |
| Gateway.DeleteProfile | src/api/profiles.ts:25-30 | succeeds exactly on a 2xx answer; otherwise throws the delete message with the status |
| Gateway.SelectProfile | src/api/profiles.ts:32-38 | succeeds exactly on a 2xx answer and then returns the name it was given; otherwise throws the select message with the status |
| Gateway.ListUploadedPhotos | src/api/photos.ts:17-25 | a non-2xx throws with the status; a missing image list becomes empty; the selection is passed through |
| Gateway.UploadPhoto | src/api/photos.ts:28-53 | a failed upload throws before any select request; after a good upload, a select request for the returned filename is sent, and the upload's body is returned |
| Gateway.SelectPhoto | src/api/photos.ts:56-70 | a non-2xx throws; otherwise a photo with the requested filename, empty paths and the answer's url, or "" |
| Gateway.SendPhotoChat | src/api/photos.ts:73-81 | a non-2xx throws; otherwise the parsed body |
| Transcript.DecodeEncode | src/pages/FortunePage.tsx:168-176 | parsing the stringified transcript gives back exactly the same messages |
| Transcript.DecodeItemsEncodeItems | src/pages/ChatPage.tsx:17-20 | every non-empty array of messages is read back object by object, up to the closing bracket |
| Transcript.UnquoteEscapeBody | src/pages/ChatPage.tsx:20 | the escaped body of a string literal reads back as the original string, whatever follows the closing quote |
| FortunePage.HandleCookieClick | src/pages/FortunePage.tsx:74-78 | clicking the open cookie closes it; any other click opens that cookie; the file and reply are cleared |
| FortunePage.CookieClickTwice | src/pages/FortunePage.tsx:74-78 | clicking the same cookie twice restores the open/closed state |
| FortunePage.ShowPhoto | src/pages/FortunePage.tsx:124-126 | the photo becomes the URL in memory; it is readable from its slot exactly when non-empty; nothing else in storage changes |
| FortunePage.Pipeline | src/pages/FortunePage.tsx:113-181 | a run completes only when reading, upload and select all succeed; the profile never changes; storage changes only in the photo and seed slots |
| FortunePage.HandleUpload | src/pages/FortunePage.tsx:106-188 | without a file or a profile nothing happens; otherwise loading ends false, and navigation with the refresh tick happens exactly when the run completes; a failed run sets the error reply |
| FortunePage.RequestOrder | src/pages/FortunePage.tsx:132-159 | the select request is sent only after a successful upload, and for the filename it returned |
| FortunePage.UploadFailureKeepsDataUrl | src/pages/FortunePage.tsx:123-140 | when the upload fails, the data URL remains the active photo |
| FortunePage.PublicUrlReplacesPhoto | src/pages/FortunePage.tsx:145-165 | the active photo after a run is the last of the data URL, the upload's `public_url` and the select's `public_url` that was reached and truthy |
| FortunePage.SelectFailureNoSeed | src/pages/FortunePage.tsx:159-177 | a failed select leaves no seed and no navigation |
| FortunePage.SeedWritten | src/pages/FortunePage.tsx:167-177 | after a completed run with a truthy `auto_reply` the seed slot holds the two-message transcript; otherwise the slot is as before |
| ChatPage.Mount | src/pages/ChatPage.tsx:16-27 | a truthy seed is consumed: the slot is removed and, when it parses, the transcript is replaced; without a seed nothing changes |
| ChatPage.MountConsumesOnce | src/pages/ChatPage.tsx:16-27 | mounting a second time changes nothing further |
| ChatPage.PipelineSeedsChat | src/pages/ChatPage.tsx:16-27 | end to end: after a completed upload with a truthy `auto_reply`, the chat screen opens on the opener and that reply |
| ChatPage.ReplyText | src/pages/ChatPage.tsx:56-72 | the reply text, the no-reply fallback, or the error text; never empty |
| ChatPage.HandleSend | src/pages/ChatPage.tsx:35-76 | blank input or no profile does nothing; otherwise the untrimmed input and then exactly one reply are appended, and the input clears |
| ChatPage.SendExtendsTranscript | src/pages/ChatPage.tsx:42-72 | a send never rewrites history: old messages stay a prefix and at most two are added |
| ChatPage.HandleKeyPress | src/pages/ChatPage.tsx:78-80 | Enter sends when no send is in flight; any other key, or a send in flight, does nothing |
| ChatPage.HandleYearInReview | src/pages/ChatPage.tsx:83-113 | without a profile nothing happens; otherwise the fixed request, then the reply or the error text, are appended |
| ProfilesPage.Names | src/pages/ProfilesPage.tsx:38 | the names of the entries, in order |
| ProfilesPage.LoadProfiles | src/pages/ProfilesPage.tsx:33-45 | a good list replaces the names and clears the error; a failure sets the load error and keeps the list; loading ends false |
| ProfilesPage.Mount | src/pages/ProfilesPage.tsx:47-51 | the list loads; a saved truthy profile becomes the selection; the photo is kept |
| ProfilesPage.MountKeepsStorage | src/pages/ProfilesPage.tsx:49-50 | re-applying the saved profile leaves storage exactly as it was |
| ProfilesPage.HandleCreate | src/pages/ProfilesPage.tsx:53-70 | a blank name does nothing; an accepted trimmed name becomes the selection and the saved profile, and the screen moves on; a refusal sets only the create error |
| ProfilesPage.HandleDelete | src/pages/ProfilesPage.tsx:72-87 | after an accepted delete, the selection and its slot are cleared exactly when the name was selected; a refusal sets only the delete error |
| ProfilesPage.HandleSelect | src/pages/ProfilesPage.tsx:89-102 | the name is selected and saved only after the backend accepts it; a refusal keeps the old selection |
| ProfilesPage.SelectThenReload | src/pages/ProfilesPage.tsx:89-95 | an accepted non-empty selection survives a reload |
| ProfilesPage.DeleteActiveThenReload | src/pages/ProfilesPage.tsx:72-80 | after deleting the active profile a reload restores no profile, and the photo slot is as before |
| ProfilePanel.LoadProfiles | src/components/ProfilePanel.tsx:19-26 | a good answer replaces the list; a failure changes nothing |
| ProfilePanel.HandleCreate | src/components/ProfilePanel.tsx:33-42 | a blank name does nothing; an accepted one clears the input and reloads; the selection is never touched |
| ProfilePanel.HandleDelete | src/components/ProfilePanel.tsx:45-53 | after an accepted delete the selection is cleared exactly when it was that name; a refusal changes nothing |
| ProfilePanel.HandleSelect | src/components/ProfilePanel.tsx:56-65 | an accepted select makes the name the selection and moves to the cookie screen; a refusal changes nothing |
| PhotoChatPanel.LoadPhotos | src/components/ChatPage.tsx:24-33 | a good answer replaces the photos and the selection; a failure sets only the load error |
| PhotoChatPanel.OnProfileChange | src/components/ChatPage.tsx:19-22 | nothing without a profile; otherwise a reload |
| PhotoChatPanel.HandleSend | src/components/ChatPage.tsx:38-66 | no profile or blank input does nothing; otherwise the trimmed message is appended, then the reply, or the send error |
| PhotoChatPanel.HandleUpload | src/components/ChatPage.tsx:69-84 | needs a profile and a file; a completed upload reloads the list; a failure sets the upload error; uploading ends false |
| PhotoChatPanel.HandleSelect | src/components/ChatPage.tsx:87-117 | an accepted select makes the returned photo the selection and starts a chat with the opener; failures set the select error |
| PhotosPage.LoadPhotos | src/pages/PhotosPage.tsx:21-33 | nothing without a profile; a good answer replaces the images and the selection; a failure sets the load error |
| PhotosPage.HandleUpload | src/pages/PhotosPage.tsx:35-47 | needs a file and a profile; a completed upload clears the file and reloads; a failure sets the upload error |
| PhotosPage.HandleSelect | src/pages/PhotosPage.tsx:49-60 | after an accepted select, the photo passed in becomes the selection; a failure sets the select error |
| PhotoPicker.FindByFilename | src/components/PhotosPage.tsx:46 | the first photo with that name, and `None` exactly when no photo has it |
| PhotoPicker.FetchPhotos | src/components/PhotosPage.tsx:12-30 | nothing without a profile or on failure; otherwise the list is replaced, and the selection only when the answer has one |
| PhotoPicker.HandleFileChange | src/components/PhotosPage.tsx:33-52 | after an upload and a reload, the newly uploaded name is selected when it is in the new list; any failure changes nothing |
| PhotoPicker.HandleSelectPhoto | src/components/PhotosPage.tsx:55-66 | after an accepted select the photo passed in is selected; otherwise nothing changes |
| ProfileRegistry.Load | pkg/profiles.py:15-22 | a missing file is created holding `[]` and reads as empty; an existing one reads as its names |
| ProfileRegistry.List | pkg/profiles.py:32-35 | one entry per stored name, in stored order |
| ProfileRegistry.Create | pkg/profiles.py:39-56 | a blank name is refused with 400; an existing stripped name is refused with 400; otherwise the stripped name is appended and returned |
| ProfileRegistry.CreateKeepsNoDuplicates | pkg/profiles.py:45-50 | creating never introduces a duplicate name |
| ProfileRegistry.RemoveFirst | pkg/profiles.py:66 | `list.remove` drops exactly one occurrence: the multiset loses that name once |
| ProfileRegistry.RemoveFirstOrder | pkg/profiles.py:66 | in a duplicate-free list the name disappears entirely, every other name stays, and no duplicate appears |
| ProfileRegistry.Delete | pkg/profiles.py:60-78 | an unknown name is refused with 404 and the file is unchanged; otherwise the name is removed |
| ProfileRegistry.CreateThenDelete | pkg/profiles.py:39-67 | deleting what was just created restores the stored list |
| ProfileRegistry.Select | pkg/profiles.py:82-88 | succeeds exactly for a stored name and echoes it; otherwise 404 |
| VisionSessions.SessionFor | pkg/gpt4v.py:28-32 | the profile's session, created empty only when absent; other profiles unchanged |
| VisionSessions.SessionForIdempotent | pkg/gpt4v.py:28-32 | asking twice creates nothing more |
| VisionSessions.Recent | pkg/gpt4v.py:44 | the last fifteen turns, or all of them when fewer, as a suffix of the history |
| VisionSessions.RecentSlides | pkg/gpt4v.py:44 | once the window is full, a new turn pushes the oldest one out |
| VisionSessions.ShortTermMemoryEmptyIff | pkg/gpt4v.py:40-45 | the context is empty exactly when there is no history; otherwise it opens with the oldest turn in the window |
| VisionSessions.ShortTermMemoryGrows | pkg/gpt4v.py:40-45 | while the window is not full, a new turn is appended after a line break |
| VisionSessions.UniqueNameKeepsExtension | pkg/gpt4v.py:60-61 | splitting the stored name again gives the original extension and the stem with the timestamp tag |
| VisionSessions.UniqueNameInjective | pkg/gpt4v.py:60-61 | one file name uploaded in different seconds gets different stored names |
| VisionSessions.UploadImage | pkg/gpt4v.py:51-76 | the file is stored under its unique name; its URL is appended to the images and selected; history and other profiles unchanged |
| VisionSessions.SelectImage | pkg/gpt4v.py:82-138 | a name with no file on the disk, compared as given, gives 404 and no session change; a name standing for the directory itself ("", ".", "..") gives 500 after the selection is set; otherwise the URL is selected and exactly one opener turn is recorded |
| VisionSessions.Chat | pkg/gpt4v.py:144-233 | no selection gives 400; a vanished file gives 404; otherwise exactly one turn is recorded and the reply returned |
| VisionSessions.YearInReview | pkg/gpt4v.py:239-276 | exactly one turn with the fixed request is recorded and the reply returned |
| VisionSessions.UploadThenChat | pkg/gpt4v.py:51-157 | after an upload, a chat finds the selected file and records one turn |
| VisionSessions.UploadThenSelect | pkg/gpt4v.py:51-91 | after an upload, selecting the stored name finds the file |
| Agent.InitAgentState | pkg/agent.py:17-25 | a user's state is created empty only when absent; other users unchanged |
| Agent.InitAgentStateIdempotent | pkg/agent.py:17-25 | initialising twice is initialising once |
| Agent.SaveName | pkg/agent.py:34 | the stored name is the hex, an underscore, then the original file name |
| Agent.SavePathShape | pkg/agent.py:31-40 | the saved path lies directly in `static/uploads`, and its base name is the stored name |
| Agent.SavePathsDistinct | pkg/agent.py:34-35 | uploads with different uuids never share a path |
| Agent.MimeTable | pkg/agent.py:46-51 | png and webp map to their types; every other extension maps to jpeg |
| Agent.MimeOfSavedFile | pkg/agent.py:45-51 | the saved copy is typed by the original's lower-cased extension |
| Agent.UploadNode | pkg/agent.py:57-61 | without a file the state is unchanged; a name holding `/` fails with the save path; otherwise the saved path is written and becomes the image path |
| Agent.EncodeImage | pkg/agent.py:42-54 | a missing file fails with "Image not found: " and the path; otherwise the encoding and the file's MIME type |
| Agent.ChatNode | pkg/agent.py:63-88 | no image gives the state back unchanged; a missing file fails; otherwise exactly the human message and the reply are appended |
| Agent.ChainShape | pkg/agent.py:90-99 | for n human and AI messages the graph has exactly n nodes `{role}_{i}` labelled with their content, and n-1 `next` edges in order; it is well formed |
| Agent.NodeIdInjective | pkg/agent.py:94 | different positions give different node ids, whatever the roles |
| Agent.UpdateGraphNode | pkg/agent.py:90-110 | the state's graph becomes the chain graph of its messages |
| Agent.UpdateGraphNodeDropsConversation | pkg/agent.py:103-108 | as written, the long-term memory is left unchanged by every agent conversation |
| Agent.UpdateGraphNodeFixed | pkg/agent.py:90-110 | with roles mapped, the state is the one the code produces and the memory keeps its numbering |
| Agent.UpdateGraphNodeFixedLearns | pkg/agent.py:90-110 | with roles mapped, a failed extraction still leaves a "User said" edge tagged with the image for any non-blank text message, where the code as written leaves the memory unchanged |
| Agent.FixedConversationKeepsReplies | pkg/agent.py:103 | with roles mapped, every text reply of the model survives cleaning as an assistant message |
| Agent.UploadRoute | pkg/agent.py:113-119 | without a truthy user header, 400 and no change; a name holding `/` gives 500 with only the state created; otherwise the file is saved and its path answered |
| Agent.ChatRoute | pkg/agent.py:121-133 | the state is created; other users unchanged; no image gives 400; with an image the call succeeds exactly when its file exists, and then the human message with the image and the reply are appended, and the answer prints one content per message; on success the user's graph is the chain of the new message list and the image path is kept; a missing file gives 500 with only the state created; as written the memory graph is unchanged on every path |
| Agent.UploadThenChat | pkg/agent.py:113-133 | after an upload, a chat for the same user succeeds and adds the two messages |
| MemoryGraph.Clean | pkg/memory_kg.py:186-190 | keeps exactly the user and assistant messages with string content, in order |
| MemoryGraph.CleanIdempotent | pkg/memory_kg.py:186-190 | cleaning twice is cleaning once |
| MemoryGraph.TripletsOf | pkg/memory_kg.py:160-166 | keeps exactly the three-element sequences and the dicts with all three keys |
| MemoryGraph.TripletsOfOne | pkg/memory_kg.py:160-166 | one item gives its triplet when kept and nothing otherwise |
| MemoryGraph.TripletsOfAppend | pkg/memory_kg.py:160-166 | the triplets of a concatenation are those of each part in order, so the list keeps the items' order and multiplicity |
| MemoryGraph.ExtractTriplets | pkg/memory_kg.py:134-170 | blank text gives nothing; a failed call falls back to one "User said" triplet; otherwise the parsed triplets |
| MemoryGraph.FallbackQuotesText | pkg/memory_kg.py:167-170 | the fallback object is a prefix of the chunk text, at most 200 characters long |
| MemoryGraph.CleanTextsStripped | pkg/memory_kg.py:71 | every cleaned summary is non-empty and already stripped by Python's `strip` |
| MemoryGraph.CleanTextsComplete | pkg/memory_kg.py:71 | every summary that is not blank for Python survives, in stripped form |
| MemoryGraph.CleanTextsSound | pkg/memory_kg.py:71 | every cleaned summary is the stripped form of some input summary |
| MemoryGraph.CleanTextsIdempotent | pkg/memory_kg.py:69-74 | cleaning the summaries twice is cleaning once |
| MemoryGraph.AddEmbeddings | pkg/memory_kg.py:69-74 | nothing is indexed exactly when every summary is blank |
| MemoryGraph.Load | pkg/memory_kg.py:127-129 | the counter starts at the number of loaded nodes |
| MemoryGraph.EntityIdInjective | pkg/memory_kg.py:179 | different counters give different entity ids |
| MemoryGraph.IdOf | pkg/memory_kg.py:176-178 | a node is found exactly when some node has that label |
| MemoryGraph.FreshEntity | pkg/memory_kg.py:179-181 | in a memory this code built, the next entity id is not yet taken |
| MemoryGraph.GetOrCreateNode | pkg/memory_kg.py:175-182 | a known label returns its first node unchanged; otherwise a new node `entity_{counter}` is appended; the numbering invariant is kept |
| MemoryGraph.GetOrCreateTwice | pkg/memory_kg.py:175-182 | looking a label up right after creating it finds the same node and changes nothing |
| MemoryGraph.RelationTagged | pkg/memory_kg.py:202 | the relation equals the predicate exactly when no photo is given; otherwise it is tagged with the photo name |
| MemoryGraph.AddTriplet | pkg/memory_kg.py:199-204 | adds at most one edge and keeps the numbering invariant |
| MemoryGraph.AddTripletNumbered | pkg/memory_kg.py:199-203 | both end points exist afterwards and the edge between them carries the tagged relation |
| MemoryGraph.AddTriplets | pkg/memory_kg.py:198-204 | one summary per triplet, in order; at most one edge per triplet; the invariant is kept |
| MemoryGraph.AddChunk | pkg/memory_kg.py:184-207 | nothing is saved when no chat message or no triplet remains; otherwise one summary per triplet is indexed; the invariant is kept |
| MemoryGraph.AddChunkOnlyChat | pkg/memory_kg.py:186-194 | only chat messages matter: cleaning first changes nothing |
| MemoryGraph.AddChunkFallback | pkg/memory_kg.py:167-204 | when extraction fails on a chunk holding a non-blank chat message, the memory gains the "User said" edge to the first 200 characters, tagged with the photo, and indexes its one summary |
| MemoryGraph.AddChunkWithoutChat | pkg/memory_kg.py:191-192 | a chunk with no chat message leaves the memory alone and saves nothing |
| MemoryGraph.LastOfLast | pkg/memory_kg.py:217-226 | the last 10 of the last 30 are the last 10 |
| MemoryGraph.GraphLines | pkg/memory_kg.py:215-220 | at most ten lines, and they render the last ten edges of the edge view |
| MemoryGraph.RetrieveContext | pkg/memory_kg.py:212-227 | the recall is stripped, and empty only without search hits |
| MemoryGraph.RetrieveEmptyIff | pkg/memory_kg.py:222-227 | the recall is empty exactly when there are no hits and no edges |
| MemoryGraph.RecallWithoutHits | pkg/memory_kg.py:222-227 | with no hits the recall is the stripped graph section alone |
| MemoryGraph.GraphToJson | pkg/memory_kg.py:233-236 | one JSON node per node, with the label or else the id; one JSON edge per edge of the view, in order |
| MemoryGraph.GraphToJsonCoversEdges | pkg/memory_kg.py:235 | in a well-formed graph, every edge appears in the JSON, and nothing else does |
| Digraph.AddNode | pkg/memory_kg.py:181 | a new id is appended, an existing node is relabelled in place; edges and other nodes unchanged; well-formedness kept |
| Digraph.AddEdge | pkg/memory_kg.py:203 | missing end points are created; an existing edge is updated in place, otherwise appended; nothing else changes; well-formedness kept |
| Digraph.ViewOfPermutation | pkg/memory_kg.py:217 | the edge view lists every edge leaving a listed node exactly once |
| Digraph.EdgeViewPermutation | pkg/memory_kg.py:217 | in a well-formed graph the edge view is a reordering of the edges |
| PhotoService.InitUserSessionAsWritten | pkg/photo.py:29-47 | the session stored under the joined key is returned, created only when absent |
| PhotoService.SessionKeyCollision | pkg/photo.py:30 | users "a_b" and "a" with profiles "c" and "b_c" share one session and its directories |
| PhotoService.InitUserSession | pkg/photo.py:29-47 | keyed by the pair, a session is created only when absent, in the pair's own directories, with nothing selected; consistency is kept |
| PhotoService.InitUserSessionOwnDirs | pkg/photo.py:32-34 | every pair works in its own `data/profiles/{user}/{profile}` directories |
| PhotoService.DirsApart | pkg/photo.py:32-34 | the upload and processed directories are distinct and never end in `/`, so joining a file name adds exactly one separator |
| PhotoService.ListDir | pkg/photo.py:110 | exactly the plain names directly inside the directory |
| PhotoService.DrawFaces | pkg/photo.py:50-63 | the processed copy is written into the processed directory under the image's base name |
| PhotoService.Upload | pkg/photo.py:69-95 | a name standing for the directory itself fails with 500 and writes nothing; otherwise the file is stored under its original name; its processed copy becomes the selection; the answer carries the paths and the URL |
| PhotoService.UploadKeepsFiles | pkg/photo.py:79-83 | an upload only adds files: at most two new paths, after the existing ones |
| PhotoService.Listing | pkg/photo.py:101-136 | one entry per uploaded file, sorted by name, as a permutation of the directory listing; the selection is reported under its base name exactly when it is set and its file exists |
| PhotoService.ListingShowsFile | pkg/photo.py:109-119 | every plain file written into the pair's upload directory appears in the listing |
| PhotoService.ListShowsFile | pkg/photo.py:101-119 | `GET /api/photo/list` shows every plain file of the pair's upload directory, creating the session first when needed |
| PhotoService.Select | pkg/photo.py:142-171 | a name standing for the directory itself gives 500; a name whose joined path, compared as given, is not on the disk gives 404 "Image not found" and no selection change; otherwise the processed copy is selected and the URL is answered |
| PhotoService.SelectFailureKeepsSelection | pkg/photo.py:152-154 | a failed select changes no session |
| PhotoService.UploadThenList | pkg/photo.py:69-136 | after uploading a plain name, the listing shows it and reports it as the selection |
| PhotoService.UploadThenSelect | pkg/photo.py:69-157 | after uploading a plain name, selecting it succeeds |
| Text.Trim | pkg/profiles.py:41 | the input without surrounding whitespace of the given language (Python `str.isspace` or JavaScript WhiteSpace and LineTerminator): empty exactly for blank input, otherwise no such whitespace at either end |
| Text.TrimsDiffer | src/pages/ProfilesPage.tsx:54 | the two whitespace sets differ: U+001F is blank only for Python, U+FEFF only for JavaScript |
| Text.TrimIdempotent | pkg/profiles.py:41 | stripping twice is stripping once, in either language |
| Text.JoinKeepsMark | pkg/memory_kg.py:136-142 | joining keeps a non-blank piece's non-space character, so the joined text is not blank |
| Text.Sort | pkg/photo.py:110 | an ordered permutation of the input |
| Text.SortedPermutationsEqual | pkg/photo.py:110 | the sorted listing does not depend on the order the directory yields |
| Text.NatToString | pkg/gpt4v.py:61 | decimal digits without a leading zero |
| Text.ParseNatToString | pkg/gpt4v.py:61 | the rendered number reads back as the number |
| Text.Lower | pkg/agent.py:45 | no ASCII upper-case letter remains, and every other character is kept |
| Paths.PathJoin | pkg/photo.py:32-34 | an absolute second part replaces the first; after an empty first part or one ending in `/` the parts are concatenated; otherwise a single `/` is inserted |
| Paths.PathJoinEndsWith | pkg/photo.py:79 | whatever the directory, the joined path ends with the file name |
| Paths.Basename | pkg/photo.py:125 | the longest slash-free suffix of the path |
| Paths.BasenameOfJoin | pkg/photo.py:61 | the base name of a join with a slash-free name is that name |
| Paths.SplitExt | pkg/gpt4v.py:60 | stem and extension rebuild the path; the extension is a single dot-led, dot-free, slash-free suffix, empty for dot-files |
| Paths.SplitExtKeepsExtension | pkg/gpt4v.py:60-61 | inserting a plain tag between stem and extension keeps the extension |
| Wire.ListArrives | src/api/photos.ts:17-25 | the client reads back the photo service's listing: the same entries in name order and the same selection |
| Wire.ListShowsCreated | pkg/profiles.py:32-56 | after the registry accepts a name, its listing holds the name as stored |
| Wire.PanelCreateShows | src/components/ProfilePanel.tsx:33-42 | when the registry accepts the trimmed name, the panel clears its input and lists the name as stored; a refusal leaves the panel as it was |
| Wire.PanelCreateThenDelete | src/components/ProfilePanel.tsx:33-53 | creating then deleting a profile brings the panel back to the registry's earlier list and leaves the tab as it was |
| Wire.PanelSelectFollowsRegistry | src/components/ProfilePanel.tsx:56-65 | the panel selects a name and moves on exactly when the registry holds it; otherwise nothing changes |
| Wire.AutoSelectAccepted | src/api/photos.ts:28-53 | an upload returns the backend's stored name, the follow-up select asks for that name, and the backend accepts it |
| Wire.PanelSelectThenChat | src/components/ChatPage.tsx:87-117 | selecting a stored photo leaves the panel holding it with an empty URL and showing the intro and the chat reply, while the backend records both the opener turn and the intro turn |
| Wire.PanelSendAgrees | src/components/ChatPage.tsx:38-66 | a sent message adds the same exchange on the panel and in the backend's history; a refusal keeps the user's line, sets the send error and leaves the history alone |
| Wire.PanelUploadShowsListing | src/components/ChatPage.tsx:69-84 | after an upload the panel shows the photo service's files in name order, a permutation of the upload directory, and its selection |
| Wire.ScreenUploadShowsListing | src/pages/PhotosPage.tsx:35-47 | after an upload the screen clears the picked file and shows the photo service's files in name order and its selection |
| Wire.ScreenSelectFollowsBackend | src/pages/PhotosPage.tsx:49-60 | the screen selects a photo exactly when the backend finds its file, and a chat about it then succeeds; a refusal sets the select error |
| Wire.PickerFetchShowsListing | src/components/PhotosPage.tsx:12-30 | the picker shows the photo service's files in name order, taking its selection when there is one |
| Wire.PickerSelectsUpload | src/components/PhotosPage.tsx:33-52 | when the stored file is also in the user's upload directory, the picker selects the listed entry with the stored name |
| Wire.PickerSelectFollowsBackend | src/components/PhotosPage.tsx:55-66 | the picker selects a photo exactly when the backend finds its file; otherwise it is unchanged |

## Left out

- **External effects, not modelled:**
  - network I/O;
  - the language model, embeddings and the FAISS index (search hits and replies are inputs);
  - PIL and face detection (the processed image is a copy of the original);
  - file contents and base64 (the encoding is an input);
  - threads and locks;
  - `print`, `console` and `alert`.
- **Persistence:** the graph and embedding files of the memory adapters are not modelled. A memory is loaded from a given graph.
- **Front-end effects not modelled:**
  - the fortune screen's year-in-review effect (src/pages/FortunePage.tsx:81-104): it only displays text;
  - auto-scroll;
  - the rendering of every screen.
- `Transcript.Decode`: accepts only the canonical text `JSON.stringify` writes. That is the only writer of the seed slot; any other text counts as a parse failure.
- **Back-end base URL:** the `BACKEND_BASE_URL` environment override (pkg/gpt4v.py:10) is fixed at its default.
- **Folders:** the folder work of profile creation and deletion is not modelled. That covers the `makedirs` and recursive-delete calls (pkg/profiles.py:53-54, 69-76) and the directory creation elsewhere. Directories exist implicitly.
- `PhotoService.ListDir`: names containing `/` and nested directories are not listed. The upload directory holds only files written by the routes.
- `PhotoService.Upload`: a file name holding `/` is stored as a literal string under the upload directory. The source resolves it as a path instead. Depending on the name, the write then raises and the route answers 500 (a missing directory part), lands inside the upload directory under another name (`./a.jpg`), or lands outside it (an absolute name, which `os.path.join` keeps as it is).
- `VisionSessions.UploadImage`: a file name holding `/` is stored as a literal string under its unique name. The source resolves the tagged name as a path, with the same three outcomes as for `PhotoService.Upload`: a raise and 500, a write inside the profile's uploads under another name, or a write outside them for an absolute stem.
- `VisionSessions.SelectImage`: a name holding `/` is looked up on the disk as a literal string, not resolved as a path. The source checks `os.path.exists` on the joined path, so a name such as `./a.jpg` or an absolute path that reaches an existing file is selected there, where the model answers 404.
- `PhotoService.Select`: a name holding `/` is looked up on the disk as a literal joined string, not resolved as a path. The source checks `os.path.exists`, so `./a.jpg` with `a.jpg` uploaded is selected there, where the model answers 404 "Image not found".
- `Text.Lower`: only the ASCII letters `A`-`Z` are mapped. Python's `str.lower` also lowers other letters, such as `É` to `é`. The only caller, the MIME table of `Agent.MimeTable`, compares against ASCII extensions, so its result does not change.
- `PhotoService.InitUserSession`, `PhotoService.Upload`, `PhotoService.List`, `PhotoService.Listing`, `PhotoService.Select`: the routes run on sessions keyed by the (user, profile) pair, the corrected keying of the first finding below. The code as written keys by the joined string, which `PhotoService.InitUserSessionAsWritten` models; under it two colliding pairs share one directory.
- `ChatPage.HandleYearInReview`: a 2xx answer without `reply` stores `undefined` as the message content in the source (src/pages/ChatPage.tsx:100-103); the model stores the empty text. Both show as an empty bubble.
- `Agent.ChatRoute`: a missing `x-user-id` header is rejected by FastAPI with 422 before the route runs. That rejection is outside the model.
- `Agent.ChainShape`: states the shape only for human and AI messages. A system message in the state's history would make the edge loop assume an "assistant" predecessor id. The agent never stores system messages.
- `Agent.UpdateGraphNode`: the conversation file written to `data/conversations` is not modelled.
- `VisionSessions.SelectImage`, `VisionSessions.Chat`: the long-term memory update is not threaded through these routes. That update is `add_chunk_to_graph`, modelled by `MemoryGraph.AddChunk`.
- `MemoryGraph.TripletsOf`: values inside the model's answer are taken as strings, so `map(str, t)` is the identity here.
- Python `str()` of non-string values inside parsed triplets is left out for the same reason.
- `MemoryGraph.GraphToJson`: node and edge ids are strings throughout, so `str()` is the identity.

## Findings

| source | as written | input that shows it | evidently intended | confidence | as-written member | corrected member |
|---|---|---|---|---|---|---|
| pkg/photo.py:30 | sessions are keyed by `f"{user_id}_{profile}"` | user "a_b" with profile "c", then user "a" with profile "b_c": the second is handed the first one's session and directories `data/profiles/a_b/c` | one session per (user, profile) pair | high, not executed | PhotoService.SessionKeyCollision | PhotoService.InitUserSessionOwnDirs |
| pkg/agent.py:103-108 | the conversation handed to the memory uses `msg.type` ("human", "ai") as the role | any chat: the memory keeps only "user" and "assistant" messages with string content, so it drops every message and never learns anything | roles "user" and "assistant", as the memory expects | high, not executed | Agent.UpdateGraphNodeDropsConversation | Agent.FixedConversationKeepsReplies |

=== FILE: agent.dfy ===
/** The image agent (`pkg/agent.py`): per-user state holding the image
    path, the message list and a chain graph of the messages; the upload and
    chat nodes; the MIME choice for the image; the two routes and their
    guards. The vision model's reply, the uuid, the image's base64 text and
    the file system (a set of existing paths) are parameters. */
module Agent {
  import opened Wrappers
  import opened Text
  import opened Paths
  import opened Digraph
  import MemoryGraph

  /** The langchain message classes the state can hold. */
  datatype Kind = Human | Ai | System

  /** A message's content: plain text, or the human message's two parts —
      the fixed prompt and an image data URL of the given MIME type. */
  datatype Body = Plain(text: string) | Parts(mime: string, encoded: string)

  datatype Message = Message(kind: Kind, body: Body)

  datatype AgentState = AgentState(imagePath: Option<string>, messages: seq<Message>, graph: Graph)

  type States = map<string, AgentState>

  const Fresh := AgentState(None, [], Empty)
  const Prompt := "Please describe and interpret this image thoughtfully."

  /** `init_agent_state(user_id)`: a state is created only when the user
      has none; every existing state is kept. */
  function InitAgentState(states: States, user: string): (r: (AgentState, States))
    ensures user in r.1 && r.1[user] == r.0
    ensures user in states ==> r == (states[user], states)
    ensures user !in states ==> r.0 == Fresh && r.1.Keys == states.Keys + {user}
    ensures forall u :: u in states ==> u in r.1 && r.1[u] == states[u]
  {
    if user in states then (states[user], states) else (Fresh, states[user := Fresh])
  }

  lemma InitAgentStateIdempotent(states: States, user: string)
    ensures var (s, st) := InitAgentState(states, user);
      InitAgentState(st, user) == (s, st)
  {
  }

  const UploadDir := "static/uploads"

  /** The name `save_upload_file` stores under: the uuid's hex, `_`, the
      original file name. */
  function SaveName(hex: string, filename: string): (r: string)
    ensures |r| == |hex| + 1 + |filename|
    ensures r[..|hex|] == hex && r[|hex|] == '_' && r[|hex| + 1..] == filename
  {
    hex + "_" + filename
  }

  function SavePath(hex: string, filename: string): string {
    PathJoin(UploadDir, SaveName(hex, filename))
  }

  /** The saved path keeps the original file name at its end and is the
      upload directory joined with the saved name. */
  lemma SavePathShape(hex: string, filename: string)
    requires hex != "" && '/' !in hex && '/' !in filename
    ensures SavePath(hex, filename) == UploadDir + "/" + SaveName(hex, filename)
    ensures Basename(SavePath(hex, filename)) == SaveName(hex, filename)
  {
    assert UploadDir[|UploadDir| - 1] != '/';
    BasenameOfJoin(UploadDir, SaveName(hex, filename));
  }

  /** Two uploads with different uuids (hex strings have a fixed length)
      never share a path, whatever their file names. */
  lemma SavePathsDistinct(h1: string, h2: string, f1: string, f2: string)
    requires |h1| == |h2| && h1 != "" && h1 != h2
    requires '/' !in h1 && '/' !in h2
    ensures SavePath(h1, f1) != SavePath(h2, f2)
  {
    var n := |UploadDir| + 1;
    var p1, p2 := SavePath(h1, f1), SavePath(h2, f2);
    assert UploadDir[|UploadDir| - 1] != '/';
    assert p1 == UploadDir + "/" + SaveName(h1, f1);
    assert p2 == UploadDir + "/" + SaveName(h2, f2);
    assert p1[n..n + |h1|] == h1;
    assert p2[n..n + |h2|] == h2;
  }

  /** The MIME table of `encode_image_to_base64`, keyed by the lower-cased
      extension, with `image/jpeg` for anything it does not list. */
  function MimeTable(ext: string): (r: string)
    ensures r in {"image/png", "image/jpeg", "image/webp"}
    ensures r == "image/png" <==> ext == ".png"
    ensures r == "image/webp" <==> ext == ".webp"
  {
    if ext == ".png" then "image/png"
    else if ext == ".jpg" || ext == ".jpeg" then "image/jpeg"
    else if ext == ".webp" then "image/webp"
    else "image/jpeg"
  }

  function MimeFor(path: string): string {
    MimeTable(Lower(SplitExt(path).1))
  }

  /** The saved copy of `stem + ext` is typed by `ext`, the original's
      extension: the uuid prefix cannot change it. */
  lemma MimeOfSavedFile(hex: string, stem: string, ext: string)
    requires hex != "" && '/' !in hex && '.' !in hex && '/' !in stem
    requires ext != "" && ext[0] == '.' && '.' !in ext[1..] && '/' !in ext
    ensures MimeFor(SavePath(hex, stem + ext)) == MimeTable(Lower(ext))
  {
    var dir := UploadDir + "/";
    var comp := hex + "_" + stem;
    var front := dir + comp;
    SavePathShape(hex, stem + ext);
    assert SavePath(hex, stem + ext) == front + ext;
    assert RFind(front, '/') == |UploadDir| by {
      assert RFind(dir, '/') == |UploadDir|;
      RFindAbsent(comp, '/');
      RFindAppend(dir, comp, '/');
    }
    assert front[|UploadDir| + 1..] == comp;
    assert comp[|hex|] == '_';
    SplitExtOfExtension(front, ext);
  }

  /** An upload as the route receives it, with the uuid drawn for it. */
  datatype Upload = Upload(hex: string, filename: string)

  /** `upload_node`: without a file nothing changes. A given file is saved
      (the path joins the set of existing files) and becomes the image path.
      A file name holding `/` puts the file under a directory named after
      the fresh uuid, which no route ever creates, so `open` raises and the
      failing path comes back as the error. */
  function UploadNode(s: AgentState, disk: set<string>, file: Option<Upload>): (r: Result<(AgentState, set<string>), string>)
    ensures file.None? ==> r == Success((s, disk))
    ensures file.Some? && '/' in file.value.filename ==> r == Failure(SavePath(file.value.hex, file.value.filename))
    ensures file.Some? && '/' !in file.value.filename ==>
              && r.Success?
              && r.value.0 == s.(imagePath := Some(SavePath(file.value.hex, file.value.filename)))
              && r.value.1 == disk + {SavePath(file.value.hex, file.value.filename)}
  {
    match file
    case None => Success((s, disk))
    case Some(u) =>
      var path := SavePath(u.hex, u.filename);
      if '/' in u.filename then Failure(path)
      else Success((s.(imagePath := Some(path)), disk + {path}))
  }

  /** `encode_image_to_base64`: a missing file raises; otherwise the
      (abstract) base64 text comes back with the MIME type. */
  function EncodeImage(path: string, disk: set<string>, encoded: string): (r: Result<(string, string), string>)
    ensures r.Failure? <==> path !in disk
    ensures r.Failure? ==> r.error == "Image not found: " + path
    ensures r.Success? ==> r.value == (encoded, MimeFor(path))
  {
    if path !in disk then Failure("Image not found: " + path) else Success((encoded, MimeFor(path)))
  }

  /** `chat_node`: with no image the state comes back as it was; a missing
      image file raises; otherwise exactly two messages are appended — the
      human message carrying the image, then the model's reply. */
  function ChatNode(s: AgentState, disk: set<string>, encoded: string, reply: string): (r: Result<AgentState, string>)
    ensures !Truthy(s.imagePath) ==> r == Success(s)
    ensures Truthy(s.imagePath) ==> (r.Failure? <==> s.imagePath.value !in disk)
    ensures r.Success? && Truthy(s.imagePath) ==>
              && r.value.imagePath == s.imagePath && r.value.graph == s.graph
              && r.value.messages == s.messages
                   + [Message(Human, Parts(MimeFor(s.imagePath.value), encoded)), Message(Ai, Plain(reply))]
  {
    if !Truthy(s.imagePath) then Success(s)
    else
      var (data, mime) :- EncodeImage(s.imagePath.value, disk, encoded);
      Success(s.(messages := s.messages + [Message(Human, Parts(mime, data)), Message(Ai, Plain(reply))]))
  }

  /** `str(msg.content)`: the text itself, or the printed list of parts. */
  function Shown(b: Body): string {
    match b
    case Plain(t) => t
    case Parts(mime, data) =>
      "[{'type': 'text', 'text': '" + Prompt + "'}, {'type': 'image_url', 'image_url': 'data:"
        + mime + ";base64," + data + "'}]"
  }

  function RoleName(k: Kind): string {
    match k
    case Human => "user"
    case Ai => "assistant"
    case System => "system"
  }

  /** The role the edge loop assumes for the previous message: anything
      that is not a human message is taken to be the assistant's. */
  function PrevRoleName(k: Kind): string {
    if k == Human then "user" else "assistant"
  }

  function NodeId(role: string, i: nat): string {
    role + "_" + NatToString(i)
  }

  /** The id `{role}_{i}` of message `i`. */
  function MsgNodeId(ms: seq<Message>, i: nat): string
    requires i < |ms|
  {
    NodeId(RoleName(ms[i].kind), i)
  }

  /** One turn of the loop in `update_graph_node`: add node `i`, then, past
      the first, the `next` edge from node `i - 1`. */
  function ChainStep(g: Graph, ms: seq<Message>, i: nat): Graph
    requires i < |ms|
  {
    var g1 := AddNode(g, MsgNodeId(ms, i), Some(Shown(ms[i].body)));
    if i == 0 then g1
    else AddEdge(g1, NodeId(PrevRoleName(ms[i - 1].kind), i - 1), MsgNodeId(ms, i), Some("next"))
  }

  /** The graph after the first `n` turns of that loop. */
  function Chain(ms: seq<Message>, n: nat): Graph
    requires n <= |ms|
    decreases n, 0
  {
    if n == 0 then Empty else Turn(ms, n - 1)
  }

  /** Turn `i` of the loop, applied to the graph the first `i` turns built. */
  function Turn(ms: seq<Message>, i: nat): Graph
    requires i < |ms|
    decreases i, 1
  {
    ChainStep(Chain(ms, i), ms, i)
  }

  lemma NoUnderscoreInDigits(n: nat)
    ensures '_' !in NatToString(n)
  {
    var d := NatToString(n);
    forall i | 0 <= i < |d| ensures d[i] != '_' {
      assert IsDigit(d[i]);
    }
  }

  /** Different positions give different node ids, whatever the roles. */
  lemma NodeIdInjective(r1: string, r2: string, i: nat, j: nat)
    requires '_' !in r1 && '_' !in r2
    requires NodeId(r1, i) == NodeId(r2, j)
    ensures i == j
  {
    var s := NodeId(r1, i);
    NoUnderscoreInDigits(i);
    NoUnderscoreInDigits(j);
    RFindAbsent(NatToString(i), '_');
    RFindAbsent(NatToString(j), '_');
    RFindAppend(r1 + "_", NatToString(i), '_');
    RFindAppend(r2 + "_", NatToString(j), '_');
    assert RFind(r1 + "_", '_') == |r1|;
    assert RFind(r2 + "_", '_') == |r2|;
    assert s == (r1 + "_") + NatToString(i);
    assert s == (r2 + "_") + NatToString(j);
    assert |r1| == |r2|;
    assert s[|r1| + 1..] == NatToString(i) == NatToString(j);
    NatToStringInjective(i, j);
  }

  predicate NoSystem(ms: seq<Message>) {
    forall i :: 0 <= i < |ms| ==> ms[i].kind != System
  }

  /** Message `i`'s node: its id, labelled with its content. */
  function ChainNode(ms: seq<Message>, i: nat): Node
    requires i < |ms|
  {
    Node(MsgNodeId(ms, i), Some(Shown(ms[i].body)))
  }

  /** The `next` edge from message `i` to message `i + 1`. */
  function ChainEdge(ms: seq<Message>, i: nat): Edge
    requires i + 1 < |ms|
  {
    Edge(MsgNodeId(ms, i), MsgNodeId(ms, i + 1), Some("next"))
  }

  /** The shape `update_graph_node` promises for human and AI messages:
      one node `{role}_{i}` per message, labelled with its content, in
      order, and one `next` edge from each message to the following one. */
  predicate ChainShaped(g: Graph, ms: seq<Message>, n: nat)
    requires n <= |ms|
  {
    && |g.nodes| == n
    && (forall i :: 0 <= i < n ==> g.nodes[i] == ChainNode(ms, i))
    && |g.edges| == (if n == 0 then 0 else n - 1)
    && (forall i :: 0 <= i < |g.edges| ==> g.edges[i] == ChainEdge(ms, i))
  }

  /** Messages at different positions have different node ids. */
  lemma MsgNodeIdsDistinct(ms: seq<Message>, i: nat, j: nat)
    requires i < |ms| && j < |ms| && i != j
    ensures MsgNodeId(ms, i) != MsgNodeId(ms, j)
  {
    if MsgNodeId(ms, i) == MsgNodeId(ms, j) {
      NodeIdInjective(RoleName(ms[i].kind), RoleName(ms[j].kind), i, j);
    }
  }

  /** Message `i`'s id is not among the ids of the messages before it. */
  lemma FreshNodeId(g: Graph, ms: seq<Message>, i: nat)
    requires i < |ms| && ChainShaped(g, ms, i)
    ensures MsgNodeId(ms, i) !in Ids(g.nodes)
  {
    forall j | 0 <= j < |g.nodes| ensures Ids(g.nodes)[j] != MsgNodeId(ms, i) {
      assert g.nodes[j] == ChainNode(ms, j);
      MsgNodeIdsDistinct(ms, j, i);
    }
  }

  /** No edge of the first `i` turns already ends at message `i`. */
  lemma FreshEdge(g: Graph, ms: seq<Message>, i: nat)
    requires 0 < i < |ms| && ChainShaped(g, ms, i)
    ensures (MsgNodeId(ms, i - 1), MsgNodeId(ms, i)) !in Pairs(g.edges)
  {
    forall j | 0 <= j < |g.edges| ensures Pairs(g.edges)[j].1 != MsgNodeId(ms, i) {
      assert g.edges[j] == ChainEdge(ms, j);
      MsgNodeIdsDistinct(ms, j + 1, i);
    }
  }

  /** Adding a fresh node to a chain-shaped graph: the node list grows by
      the new message's node. */
  lemma ChainNodeStep(g: Graph, ms: seq<Message>, i: nat)
    requires i < |ms| && ChainShaped(g, ms, i) && WellFormed(g)
    ensures var g1 := AddNode(g, MsgNodeId(ms, i), Some(Shown(ms[i].body)));
      && g1.nodes == g.nodes + [ChainNode(ms, i)]
      && g1.edges == g.edges && WellFormed(g1)
  {
    FreshNodeId(g, ms, i);
    AddNodeFresh(g, MsgNodeId(ms, i), Some(Shown(ms[i].body)));
  }

  /** Adding the `next` edge into message `i` once its node exists: the
      nodes stay, and the edge is appended. */
  lemma ChainEdgeStep(g: Graph, g1: Graph, ms: seq<Message>, i: nat)
    requires 0 < i < |ms| && NoSystem(ms) && ChainShaped(g, ms, i)
    requires g1.nodes == g.nodes + [ChainNode(ms, i)] && g1.edges == g.edges && WellFormed(g1)
    ensures var g2 := AddEdge(g1, NodeId(PrevRoleName(ms[i - 1].kind), i - 1), MsgNodeId(ms, i), Some("next"));
      && g2.nodes == g1.nodes
      && g2.edges == g.edges + [ChainEdge(ms, i - 1)]
      && WellFormed(g2)
  {
    assert ms[i - 1].kind != System;
    ChainEdgeEnds(g, g1, ms, i);
    FreshEdge(g, ms, i);
  }

  /** Both ends of the `next` edge into message `i` are already nodes. */
  lemma ChainEdgeEnds(g: Graph, g1: Graph, ms: seq<Message>, i: nat)
    requires 0 < i < |ms| && ChainShaped(g, ms, i)
    requires g1.nodes == g.nodes + [ChainNode(ms, i)]
    ensures MsgNodeId(ms, i - 1) in Ids(g1.nodes) && MsgNodeId(ms, i) in Ids(g1.nodes)
  {
    assert g1.nodes[i - 1] == ChainNode(ms, i - 1) && g1.nodes[i] == ChainNode(ms, i);
    assert Ids(g1.nodes)[i - 1] == MsgNodeId(ms, i - 1) && Ids(g1.nodes)[i] == MsgNodeId(ms, i);
  }

  /** One turn of the loop keeps the chain shape, one message further. */
  lemma ChainStepShape(g: Graph, ms: seq<Message>, i: nat)
    requires i < |ms| && NoSystem(ms)
    requires ChainShaped(g, ms, i) && WellFormed(g)
    ensures ChainShaped(ChainStep(g, ms, i), ms, i + 1)
    ensures WellFormed(ChainStep(g, ms, i))
  {
    var g1 := AddNode(g, MsgNodeId(ms, i), Some(Shown(ms[i].body)));
    ChainNodeStep(g, ms, i);
    if i == 0 {
      assert ChainStep(g, ms, i) == g1;
    } else {
      var g2 := AddEdge(g1, NodeId(PrevRoleName(ms[i - 1].kind), i - 1), MsgNodeId(ms, i), Some("next"));
      assert ChainStep(g, ms, i) == g2;
      ChainEdgeStep(g, g1, ms, i);
      ChainShapedSnoc(g, g2, ms, i);
    }
  }

  lemma ChainShapedSnoc(g: Graph, g2: Graph, ms: seq<Message>, i: nat)
    requires 0 < i < |ms| && ChainShaped(g, ms, i)
    requires g2.nodes == g.nodes + [ChainNode(ms, i)] && g2.edges == g.edges + [ChainEdge(ms, i - 1)]
    ensures ChainShaped(g2, ms, i + 1)
  {
    ChainNodesSnoc(g.nodes, ms, i);
    ChainEdgesSnoc(g.edges, ms, i);
  }

  /** Appending message `i`'s node to the first `i` nodes gives the first `i + 1`. */
  lemma ChainNodesSnoc(nodes: seq<Node>, ms: seq<Message>, i: nat)
    requires i < |ms| && |nodes| == i && forall j :: 0 <= j < i ==> nodes[j] == ChainNode(ms, j)
    ensures forall j :: 0 <= j < i + 1 ==> (nodes + [ChainNode(ms, i)])[j] == ChainNode(ms, j)
  {
    var n2 := nodes + [ChainNode(ms, i)];
    forall j | 0 <= j < i + 1 ensures n2[j] == ChainNode(ms, j) {
      if j < i {
        assert n2[j] == nodes[j];
      }
    }
  }

  /** Appending the edge into message `i` to the first `i - 1` edges gives the first `i`. */
  lemma ChainEdgesSnoc(edges: seq<Edge>, ms: seq<Message>, i: nat)
    requires 0 < i < |ms| && |edges| == i - 1 && forall j :: 0 <= j < i - 1 ==> edges[j] == ChainEdge(ms, j)
    ensures forall j :: 0 <= j < i ==> (edges + [ChainEdge(ms, i - 1)])[j] == ChainEdge(ms, j)
  {
    var e2 := edges + [ChainEdge(ms, i - 1)];
    forall j | 0 <= j < i ensures e2[j] == ChainEdge(ms, j) {
      if j < i - 1 {
        assert e2[j] == edges[j];
      }
    }
  }

  /** For n human and AI messages, the chain graph has exactly n nodes and
      n - 1 `next` edges, from message i - 1 to message i. */
  lemma {:induction false} ChainShape(ms: seq<Message>, n: nat)
    requires n <= |ms| && NoSystem(ms)
    ensures ChainShaped(Chain(ms, n), ms, n)
    ensures WellFormed(Chain(ms, n))
    decreases n
  {
    if n > 0 {
      ChainShape(ms, n - 1);
      ChainStepShape(Chain(ms, n - 1), ms, n - 1);
    }
  }

  /** `msg.type`, which `update_graph_node` writes into the conversation
      it hands to the memory graph. */
  function TypeName(k: Kind): string {
    match k
    case Human => "human"
    case Ai => "ai"
    case System => "system"
  }

  function RawContent(b: Body): MemoryGraph.Content {
    match b
    case Plain(t) => MemoryGraph.Str(t)
    case Parts(_, _) => MemoryGraph.NonStr
  }

  /** The conversation as written: roles are message types. */
  function Conversation(ms: seq<Message>): (r: seq<MemoryGraph.RawMsg>)
    ensures |r| == |ms|
    ensures forall i :: 0 <= i < |ms| ==> r[i] == MemoryGraph.RawMsg(Some(TypeName(ms[i].kind)), RawContent(ms[i].body))
  {
    seq(|ms|, i requires 0 <= i < |ms| => MemoryGraph.RawMsg(Some(TypeName(ms[i].kind)), RawContent(ms[i].body)))
  }

  /** `update_graph_node` as written: the chain graph replaces the state's
      graph, and the conversation is handed to the memory graph with the
      image path as photo name. */
  function UpdateGraphNode(s: AgentState, mem: MemoryGraph.Memory, ex: MemoryGraph.Extraction): (r: (AgentState, MemoryGraph.Memory))
    ensures r.0 == s.(graph := Chain(s.messages, |s.messages|))
  {
    var g := Chain(s.messages, |s.messages|);
    (s.(graph := g), MemoryGraph.AddChunk(mem, Conversation(s.messages), s.imagePath, ex).0)
  }

  /** As written, the memory graph never learns anything from the agent:
      "human", "ai" and "system" are not the roles it keeps. */
  lemma UpdateGraphNodeDropsConversation(s: AgentState, mem: MemoryGraph.Memory, ex: MemoryGraph.Extraction)
    ensures UpdateGraphNode(s, mem, ex).1 == mem
  {
    var conv := Conversation(s.messages);
    forall x | x in conv ensures !MemoryGraph.IsChat(x) {
      var i :| 0 <= i < |conv| && conv[i] == x;
    }
    MemoryGraph.AddChunkWithoutChat(mem, conv, s.imagePath, ex);
  }

  /** The conversation with roles the memory graph understands. */
  function ChatConversation(ms: seq<Message>): (r: seq<MemoryGraph.RawMsg>)
    ensures |r| == |ms|
    ensures forall i :: 0 <= i < |ms| ==> r[i] == MemoryGraph.RawMsg(Some(RoleName(ms[i].kind)), RawContent(ms[i].body))
  {
    seq(|ms|, i requires 0 <= i < |ms| => MemoryGraph.RawMsg(Some(RoleName(ms[i].kind)), RawContent(ms[i].body)))
  }

  /** `update_graph_node` with the roles mapped to "user" and "assistant":
      the state is the one the code as written produces, and the memory
      keeps its numbering. */
  function UpdateGraphNodeFixed(s: AgentState, mem: MemoryGraph.Memory, ex: MemoryGraph.Extraction): (r: (AgentState, MemoryGraph.Memory))
    ensures r.0 == UpdateGraphNode(s, mem, ex).0
    ensures MemoryGraph.Numbered(mem) ==> MemoryGraph.Numbered(r.1)
    ensures r.1 == MemoryGraph.AddChunk(mem, ChatConversation(s.messages), s.imagePath, ex).0
  {
    (s.(graph := Chain(s.messages, |s.messages|)), MemoryGraph.AddChunk(mem, ChatConversation(s.messages), s.imagePath, ex).0)
  }

  /** With the roles mapped, every text reply of the model reaches the
      memory graph's extractor. */
  lemma FixedConversationKeepsReplies(ms: seq<Message>, i: nat)
    requires i < |ms| && ms[i].kind == Ai && ms[i].body.Plain?
    ensures MemoryGraph.RawMsg(Some("assistant"), MemoryGraph.Str(ms[i].body.text)) in MemoryGraph.Clean(ChatConversation(ms))
  {
    var conv := ChatConversation(ms);
    assert conv[i] in conv;
  }

  /** With the roles mapped, a text message of the user or the model reaches
      the memory graph: when the extraction call fails the chunk is kept as
      a "User said …" edge tagged with the image path, where the code as
      written leaves the memory as it was. */
  lemma UpdateGraphNodeFixedLearns(s: AgentState, mem: MemoryGraph.Memory, i: nat)
    requires MemoryGraph.Numbered(mem)
    requires i < |s.messages| && s.messages[i].kind != System && s.messages[i].body.Plain?
    requires !IsBlank(Python, s.messages[i].body.text)
    ensures var o := MemoryGraph.Prefix(MemoryGraph.ChunkText(MemoryGraph.Clean(ChatConversation(s.messages))), MemoryGraph.FallbackLength);
      var g := UpdateGraphNodeFixed(s, mem, MemoryGraph.Raised).1.graph;
      && MemoryGraph.IdOf(g, "User").Some? && MemoryGraph.IdOf(g, o).Some?
      && Edge(MemoryGraph.IdOf(g, "User").value, MemoryGraph.IdOf(g, o).value, Some(MemoryGraph.Relation("said", s.imagePath))) in g.edges
    ensures UpdateGraphNode(s, mem, MemoryGraph.Raised).1 == mem
  {
    var conv := ChatConversation(s.messages);
    assert conv[i] in conv;
    MemoryGraph.AddChunkFallback(mem, conv, s.imagePath, conv[i]);
    UpdateGraphNodeDropsConversation(s, mem, MemoryGraph.Raised);
  }

  datatype UploadAnswer = UploadAnswer(imagePath: Option<string>, message: string)

  const UploadedText := "Image uploaded successfully."

  /** `POST /api/agent/gpt4v/upload`: without a truthy user header the
      answer is 400 and no state is created. Otherwise the user's state is
      created if needed; a file that cannot be saved is an uncaught error
      (500, nothing else changes), and any other file is saved as the
      user's image. */
  function UploadRoute(states: States, disk: set<string>, user: Option<string>, file: Upload): (r: (Result<UploadAnswer, ApiError>, States, set<string>))
    ensures !Truthy(user) ==> r == (Failure(ApiError(400, "Missing x-user-id header")), states, disk)
    ensures Truthy(user) && '/' in file.filename ==>
              r == (Failure(InternalError), InitAgentState(states, user.value).1, disk)
    ensures Truthy(user) && '/' !in file.filename ==>
              && r.0 == Success(UploadAnswer(Some(SavePath(file.hex, file.filename)), UploadedText))
              && user.value in r.1 && r.1[user.value].imagePath == Some(SavePath(file.hex, file.filename))
              && r.2 == disk + {SavePath(file.hex, file.filename)}
    ensures Truthy(user) ==> forall u :: u in states && u != user.value ==> u in r.1 && r.1[u] == states[u]
  {
    if !Truthy(user) then (Failure(ApiError(400, "Missing x-user-id header")), states, disk)
    else
      var (s, st) := InitAgentState(states, user.value);
      match UploadNode(s, disk, Some(file))
      case Failure(_) => (Failure(InternalError), st, disk)
      case Success((s1, d1)) => (Success(UploadAnswer(s1.imagePath, UploadedText)), st[user.value := s1], d1)
  }

  /** `POST /api/agent/gpt4v/chat`: the user's state is created if
      needed; without an image the answer is 400; a missing image file is
      an uncaught error (500); otherwise the chat and graph nodes run and
      every message's content is returned. The graph node then rebuilds the
      user's chain graph from the new messages, and, as written, the memory
      graph comes back unchanged on every path. */
  function ChatRoute(states: States, disk: set<string>, user: string, encoded: string, reply: string,
                     mem: MemoryGraph.Memory, ex: MemoryGraph.Extraction): (r: (Result<seq<string>, ApiError>, States, MemoryGraph.Memory))
    ensures user in r.1
    ensures forall u :: u in states && u != user ==> u in r.1 && r.1[u] == states[u]
    ensures !Truthy(InitAgentState(states, user).0.imagePath) ==>
              r == (Failure(ApiError(400, "No image selected")), InitAgentState(states, user).1, mem)
    ensures Truthy(InitAgentState(states, user).0.imagePath) ==>
              (r.0.Success? <==> InitAgentState(states, user).0.imagePath.value in disk)
    ensures r.0.Success? ==>
              r.1[user].messages == InitAgentState(states, user).0.messages
                + [Message(Human, Parts(MimeFor(InitAgentState(states, user).0.imagePath.value), encoded)),
                   Message(Ai, Plain(reply))]
    ensures r.0.Success? ==>
              (&& |r.0.value| == |r.1[user].messages|
               && (forall i :: 0 <= i < |r.0.value| ==> r.0.value[i] == Shown(r.1[user].messages[i].body)))
    ensures r.0.Success? ==>
              && r.1[user].graph == Chain(r.1[user].messages, |r.1[user].messages|)
              && r.1[user].imagePath == InitAgentState(states, user).0.imagePath
    ensures Truthy(InitAgentState(states, user).0.imagePath) && r.0.Failure? ==>
              r == (Failure(InternalError), InitAgentState(states, user).1, mem)
    ensures r.2 == mem
  {
    var (s, st) := InitAgentState(states, user);
    if !Truthy(s.imagePath) then (Failure(ApiError(400, "No image selected")), st, mem)
    else
      match ChatNode(s, disk, encoded, reply)
      case Failure(_) => (Failure(InternalError), st, mem)
      case Success(s1) =>
        var (s2, mem1) := UpdateGraphNode(s1, mem, ex);
        UpdateGraphNodeDropsConversation(s1, mem, ex);
        (Success(Contents(s2.messages)), st[user := s2], mem1)
  }

  /** What the chat route answers: each message's content as printed. */
  function Contents(ms: seq<Message>): (r: seq<string>)
    ensures |r| == |ms|
    ensures forall i :: 0 <= i < |ms| ==> r[i] == Shown(ms[i].body)
  {
    seq(|ms|, i requires 0 <= i < |ms| => Shown(ms[i].body))
  }

  /** After an upload, a chat for the same user succeeds and ends the
      transcript with the image message and the model's reply. */
  lemma UploadThenChat(states: States, disk: set<string>, user: string, file: Upload,
                       encoded: string, reply: string, mem: MemoryGraph.Memory, ex: MemoryGraph.Extraction)
    requires user != "" && file.hex != "" && '/' !in file.hex && '/' !in file.filename
    ensures var (_, st, d) := UploadRoute(states, disk, Some(user), file);
      var (res, st2, _) := ChatRoute(st, d, user, encoded, reply, mem, ex);
      var n := |st[user].messages|;
      && res.Success?
      && |st2[user].messages| == n + 2
      && st2[user].messages[n + 1] == Message(Ai, Plain(reply))
      && res.value[n + 1] == reply
  {
    var path := SavePath(file.hex, file.filename);
    assert path != "" by {
      assert path == UploadDir + "/" + SaveName(file.hex, file.filename);
    }
  }
}

=== FILE: chat_page.dfy ===
/** The GPT chat screen (`src/pages/ChatPage.tsx`): it consumes the seed
    the upload pipeline leaves in storage, then grows its transcript by one
    user/assistant exchange per send or year-in-review request. Requests
    are abstract outcomes; `axios` rejects every non-2xx answer. */
module ChatPage {
  import opened Wrappers
  import opened Text
  import opened SessionStore
  import opened Transcript
  import FortunePage

  datatype View = View(messages: seq<Msg>, input: string, loading: bool)

  /** What an `axios.post` yields: a 2xx body whose `reply` field may be
      missing, or a rejection. */
  datatype Answer = Replied(reply: Option<string>) | Rejected

  const NoReplyText := "⚠️ No reply received from GPT."
  const SendErrorText := "⚠️ There was an error sending your message. Please check the console or backend logs."
  const YearPrompt := "✨ Show me my year in review!"
  const YearErrorText := "⚠️ Failed to generate year in review. Please try again later."

  /** The screen before its mount effect: nothing typed, nothing said. */
  const Initial := View([], "", false)

  /** The mount effect: a truthy "initialChat" slot becomes the transcript
      when it parses (and is ignored when it does not), and is removed either
      way; without a truthy slot nothing changes. */
  function Mount(v: View, storage: Storage): (r: (View, Storage))
    ensures InitialChatKey !in r.1 || (InitialChatKey in storage && storage[InitialChatKey] == "")
    ensures AgreeExcept(storage, r.1, InitialChatKey)
    ensures r.0.input == v.input && r.0.loading == v.loading
    ensures ReadSlot(storage, InitialChatKey).None? ==> r == (v, storage)
    ensures ReadSlot(storage, InitialChatKey).Some? && Decode(storage[InitialChatKey]).Some? ==>
              r.0.messages == Decode(storage[InitialChatKey]).value
    ensures ReadSlot(storage, InitialChatKey).Some? && Decode(storage[InitialChatKey]).None? ==>
              r.0.messages == v.messages
  {
    match ReadSlot(storage, InitialChatKey)
    case None => (v, storage)
    case Some(stored) =>
      var messages := match Decode(stored)
        case Some(ms) => ms
        case None => v.messages;
      (v.(messages := messages), RemoveItem(storage, InitialChatKey))
  }

  /** Mounting twice is mounting once: the seed is consumed by the first
      mount, so a second one finds nothing. */
  lemma MountConsumesOnce(v: View, storage: Storage)
    ensures var (v1, s1) := Mount(v, storage);
      Mount(v1, s1) == (v1, s1)
  {
  }

  /** End to end: a completed upload whose select answer carries a truthy
      `auto_reply` is followed, on the chat screen's first mount, by exactly
      the two seeded messages; a later mount sees no seed. */
  lemma PipelineSeedsChat(page: FortunePage.Page, t: Tab, s: FortunePage.Steps)
    requires FortunePage.Ready(page, t) && s.dataUrl.Some?
    requires FortunePage.Succeeds(s.upload) && FortunePage.Succeeds(s.select)
    requires Truthy(s.select.body.value.autoReply)
    ensures var r := FortunePage.HandleUpload(page, t, s);
      var (v1, s1) := Mount(Initial, r.tab.storage);
      && v1.messages == FortunePage.Seed(s.select.body.value.autoReply.value)
      && InitialChatKey !in s1
      && Mount(Initial, s1) == (Initial, s1)
  {
    var r := FortunePage.HandleUpload(page, t, s);
    FortunePage.SeedWritten(page, t, s);
    assert r.tab.storage[InitialChatKey] != "";
  }

  /** The reply shown for one send: the reply text, the fallback when the
      body's `reply` is missing or empty, the error text when the request
      rejects. */
  function ReplyText(a: Answer): (r: string)
    ensures a.Rejected? ==> r == SendErrorText
    ensures a.Replied? && Truthy(a.reply) ==> r == a.reply.value
    ensures a.Replied? && !Truthy(a.reply) ==> r == NoReplyText
    ensures r != ""
  {
    match a
    case Rejected => SendErrorText
    case Replied(reply) => if Truthy(reply) then reply.value else NoReplyText
  }

  /** The request `handleSend` makes: the profile and the untrimmed input. */
  datatype Request = Request(profile: string, userMessage: string)

  /** `handleSend`: whitespace-only input or no profile leaves everything
      as it was and sends nothing; otherwise the untrimmed input is sent,
      the input box clears, and exactly two messages are appended — the
      user's text as typed and the reply (or its stand-in). */
  function HandleSend(v: View, profile: Option<string>, a: Answer): (r: (View, Option<Request>))
    ensures IsBlank(JavaScript, v.input) || !Truthy(profile) ==> r == (v, None)
    ensures !IsBlank(JavaScript, v.input) && Truthy(profile) ==>
              && r.1 == Some(Request(profile.value, v.input))
              && r.0.messages == v.messages + [Msg("user", v.input), Msg("assistant", ReplyText(a))]
              && r.0.input == ""
              && !r.0.loading
  {
    if Trim(JavaScript, v.input) == "" then (v, None)
    else if !Truthy(profile) then (v, None)
    else
      (View(v.messages + [Msg("user", v.input), Msg("assistant", ReplyText(a))], "", false),
       Some(Request(profile.value, v.input)))
  }

  /** A send never rewrites the transcript: the old messages are a prefix
      of the new ones, and at most two are added. */
  lemma SendExtendsTranscript(v: View, profile: Option<string>, a: Answer)
    ensures var r := HandleSend(v, profile, a).0;
      && r.messages[..|v.messages|] == v.messages
      && |r.messages| - |v.messages| in {0, 2}
  {
  }

  /** `handleKeyPress`: Enter sends when no send is in flight; any other key,
      or Enter while loading, does nothing. */
  function HandleKeyPress(v: View, key: string, profile: Option<string>, a: Answer): (r: (View, Option<Request>))
    ensures key != "Enter" || v.loading ==> r == (v, None)
    ensures key == "Enter" && !v.loading ==> r == HandleSend(v, profile, a)
  {
    if key == "Enter" && !v.loading then HandleSend(v, profile, a) else (v, None)
  }

  /** `handleYearInReview`: without a profile nothing happens; otherwise the
      fixed prompt and one assistant message — the reply, or the failure
      text — are appended. A reply missing from a 2xx answer is stored as
      `undefined` there and as the empty text here; both show as an empty
      bubble. The input box is not touched. */
  function HandleYearInReview(v: View, profile: Option<string>, a: Answer): (r: View)
    ensures !Truthy(profile) ==> r == v
    ensures Truthy(profile) ==> |r.messages| == |v.messages| + 2
    ensures Truthy(profile) ==> r.messages[..|v.messages|] == v.messages
    ensures Truthy(profile) ==> r.messages[|v.messages|] == Msg("user", YearPrompt)
    ensures Truthy(profile) && a.Rejected? ==> r.messages[|v.messages| + 1] == Msg("assistant", YearErrorText)
    ensures Truthy(profile) && a.Replied? ==> r.messages[|v.messages| + 1] == Msg("assistant", a.reply.GetOr(""))
    ensures r.input == v.input && r.loading == v.loading
  {
    if !Truthy(profile) then v
    else
      var content := match a
        case Rejected => YearErrorText
        case Replied(reply) => reply.GetOr("");
      v.(messages := v.messages + [Msg("user", YearPrompt), Msg("assistant", content)])
  }
}

=== FILE: digraph.dfy ===
/** The part of a networkx `DiGraph` the backend relies on: nodes in
    insertion order, each with an optional label (the field `name`, as `label` is a reserved word); at most one edge per
    ordered pair of nodes, with one optional attribute; `add_node` and
    `add_edge` that update in place what already exists; `add_edge` that
    creates missing end points; and the edge view, which lists edges grouped
    by source node in node order, not in the order they were added. */
module Digraph {
  import opened Wrappers

  datatype Node = Node(id: string, name: Option<string>)
  datatype Edge = Edge(src: string, dst: string, attr: Option<string>)
  datatype Graph = Graph(nodes: seq<Node>, edges: seq<Edge>)

  const Empty := Graph([], [])

  predicate Distinct<T(==)>(s: seq<T>) {
    forall i, j :: 0 <= i < j < |s| ==> s[i] != s[j]
  }

  /** Index of the first `x` in `s`, or -1. */
  function IndexOf<T(==)>(s: seq<T>, x: T): (k: int)
    ensures -1 <= k < |s|
    ensures k >= 0 ==> s[k] == x
    ensures k < 0 <==> x !in s
    ensures k >= 0 ==> x !in s[..k]
  {
    if |s| == 0 then -1
    else if s[0] == x then 0
    else
      var k := IndexOf(s[1..], x);
      if k < 0 then -1
      else
        assert s[..k + 1] == [s[0]] + s[1..][..k];
        k + 1
  }

  function Ids(nodes: seq<Node>): (r: seq<string>)
    ensures |r| == |nodes|
    ensures forall i :: 0 <= i < |nodes| ==> r[i] == nodes[i].id
  {
    seq(|nodes|, i requires 0 <= i < |nodes| => nodes[i].id)
  }

  function Pairs(edges: seq<Edge>): (r: seq<(string, string)>)
    ensures |r| == |edges|
    ensures forall i :: 0 <= i < |edges| ==> r[i] == (edges[i].src, edges[i].dst)
  {
    seq(|edges|, i requires 0 <= i < |edges| => (edges[i].src, edges[i].dst))
  }

  /** Node ids are unique, edges are unique per ordered pair, and every edge
      joins two nodes of the graph. */
  predicate WellFormed(g: Graph) {
    && Distinct(Ids(g.nodes))
    && Distinct(Pairs(g.edges))
    && (forall e :: e in g.edges ==> e.src in Ids(g.nodes) && e.dst in Ids(g.nodes))
  }

  lemma DistinctSnoc<T>(s: seq<T>, x: T)
    requires Distinct(s) && x !in s
    ensures Distinct(s + [x])
  {
  }

  lemma IdsSnoc(nodes: seq<Node>, n: Node)
    ensures Ids(nodes + [n]) == Ids(nodes) + [n.id]
  {
  }

  lemma PairsSnoc(edges: seq<Edge>, e: Edge)
    ensures Pairs(edges + [e]) == Pairs(edges) + [(e.src, e.dst)]
  {
  }

  /** A graph with one more node, appended, that carries a fresh id. */
  lemma SnocWellFormed(g: Graph, n: Node)
    requires WellFormed(g) && n.id !in Ids(g.nodes)
    ensures WellFormed(g.(nodes := g.nodes + [n]))
  {
    IdsSnoc(g.nodes, n);
    DistinctSnoc(Ids(g.nodes), n.id);
  }

  /** The relabelling branch of `add_node`. */
  lemma RelabelFacts(g: Graph, k: int, id: string, name: Option<string>)
    requires 0 <= k < |g.nodes| && k == IndexOf(Ids(g.nodes), id)
    ensures var r := g.(nodes := g.nodes[k := Node(id, name)]);
      && Ids(r.nodes) == Ids(g.nodes)
      && r.nodes[IndexOf(Ids(r.nodes), id)].name == name
      && (forall i :: 0 <= i < |g.nodes| && g.nodes[i].id != id ==> r.nodes[i] == g.nodes[i])
      && (WellFormed(g) ==> WellFormed(r))
  {
    var r := g.(nodes := g.nodes[k := Node(id, name)]);
    assert Ids(r.nodes) == Ids(g.nodes);
  }

  /** The appending branch of `add_node`. */
  lemma AppendFacts(g: Graph, id: string, name: Option<string>)
    requires id !in Ids(g.nodes)
    ensures var r := g.(nodes := g.nodes + [Node(id, name)]);
      && Ids(r.nodes) == Ids(g.nodes) + [id]
      && r.nodes[IndexOf(Ids(r.nodes), id)].name == name
      && (forall i :: 0 <= i < |g.nodes| ==> r.nodes[i] == g.nodes[i])
      && (WellFormed(g) ==> WellFormed(r))
  {
    IdsSnoc(g.nodes, Node(id, name));
    IndexOfSnoc(Ids(g.nodes), id);
    if WellFormed(g) {
      SnocWellFormed(g, Node(id, name));
    }
  }

  lemma IndexOfSnoc<T>(s: seq<T>, x: T)
    requires x !in s
    ensures IndexOf(s + [x], x) == |s|
  {
  }

  /** `G.add_node(id, label=name)`: a new id is appended; an existing node
      keeps its place and gets the new label. Edges are untouched. */
  function AddNode(g: Graph, id: string, name: Option<string>): (r: Graph)
    ensures Ids(r.nodes) == if id in Ids(g.nodes) then Ids(g.nodes) else Ids(g.nodes) + [id]
    ensures r.nodes[IndexOf(Ids(r.nodes), id)].name == name
    ensures forall i :: 0 <= i < |g.nodes| && g.nodes[i].id != id ==> r.nodes[i] == g.nodes[i]
    ensures r.edges == g.edges
    ensures WellFormed(g) ==> WellFormed(r)
  {
    var k := IndexOf(Ids(g.nodes), id);
    if k >= 0 then
      RelabelFacts(g, k, id, name);
      g.(nodes := g.nodes[k := Node(id, name)])
    else
      AppendFacts(g, id, name);
      g.(nodes := g.nodes + [Node(id, name)])
  }

  /** Adding a node that is not there yet appends it. */
  lemma AddNodeFresh(g: Graph, id: string, name: Option<string>)
    requires id !in Ids(g.nodes)
    ensures AddNode(g, id, name) == g.(nodes := g.nodes + [Node(id, name)])
  {
  }

  /** The end point `add_edge` creates when it is missing: no label. */
  function EnsureNode(g: Graph, id: string): (r: Graph)
    ensures |r.nodes| >= |g.nodes| && r.nodes[..|g.nodes|] == g.nodes
    ensures Ids(r.nodes) == if id in Ids(g.nodes) then Ids(g.nodes) else Ids(g.nodes) + [id]
    ensures forall x :: x in Ids(r.nodes) <==> x in Ids(g.nodes) || x == id
    ensures id in Ids(g.nodes) ==> r.nodes == g.nodes
    ensures r.edges == g.edges
    ensures WellFormed(g) ==> WellFormed(r)
  {
    if id in Ids(g.nodes) then g
    else
      IdsSnoc(g.nodes, Node(id, None));
      assert (g.nodes + [Node(id, None)])[..|g.nodes|] == g.nodes;
      if WellFormed(g) then SnocWellFormed(g, Node(id, None)); g.(nodes := g.nodes + [Node(id, None)])
      else g.(nodes := g.nodes + [Node(id, None)])
  }

  /** Re-tagging edge `k` in place keeps the pairs, hence their distinctness. */
  lemma RetagPairs(edges: seq<Edge>, k: int, attr: Option<string>)
    requires 0 <= k < |edges|
    ensures Pairs(edges[k := Edge(edges[k].src, edges[k].dst, attr)]) == Pairs(edges)
  {
    assert Pairs(edges[k := Edge(edges[k].src, edges[k].dst, attr)]) == Pairs(edges);
  }

  /** The edge half of `add_edge` once both end points exist: an existing
      `u → v` edge keeps its place and gets the new attribute, otherwise the
      edge is appended. */
  function UpsertEdge(g: Graph, u: string, v: string, attr: Option<string>): (r: Graph)
    ensures r.nodes == g.nodes
    ensures Edge(u, v, attr) in r.edges
    ensures |r.edges| == |g.edges| + (if (u, v) in Pairs(g.edges) then 0 else 1)
    ensures forall i :: 0 <= i < |g.edges| && (g.edges[i].src, g.edges[i].dst) != (u, v) ==> r.edges[i] == g.edges[i]
    ensures forall e :: e in r.edges ==> e in g.edges || e == Edge(u, v, attr)
    ensures (u, v) !in Pairs(g.edges) ==> r.edges == g.edges + [Edge(u, v, attr)]
    ensures Distinct(Pairs(g.edges)) ==> Distinct(Pairs(r.edges))
  {
    var k := IndexOf(Pairs(g.edges), (u, v));
    if k >= 0 then
      RetagPairs(g.edges, k, attr);
      var r := g.(edges := g.edges[k := Edge(u, v, attr)]);
      assert r.edges[k] == Edge(u, v, attr);
      r
    else
      PairsSnoc(g.edges, Edge(u, v, attr));
      if Distinct(Pairs(g.edges)) then DistinctSnoc(Pairs(g.edges), (u, v)); g.(edges := g.edges + [Edge(u, v, attr)])
      else g.(edges := g.edges + [Edge(u, v, attr)])
  }

  /** Appending nodes keeps the earlier ones as a prefix. */
  lemma PrefixTwice(a: seq<Node>, b: seq<Node>, c: seq<Node>)
    requires |b| >= |a| && b[..|a|] == a
    requires |c| >= |b| && c[..|b|] == b
    ensures c[..|a|] == a
  {
    assert c[..|b|][..|a|] == c[..|a|];
  }

  /** Creating both end points, as `add_edge` does first. */
  lemma EnsureBoth(g: Graph, u: string, v: string)
    ensures var g2 := EnsureNode(EnsureNode(g, u), v);
      && u in Ids(g2.nodes) && v in Ids(g2.nodes)
      && |g2.nodes| >= |g.nodes| && g2.nodes[..|g.nodes|] == g.nodes
      && (forall x :: x in Ids(g2.nodes) ==> x in Ids(g.nodes) || x == u || x == v)
      && (u in Ids(g.nodes) && v in Ids(g.nodes) ==> g2.nodes == g.nodes)
      && g2.edges == g.edges
      && (WellFormed(g) ==> WellFormed(g2))
  {
    var g1 := EnsureNode(g, u);
    var g2 := EnsureNode(g1, v);
    PrefixTwice(g.nodes, g1.nodes, g2.nodes);
    assert u in Ids(g1.nodes);
  }

  /** `G.add_edge(u, v, attr)`: missing end points are created, then the
      edge is added or its attribute replaced. No other node or edge
      changes. */
  function AddEdge(g: Graph, u: string, v: string, attr: Option<string>): (r: Graph)
    ensures u in Ids(r.nodes) && v in Ids(r.nodes)
    ensures |r.nodes| >= |g.nodes| && r.nodes[..|g.nodes|] == g.nodes
    ensures forall x :: x in Ids(r.nodes) ==> x in Ids(g.nodes) || x == u || x == v
    ensures u in Ids(g.nodes) && v in Ids(g.nodes) ==> r.nodes == g.nodes
    ensures Edge(u, v, attr) in r.edges
    ensures (u, v) !in Pairs(g.edges) ==> r.edges == g.edges + [Edge(u, v, attr)]
    ensures |r.edges| == |g.edges| + (if (u, v) in Pairs(g.edges) then 0 else 1)
    ensures forall i :: 0 <= i < |g.edges| && (g.edges[i].src, g.edges[i].dst) != (u, v) ==> r.edges[i] == g.edges[i]
    ensures WellFormed(g) ==> WellFormed(r)
  {
    var g2 := EnsureNode(EnsureNode(g, u), v);
    EnsureBoth(g, u, v);
    UpsertEdge(g2, u, v, attr)
  }

  /** The edges of `es` leaving `x`, in order. */
  function From(es: seq<Edge>, x: string): (r: seq<Edge>)
    ensures forall e :: e in r ==> e in es && e.src == x
  {
    if |es| == 0 then [] else (if es[0].src == x then [es[0]] else []) + From(es[1..], x)
  }

  /** The edges of `es` not leaving `x`, in order. */
  function NotFrom(es: seq<Edge>, x: string): (r: seq<Edge>)
    ensures forall e :: e in r ==> e in es && e.src != x
  {
    if |es| == 0 then [] else (if es[0].src != x then [es[0]] else []) + NotFrom(es[1..], x)
  }

  lemma {:induction false} SplitFrom(es: seq<Edge>, x: string)
    ensures multiset(From(es, x)) + multiset(NotFrom(es, x)) == multiset(es)
  {
    if |es| > 0 {
      var h, t := es[0], es[1..];
      SplitFrom(t, x);
      assert es == [h] + t;
      assert multiset(es) == multiset{h} + multiset(t);
      if h.src == x {
        assert From(es, x) == [h] + From(t, x);
        assert NotFrom(es, x) == NotFrom(t, x);
      } else {
        assert From(es, x) == From(t, x);
        assert NotFrom(es, x) == [h] + NotFrom(t, x);
      }
    }
  }

  /** The edges node by node: those leaving the first node, then the rest
      of the view over the remaining nodes. */
  function ViewOf(nodes: seq<Node>, es: seq<Edge>): seq<Edge>
    decreases |nodes|
  {
    if |nodes| == 0 then [] else From(es, nodes[0].id) + ViewOf(nodes[1..], NotFrom(es, nodes[0].id))
  }

  /** `G.edges`: networkx's edge view, grouped by source in node order. */
  function EdgeView(g: Graph): seq<Edge> {
    ViewOf(g.nodes, g.edges)
  }

  /** The edges of `es` whose source is not among `ids`, in order. */
  function Unlisted(es: seq<Edge>, ids: seq<string>): (r: seq<Edge>)
    ensures forall e :: e in r ==> e in es && e.src !in ids
  {
    if |es| == 0 then [] else (if es[0].src !in ids then [es[0]] else []) + Unlisted(es[1..], ids)
  }

  lemma {:induction false} UnlistedNone(es: seq<Edge>, ids: seq<string>)
    requires forall e :: e in es ==> e.src in ids
    ensures Unlisted(es, ids) == []
  {
    if |es| > 0 {
      assert es[0] in es;
      UnlistedNone(es[1..], ids);
    }
  }

  lemma {:induction false} UnlistedAll(es: seq<Edge>)
    ensures Unlisted(es, []) == es
  {
    if |es| > 0 {
      UnlistedAll(es[1..]);
      assert es == [es[0]] + es[1..];
    }
  }

  lemma {:induction false} UnlistedAfterFirst(es: seq<Edge>, x: string, rest: seq<string>)
    ensures Unlisted(NotFrom(es, x), rest) == Unlisted(es, [x] + rest)
  {
    if |es| > 0 {
      var e, t := es[0], es[1..];
      UnlistedAfterFirst(t, x, rest);
      assert Unlisted(es, [x] + rest) == (if e.src !in [x] + rest then [e] else []) + Unlisted(t, [x] + rest);
      if e.src == x {
        assert NotFrom(es, x) == NotFrom(t, x);
        assert e.src in [x] + rest;
      } else {
        var nf := [e] + NotFrom(t, x);
        assert NotFrom(es, x) == nf;
        assert nf[0] == e && nf[1..] == NotFrom(t, x);
        assert (e.src !in [x] + rest) == (e.src !in rest);
      }
    }
  }

  /** The view lists every edge that leaves a listed node, once each. */
  lemma {:induction false} ViewOfPermutation(nodes: seq<Node>, es: seq<Edge>)
    ensures multiset(ViewOf(nodes, es)) + multiset(Unlisted(es, Ids(nodes))) == multiset(es)
    decreases |nodes|
  {
    if |nodes| == 0 {
      UnlistedAll(es);
    } else {
      var x := nodes[0].id;
      ViewOfPermutation(nodes[1..], NotFrom(es, x));
      assert Ids(nodes) == [x] + Ids(nodes[1..]);
      UnlistedAfterFirst(es, x, Ids(nodes[1..]));
      SplitFrom(es, x);
    }
  }

  /** In a well-formed graph the edge view is a reordering of the edges. */
  lemma EdgeViewPermutation(g: Graph)
    requires WellFormed(g)
    ensures multiset(EdgeView(g)) == multiset(g.edges)
    ensures |EdgeView(g)| == |g.edges|
  {
    ViewOfPermutation(g.nodes, g.edges);
    UnlistedNone(g.edges, Ids(g.nodes));
    assert |multiset(EdgeView(g))| == |multiset(g.edges)|;
  }
}

=== FILE: fortune_page.dfy ===
/** The fortune-cookie screen (`src/pages/FortunePage.tsx`): the cookie
    toggle and the upload-to-chat pipeline. The pipeline is a fold over the
    outcomes of its external steps (reading the file as a data URL, the
    upload request, the select request); each step either continues or
    throws, and whatever it already wrote to the profile context and to
    storage stays written. */
module FortunePage {
  import opened Wrappers
  import opened Gateway
  import opened SessionStore
  import opened Transcript

  datatype Page = Page(openedIndex: Option<int>, file: Option<FileRef>, reply: string,
                       loading: bool, refreshKey: int, route: string)

  /** The two requests the pipeline can send, in the order it sends them. */
  datatype Call = UploadRequest(profile: string) | SelectRequest(profile: string, filename: string)

  /** The JSON bodies the two backend endpoints answer with. */
  datatype UploadReply = UploadReply(filename: string, publicUrl: Option<string>)
  datatype SelectReply = SelectReply(publicUrl: Option<string>, autoReply: Option<string>)

  /** How each external step of one run turns out. `dataUrl` is `None` when
      the file reader fails. */
  datatype Steps = Steps(dataUrl: Option<string>, upload: Http<UploadReply>, select: Http<SelectReply>)

  datatype Run = Run(page: Page, tab: Tab, calls: seq<Call>)

  const ChatRoute := "/chat"
  const UploadFailedReply := "⚠️ Upload failed. See console for details."
  const SeedUserText := "Let's talk about this photo."

  /** The transcript the pipeline leaves for the chat screen. */
  function Seed(autoReply: string): seq<Msg> {
    [Msg("user", SeedUserText), Msg("assistant", autoReply)]
  }

  /** A step that neither rejects, nor answers non-2xx, nor fails to parse. */
  predicate Succeeds<T>(h: Http<T>) {
    h.Response? && IsOk(h.status) && h.body.Some?
  }

  /** `handleCookieClick(index)`: clicking the open cookie closes it, any
      other click opens that cookie; the file and reply are reset either way. */
  function HandleCookieClick(page: Page, index: int): (r: Page)
    ensures r.openedIndex.None? <==> page.openedIndex == Some(index)
    ensures r.openedIndex.Some? ==> r.openedIndex.value == index
    ensures r.file.None? && r.reply == ""
    ensures r.loading == page.loading && r.refreshKey == page.refreshKey && r.route == page.route
  {
    page.(openedIndex := if Some(index) == page.openedIndex then None else Some(index),
          file := None, reply := "")
  }

  /** Clicking the same cookie twice restores the open/closed state when it
      was closed or was that cookie. */
  lemma CookieClickTwice(page: Page, index: int)
    requires page.openedIndex.None? || page.openedIndex == Some(index)
    ensures HandleCookieClick(HandleCookieClick(page, index), index).openedIndex == page.openedIndex
  {
  }

  /** `localStorage.setItem("uploadedPhoto", url)` followed by `setUploadedPhoto(url)`. */
  function ShowPhoto(t: Tab, url: string): (r: Tab)
    ensures r.store == t.store.(photo := Some(url))
    ensures ReadSlot(r.storage, UploadedPhotoKey) == (if url != "" then Some(url) else None)
    ensures AgreeExcept(t.storage, r.storage, UploadedPhotoKey)
  {
    SetUploadedPhoto(Tab(t.store, SetItem(t.storage, UploadedPhotoKey, url)), Some(url))
  }

  /** What the `try` block leaves behind: the context and storage, the
      requests sent, and whether it ran to the end without throwing. */
  datatype Outcome = Outcome(tab: Tab, calls: seq<Call>, completed: bool)

  /** The `try` block of `handleUpload` for `profile`, step by step. */
  function Pipeline(t: Tab, profile: string, s: Steps): (o: Outcome)
    ensures o.completed ==> s.dataUrl.Some? && Succeeds(s.upload) && Succeeds(s.select)
    ensures o.tab.store.profile == t.store.profile
    ensures s.dataUrl.None? ==> o == Outcome(t, [], false)
    ensures AgreeOutside(t.storage, o.tab.storage, {UploadedPhotoKey, InitialChatKey})
  {
    match s.dataUrl
    case None => Outcome(t, [], false)
    case Some(u) =>
      var t1 := ShowPhoto(t, u);
      var calls1 := [UploadRequest(profile)];
      if !Succeeds(s.upload) then Outcome(t1, calls1, false)
      else
        var up := s.upload.body.value;
        var t2 := if Truthy(up.publicUrl) then ShowPhoto(t1, up.publicUrl.value) else t1;
        var calls2 := calls1 + [SelectRequest(profile, up.filename)];
        if !Succeeds(s.select) then Outcome(t2, calls2, false)
        else
          var sel := s.select.body.value;
          var t3 := if Truthy(sel.publicUrl) then ShowPhoto(t2, sel.publicUrl.value) else t2;
          var t4 := if Truthy(sel.autoReply)
                    then Tab(t3.store, SetItem(t3.storage, InitialChatKey, Encode(Seed(sel.autoReply.value))))
                    else t3;
          Outcome(t4, calls2, true)
  }

  /** `handleUpload`'s guard: a file is picked and a profile is active. */
  predicate Ready(page: Page, t: Tab) {
    page.file.Some? && Truthy(t.store.profile)
  }

  /** `handleUpload`: without a file or a profile nothing happens at all;
      otherwise the pipeline runs, a completed run bumps the refresh key by
      one and goes to the chat screen, a thrown one shows the failure reply,
      and `loading` ends false. The profile is never changed. */
  function HandleUpload(page: Page, t: Tab, s: Steps): (r: Run)
    ensures !Ready(page, t) ==> r == Run(page, t, [])
    ensures Ready(page, t) ==> !r.page.loading
    ensures r.tab.store.profile == t.store.profile
    ensures r.page.openedIndex == page.openedIndex && r.page.file == page.file
    ensures r.page.refreshKey == page.refreshKey || r.page.refreshKey == page.refreshKey + 1
    ensures r.page.refreshKey == page.refreshKey + 1 <==>
              Ready(page, t) && s.dataUrl.Some? && Succeeds(s.upload) && Succeeds(s.select)
    ensures r.page.refreshKey == page.refreshKey + 1 ==> r.page.route == ChatRoute && r.page.reply == page.reply
    ensures Ready(page, t) && r.page.refreshKey == page.refreshKey ==>
              r.page.reply == UploadFailedReply && r.page.route == page.route
  {
    if !Ready(page, t) then Run(page, t, [])
    else
      var o := Pipeline(t, t.store.profile.value, s);
      var p := if o.completed then page.(refreshKey := page.refreshKey + 1, route := ChatRoute)
               else page.(reply := UploadFailedReply);
      Run(p.(loading := false), o.tab, o.calls)
  }

  /** Requests go out in order: the upload first, and the select only after
      an upload that succeeded, naming the file the upload reported. */
  lemma RequestOrder(page: Page, t: Tab, s: Steps)
    requires Ready(page, t)
    ensures var r := HandleUpload(page, t, s);
      && |r.calls| <= 2
      && (|r.calls| >= 1 <==> s.dataUrl.Some?)
      && (|r.calls| >= 1 ==> r.calls[0] == UploadRequest(t.store.profile.value))
      && (|r.calls| == 2 <==> s.dataUrl.Some? && Succeeds(s.upload))
      && (|r.calls| == 2 ==> r.calls[1] == SelectRequest(t.store.profile.value, s.upload.body.value.filename))
  {
  }

  /** The data URL becomes the active photo before any request; when the
      upload then fails it is still the active photo, in memory and in its
      slot, and nothing was seeded or navigated. */
  lemma UploadFailureKeepsDataUrl(page: Page, t: Tab, s: Steps, u: string)
    requires Ready(page, t) && s.dataUrl == Some(u) && !Succeeds(s.upload)
    ensures var r := HandleUpload(page, t, s);
      && r.tab.store.photo == Some(u)
      && ReadSlot(r.tab.storage, UploadedPhotoKey) == (if u != "" then Some(u) else None)
      && AgreeExcept(t.storage, r.tab.storage, UploadedPhotoKey)
      && r.page.route == page.route
      && r.page.reply == UploadFailedReply
  {
  }

  /** The photo a run leaves active: the last of the data URL, the upload's
      `public_url` and the select response's `public_url` that was reached
      and truthy. */
  function ActivePhoto(s: Steps): Option<string>
    requires s.dataUrl.Some?
  {
    var afterUpload := if Succeeds(s.upload) && Truthy(s.upload.body.value.publicUrl)
                       then s.upload.body.value.publicUrl else s.dataUrl;
    if Succeeds(s.upload) && Succeeds(s.select) && Truthy(s.select.body.value.publicUrl)
    then s.select.body.value.publicUrl else afterUpload
  }

  /** Each `public_url` reached replaces the active photo, in memory and in its slot. */
  lemma PublicUrlReplacesPhoto(page: Page, t: Tab, s: Steps)
    requires Ready(page, t) && s.dataUrl.Some?
    ensures var r := HandleUpload(page, t, s);
      && r.tab.store.photo == ActivePhoto(s)
      && ReadSlot(r.tab.storage, UploadedPhotoKey) == (if ActivePhoto(s).value != "" then ActivePhoto(s) else None)
  {
  }

  /** A failed select request leaves no seed and no navigation. */
  lemma SelectFailureNoSeed(page: Page, t: Tab, s: Steps)
    requires Ready(page, t) && s.dataUrl.Some? && Succeeds(s.upload) && !Succeeds(s.select)
    ensures var r := HandleUpload(page, t, s);
      && (InitialChatKey in r.tab.storage <==> InitialChatKey in t.storage)
      && (InitialChatKey in t.storage ==> r.tab.storage[InitialChatKey] == t.storage[InitialChatKey])
      && r.page.route == page.route
  {
  }

  /** The seed: after a completed run with a truthy `auto_reply` the
      "initialChat" slot parses back to exactly the two seeded messages; in
      every other run the slot is left as it was. */
  lemma SeedWritten(page: Page, t: Tab, s: Steps)
    ensures var r := HandleUpload(page, t, s);
      var seeded := Ready(page, t) && s.dataUrl.Some? && Succeeds(s.upload) && Succeeds(s.select)
                    && Truthy(s.select.body.value.autoReply);
      && (seeded ==> InitialChatKey in r.tab.storage
                     && Decode(r.tab.storage[InitialChatKey]) == Some(Seed(s.select.body.value.autoReply.value)))
      && (!seeded ==> (InitialChatKey in r.tab.storage <==> InitialChatKey in t.storage)
                      && (InitialChatKey in t.storage ==> r.tab.storage[InitialChatKey] == t.storage[InitialChatKey]))
  {
    var r := HandleUpload(page, t, s);
    if Ready(page, t) && s.dataUrl.Some? && Succeeds(s.upload) && Succeeds(s.select)
       && Truthy(s.select.body.value.autoReply) {
      DecodeEncode(Seed(s.select.body.value.autoReply.value));
    }
  }
}

=== FILE: gateway.dfy ===
/** The client's request/response boundary (`src/api/profiles.ts` and
    `src/api/photos.ts`). A network exchange is an abstract outcome: the
    request may reject, or a response arrives with a status, a body that may
    or may not parse as JSON, and a text body. Each wrapper says which
    outcomes throw, what is returned otherwise, and what defaults fill
    missing fields. */
module Gateway {
  import opened Wrappers
  import opened Text

  /** What `fetch` yields: a rejection, or a response whose `json()` gives
      `body` (`None` where it throws) and whose `text()` gives `text`. */
  datatype Http<T> = NetworkError(message: string) | Response(status: nat, body: Option<T>, text: string)

  /** The `Error` a wrapper throws; only its message is observable. */
  datatype Error = Thrown(message: string)

  /** Message of the `SyntaxError` that `res.json()` throws on a non-JSON body. */
  const JsonError := "Unexpected token in JSON"

  /** `res.ok`. */
  predicate IsOk(status: nat) {
    200 <= status <= 299
  }

  /** What `res.json().catch(() => ({}))` yields: the parsed body or `{}`. */
  datatype Parsed<T> = Body(value: T) | EmptyObject

  datatype ProfileEntry = ProfileEntry(name: string)

  /** The text of the error `handleResponse` throws. */
  function StatusMessage(operation: string, status: nat, text: string): string {
    operation + " (" + NatToString(status) + "): " + text
  }

  /** `handleResponse`: a non-2xx status throws an error naming the
      operation and the status; otherwise the parsed body, or `{}` when the
      body does not parse. A rejected request propagates. */
  function HandleResponse<T>(res: Http<T>, operation: string): (r: Result<Parsed<T>, Error>)
    ensures res.NetworkError? ==> r == Failure(Thrown(res.message))
    ensures res.Response? && !IsOk(res.status) ==> r == Failure(Thrown(StatusMessage(operation, res.status, res.text)))
    ensures res.Response? && IsOk(res.status) ==> r.Success?
    ensures r.Success? && res.body.Some? ==> r.value == Body(res.body.value)
    ensures r.Success? && res.body.None? ==> r.value == EmptyObject
  {
    match res
    case NetworkError(m) => Failure(Thrown(m))
    case Response(status, body, text) =>
      if !IsOk(status) then Failure(Thrown(StatusMessage(operation, status, text)))
      else if body.Some? then Success(Body(body.value))
      else Success(EmptyObject)
  }

  /** The status can be read back from the error message: it is the digits
      between the operation's ` (` and the following `)`. */
  lemma StatusMessageCarriesStatus(operation: string, status: nat, text: string)
    ensures var m := StatusMessage(operation, status, text);
      var digits := m[|operation| + 2..|operation| + 2 + |NatToString(status)|];
      && m[..|operation|] == operation
      && AllDigits(digits)
      && ParseDecimal(digits) == status
      && m[|operation| + 2 + |NatToString(status)|] == ')'
  {
    var m := StatusMessage(operation, status, text);
    var d := NatToString(status);
    assert m == operation + " (" + d + "): " + text;
    assert m[|operation| + 2..|operation| + 2 + |d|] == d;
    ParseNatToString(status);
  }

  function FetchProfiles(res: Http<seq<ProfileEntry>>): (r: Result<Parsed<seq<ProfileEntry>>, Error>)
    ensures r.Success? <==> res.Response? && IsOk(res.status)
  {
    HandleResponse(res, "Failed to load profiles")
  }

  /** `createProfile(name)`: the name it was given, unchanged, once the backend accepts it. */
  function CreateProfile(name: string, res: Http<()>): (r: Result<string, Error>)
    ensures r.Success? <==> res.Response? && IsOk(res.status)
    ensures r.Success? ==> r.value == name
    ensures r.Failure? && res.Response? ==> r.error == Thrown(StatusMessage("Failed to create profile", res.status, res.text))
  {
    var _ :- HandleResponse(res, "Failed to create profile");
    Success(name)
  }

  /** `deleteProfile(name)`: nothing on success; failures propagate. */
  function DeleteProfile(name: string, res: Http<()>): (r: Result<(), Error>)
    ensures r.Success? <==> res.Response? && IsOk(res.status)
    ensures r.Failure? && res.Response? ==> r.error == Thrown(StatusMessage("Failed to delete profile", res.status, res.text))
  {
    var _ :- HandleResponse(res, "Failed to delete profile");
    Success(())
  }

  /** `selectProfile(name)`: the name it was given, unchanged, once the backend accepts it. */
  function SelectProfile(name: string, res: Http<()>): (r: Result<string, Error>)
    ensures r.Success? <==> res.Response? && IsOk(res.status)
    ensures r.Success? ==> r.value == name
    ensures r.Failure? && res.Response? ==> r.error == Thrown(StatusMessage("Failed to select profile", res.status, res.text))
  {
    var _ :- HandleResponse(res, "Failed to select profile");
    Success(name)
  }

  /** A picked `File`; its contents are never inspected on the client. */
  datatype FileRef = FileRef(name: string)

  /** The client's `Photo` record. */
  datatype Photo = Photo(filename: string, uploadedPath: string, processedPath: string,
                         publicUrl: string, localPath: Option<string>)

  /** The body of `/photo/list` as it arrives: either field may be missing or null. */
  datatype ListBody = ListBody(uploadedImages: Option<seq<Photo>>, selectedImage: Option<Photo>)

  datatype PhotosList = PhotosList(uploadedImages: seq<Photo>, selectedImage: Option<Photo>)

  /** The body of `/select`: an optional `url`. */
  datatype SelectBody = SelectBody(url: Option<string>)

  /** The body of `/chat`: an optional `reply`. */
  datatype ChatReply = ChatReply(reply: Option<string>)

  /** `listUploadedPhotos`: non-2xx throws; a missing image list becomes `[]`
      and a missing selection becomes null. */
  function ListUploadedPhotos(res: Http<ListBody>): (r: Result<PhotosList, Error>)
    ensures res.Response? && !IsOk(res.status) ==>
      r == Failure(Thrown("Failed to fetch photos (" + NatToString(res.status) + ")"))
    ensures r.Success? <==> res.Response? && IsOk(res.status) && res.body.Some?
    ensures r.Success? ==> r.value.selectedImage == res.body.value.selectedImage
    ensures r.Success? && res.body.value.uploadedImages.None? ==> r.value.uploadedImages == []
    ensures r.Success? && res.body.value.uploadedImages.Some? ==>
      r.value.uploadedImages == res.body.value.uploadedImages.value
  {
    match res
    case NetworkError(m) => Failure(Thrown(m))
    case Response(status, body, _) =>
      if !IsOk(status) then Failure(Thrown("Failed to fetch photos (" + NatToString(status) + ")"))
      else if body.None? then Failure(Thrown(JsonError))
      else Success(PhotosList(body.value.uploadedImages.GetOr([]), body.value.selectedImage))
  }

  /** One run of `uploadPhoto`: what it returned or threw, and the filename
      of the follow-up select request if one was sent. */
  datatype UploadRun = UploadRun(result: Result<Photo, Error>, selectSent: Option<string>)

  /** `uploadPhoto`: a failed upload throws before any select request; after
      a good upload the select request is sent with the returned filename,
      and whatever becomes of it (rejection, any status) the upload body is
      returned: the select outcome `select` is never read. */
  function UploadPhoto(upload: Http<Photo>, select: Http<()>): (r: UploadRun)
    ensures r.result.Success? <==> upload.Response? && IsOk(upload.status) && upload.body.Some?
    ensures r.result.Failure? ==> r.selectSent.None?
    ensures r.result.Success? ==> r.result.value == upload.body.value
    ensures r.result.Success? ==> r.selectSent == Some(upload.body.value.filename)
    ensures upload.Response? && !IsOk(upload.status) ==>
      r.result == Failure(Thrown("Upload failed (" + NatToString(upload.status) + ")"))
  {
    match upload
    case NetworkError(m) => UploadRun(Failure(Thrown(m)), None)
    case Response(status, body, _) =>
      if !IsOk(status) then UploadRun(Failure(Thrown("Upload failed (" + NatToString(status) + ")")), None)
      else if body.None? then UploadRun(Failure(Thrown(JsonError)), None)
      else
        // the select request's outcome is caught and ignored
        UploadRun(Success(body.value), Some(body.value.filename))
  }

  /** `selectPhoto(profile, filename)`: non-2xx throws; otherwise a photo
      carrying the filename it was given, the response's `url` (or `""`) as
      public URL, and empty paths. */
  function SelectPhoto(filename: string, res: Http<SelectBody>): (r: Result<Photo, Error>)
    ensures r.Success? <==> res.Response? && IsOk(res.status) && res.body.Some?
    ensures res.Response? && !IsOk(res.status) ==>
      r == Failure(Thrown("Select photo failed (" + NatToString(res.status) + ")"))
    ensures r.Success? ==> r.value.filename == filename
    ensures r.Success? ==> r.value.uploadedPath == "" && r.value.processedPath == "" && r.value.localPath == Some("")
    ensures r.Success? ==> r.value.publicUrl == res.body.value.url.GetOr("")
  {
    match res
    case NetworkError(m) => Failure(Thrown(m))
    case Response(status, body, _) =>
      if !IsOk(status) then Failure(Thrown("Select photo failed (" + NatToString(status) + ")"))
      else if body.None? then Failure(Thrown(JsonError))
      else
        var url := body.value.url;
        // `data.url || ""`
        Success(Photo(filename, "", "", if Truthy(url) then url.value else "", Some("")))
  }

  /** `sendPhotoChat`: non-2xx throws; otherwise the parsed body. */
  function SendPhotoChat(res: Http<ChatReply>): (r: Result<ChatReply, Error>)
    ensures r.Success? <==> res.Response? && IsOk(res.status) && res.body.Some?
    ensures r.Success? ==> r.value == res.body.value
    ensures res.Response? && !IsOk(res.status) ==>
      r == Failure(Thrown("Chat failed (" + NatToString(res.status) + ")"))
  {
    match res
    case NetworkError(m) => Failure(Thrown(m))
    case Response(status, body, _) =>
      if !IsOk(status) then Failure(Thrown("Chat failed (" + NatToString(status) + ")"))
      else if body.None? then Failure(Thrown(JsonError))
      else Success(body.value)
  }
}

=== FILE: memory_kg.dfy ===
/** The bookkeeping of the per-profile memory knowledge graph
    (`pkg/memory_kg.py`): which messages and texts are kept, how parsed
    triplets are filtered, how entity nodes are found or numbered, how a
    chunk of conversation becomes edges, how recall text is assembled and
    how the graph is projected to JSON. The language model's answer, the
    vector index's search hits and all file I/O are parameters or left out.
    An edge's attribute here is its `relation`. */
module MemoryGraph {
  import opened Wrappers
  import opened Text
  import opened Digraph

  /** A message dict: its `role` may be missing, its `content` may be
      something other than a string. */
  datatype Content = Str(text: string) | NonStr
  datatype RawMsg = RawMsg(role: Option<string>, content: Content)

  /** The filter both `add_chunk_to_graph` and the extractor apply. */
  predicate IsChat(m: RawMsg) {
    (m.role == Some("user") || m.role == Some("assistant")) && m.content.Str?
  }

  /** `clean_messages`: the chat messages, in order. */
  function Clean(ms: seq<RawMsg>): (r: seq<RawMsg>)
    ensures |r| <= |ms|
    ensures forall m :: m in r ==> m in ms && IsChat(m)
    ensures forall m :: m in ms && IsChat(m) ==> m in r
  {
    if |ms| == 0 then [] else (if IsChat(ms[0]) then [ms[0]] else []) + Clean(ms[1..])
  }

  lemma {:induction false} CleanIdempotent(ms: seq<RawMsg>)
    ensures Clean(Clean(ms)) == Clean(ms)
  {
    if |ms| > 0 {
      CleanIdempotent(ms[1..]);
      if IsChat(ms[0]) {
        var c := [ms[0]] + Clean(ms[1..]);
        assert Clean(ms) == c;
        assert c[0] == ms[0] && c[1..] == Clean(ms[1..]);
      } else {
        assert Clean(ms) == Clean(ms[1..]);
      }
    }
  }

  /** The contents of the chat messages, in order. */
  function ChatTexts(ms: seq<RawMsg>): (r: seq<string>)
    ensures |r| <= |ms|
  {
    if |ms| == 0 then []
    else (if IsChat(ms[0]) then [ms[0].content.text] else []) + ChatTexts(ms[1..])
  }

  /** The content of every chat message is among the chat texts. */
  lemma {:induction false} ChatTextsHas(ms: seq<RawMsg>, x: RawMsg)
    requires x in ms && IsChat(x)
    ensures x.content.text in ChatTexts(ms)
  {
    if x != ms[0] {
      assert x in ms[1..];
      ChatTextsHas(ms[1..], x);
    }
  }

  /** The text handed to the language model: chat contents joined by newlines. */
  function ChunkText(ms: seq<RawMsg>): string {
    Join(ChatTexts(ms), "\n")
  }

  datatype Triplet = Triplet(s: string, p: string, o: string)

  /** One element of the list `ast.literal_eval` produced: a tuple or list
      (its elements already passed through `str`), a dict, or anything else. */
  datatype Item = Sequence(elems: seq<string>) | Dict(fields: map<string, string>) | Scalar

  /** The extraction call's fate: it raised (API error, no usable answer,
      `literal_eval` failure), or it yielded a list — empty when the answer
      held no bracketed text. */
  datatype Extraction = Raised | Parsed(items: seq<Item>)

  const TripletKeys: set<string> := {"subject", "predicate", "object"}
  const FallbackLength := 200

  /** Whether an item is kept, and as which triplet. */
  function Keep(it: Item): (r: Option<Triplet>)
    ensures r.Some? <==> (it.Sequence? && |it.elems| == 3) || (it.Dict? && TripletKeys <= it.fields.Keys)
    ensures r.Some? && it.Sequence? ==> r.value == Triplet(it.elems[0], it.elems[1], it.elems[2])
    ensures r.Some? && it.Dict? ==>
              r.value == Triplet(it.fields["subject"], it.fields["predicate"], it.fields["object"])
  {
    match it
    case Sequence(es) => if |es| == 3 then Some(Triplet(es[0], es[1], es[2])) else None
    case Dict(f) =>
      if "subject" in f && "predicate" in f && "object" in f
      then Some(Triplet(f["subject"], f["predicate"], f["object"])) else None
    case Scalar => None
  }

  /** The kept items' triplets, in list order; everything else is dropped. */
  function TripletsOf(items: seq<Item>): (r: seq<Triplet>)
    ensures |r| <= |items|
    ensures forall t :: t in r ==> exists i :: 0 <= i < |items| && Keep(items[i]) == Some(t)
    ensures forall i :: 0 <= i < |items| && Keep(items[i]).Some? ==> Keep(items[i]).value in r
  {
    if |items| == 0 then []
    else
      var rest := TripletsOf(items[1..]);
      assert forall i :: 1 <= i < |items| ==> items[i] == items[1..][i - 1];
      match Keep(items[0])
      case Some(t) => [t] + rest
      case None => rest
  }

  /** A single item contributes its triplet when it is kept, and nothing otherwise. */
  lemma TripletsOfOne(it: Item)
    ensures TripletsOf([it]) == if Keep(it).Some? then [Keep(it).value] else []
  {
    assert [it][1..] == [];
  }

  /** The triplets of a concatenation are those of each part, in order: the
      kept items keep their order and their multiplicity. */
  lemma {:induction false} TripletsOfAppend(a: seq<Item>, b: seq<Item>)
    ensures TripletsOf(a + b) == TripletsOf(a) + TripletsOf(b)
  {
    if |a| > 0 {
      assert (a + b)[0] == a[0];
      assert (a + b)[1..] == a[1..] + b;
      TripletsOfAppend(a[1..], b);
    } else {
      assert a + b == b;
    }
  }

  /** The first `n` characters, or all of `s` when it is shorter. */
  function Prefix(s: string, n: nat): (r: string)
    ensures |r| <= n && |r| <= |s| && s[..|r|] == r
    ensures |s| <= n ==> r == s
  {
    if |s| <= n then s else s[..n]
  }

  /** `_extract_triplets_chunk`: blank text yields nothing; a failed call
      yields the single fallback triplet quoting the first 200 characters;
      a parsed list yields its kept triplets. */
  function ExtractTriplets(ms: seq<RawMsg>, ex: Extraction): (r: seq<Triplet>)
    ensures IsBlank(Python, ChunkText(ms)) ==> r == []
    ensures !IsBlank(Python, ChunkText(ms)) && ex.Raised? ==> r == [Triplet("User", "said", Prefix(ChunkText(ms), FallbackLength))]
    ensures !IsBlank(Python, ChunkText(ms)) && ex.Parsed? ==> r == TripletsOf(ex.items)
  {
    var text := ChunkText(ms);
    // `not text.strip()`: by `Trim`'s contract, exactly the blank texts
    if IsBlank(Python, text) then []
    else match ex
      case Raised => [Triplet("User", "said", Prefix(text, FallbackLength))]
      case Parsed(items) => TripletsOf(items)
  }

  /** The fallback quotes the chunk: its object is a start of the text, at
      most 200 characters long. */
  lemma FallbackQuotesText(ms: seq<RawMsg>)
    requires !IsBlank(Python, ChunkText(ms))
    ensures var r := ExtractTriplets(ms, Raised);
      |r| == 1 && |r[0].o| <= FallbackLength && ChunkText(ms)[..|r[0].o|] == r[0].o
      && (|ChunkText(ms)| <= FallbackLength ==> r[0].o == ChunkText(ms))
  {
  }

  /** `clean_texts` in `add_embeddings`: the non-blank summaries, stripped,
      in order. */
  function CleanTexts(ts: seq<string>): (r: seq<string>)
    ensures |r| <= |ts|
  {
    if |ts| == 0 then []
    else (if Trim(Python, ts[0]) != "" then [Trim(Python, ts[0])] else []) + CleanTexts(ts[1..])
  }

  /** A cleaned list holds its head's stripped form, when non-empty, and
      what cleaning the rest keeps. */
  lemma CleanTextsMembers(ts: seq<string>)
    requires |ts| > 0
    ensures forall t :: t in CleanTexts(ts) <==> (Trim(Python, ts[0]) != "" && t == Trim(Python, ts[0])) || t in CleanTexts(ts[1..])
  {
  }

  /** Every cleaned summary is non-empty and already stripped. */
  lemma {:induction false} CleanTextsStripped(ts: seq<string>)
    ensures forall t :: t in CleanTexts(ts) ==> t != "" && Trim(Python, t) == t
  {
    if |ts| > 0 {
      CleanTextsStripped(ts[1..]);
      CleanTextsMembers(ts);
      TrimIdempotent(Python, ts[0]);
    }
  }

  /** Every non-blank summary survives cleaning in stripped form. */
  lemma {:induction false} CleanTextsComplete(ts: seq<string>)
    ensures forall t :: t in ts && !IsBlank(Python, t) ==> Trim(Python, t) in CleanTexts(ts)
  {
    if |ts| > 0 {
      CleanTextsComplete(ts[1..]);
      CleanTextsMembers(ts);
      forall t | t in ts && !IsBlank(Python, t) ensures Trim(Python, t) in CleanTexts(ts) {
        if t != ts[0] {
          assert t in ts[1..];
        }
      }
    }
  }

  /** Nothing but stripped summaries survives cleaning. */
  lemma {:induction false} CleanTextsSound(ts: seq<string>)
    ensures forall t :: t in CleanTexts(ts) ==> exists u :: u in ts && Trim(Python, u) == t
  {
    if |ts| > 0 {
      CleanTextsSound(ts[1..]);
      CleanTextsMembers(ts);
      forall t | t in CleanTexts(ts) ensures exists u :: u in ts && Trim(Python, u) == t {
        if t !in CleanTexts(ts[1..]) {
          assert ts[0] in ts;
        } else {
          var u :| u in ts[1..] && Trim(Python, u) == t;
          assert u in ts;
        }
      }
    }
  }

  lemma {:induction false} CleanTextsIdempotent(ts: seq<string>)
    ensures CleanTexts(CleanTexts(ts)) == CleanTexts(ts)
  {
    if |ts| > 0 {
      var rest := CleanTexts(ts[1..]);
      CleanTextsIdempotent(ts[1..]);
      if Trim(Python, ts[0]) != "" {
        var t := Trim(Python, ts[0]);
        TrimIdempotent(Python, ts[0]);
        var c := [t] + rest;
        assert CleanTexts(ts) == c;
        assert c[0] == t && c[1..] == rest;
        assert CleanTexts(c) == [t] + CleanTexts(rest);
      } else {
        assert CleanTexts(ts) == rest;
      }
    }
  }

  /** `add_embeddings`: the batch handed to the index, or `None` when the
      update is skipped because no text survives cleaning. */
  function AddEmbeddings(ts: seq<string>): (r: Option<seq<string>>)
    ensures r.None? <==> forall t :: t in ts ==> IsBlank(Python, t)
    ensures r.Some? ==> r.value == CleanTexts(ts) && |r.value| > 0
  {
    var clean := CleanTexts(ts);
    CleanTextsStripped(ts);
    CleanTextsComplete(ts);
    CleanTextsSound(ts);
    if |clean| == 0 then None
    else
      assert clean[0] in clean;
      var u :| u in ts && Trim(Python, u) == clean[0];
      assert !IsBlank(Python, u);
      Some(clean)
  }

  /** The graph and its node counter. */
  datatype Memory = Memory(graph: Graph, counter: nat)

  /** A freshly loaded memory: the counter starts at the number of nodes. */
  function Load(g: Graph): (r: Memory)
    ensures r.graph == g && r.counter == |g.nodes|
  {
    Memory(g, |g.nodes|)
  }

  function EntityId(k: nat): string {
    "entity_" + NatToString(k)
  }

  lemma EntityIdInjective(i: nat, j: nat)
    ensures EntityId(i) == EntityId(j) <==> i == j
  {
    if EntityId(i) == EntityId(j) {
      assert EntityId(i)[7..] == NatToString(i);
      assert EntityId(j)[7..] == NatToString(j);
      NatToStringInjective(i, j);
    }
  }

  function Labels(nodes: seq<Node>): (r: seq<Option<string>>)
    ensures |r| == |nodes|
    ensures forall i :: 0 <= i < |nodes| ==> r[i] == nodes[i].name
  {
    seq(|nodes|, i requires 0 <= i < |nodes| => nodes[i].name)
  }

  /** The id of the first node labelled `label`: what the lookup loop in
      `_get_or_create_node` returns. */
  function IdOf(g: Graph, name: string): (r: Option<string>)
    ensures r.Some? <==> Some(name) in Labels(g.nodes)
    ensures r.Some? ==> r.value in Ids(g.nodes)
  {
    var k := IndexOf(Labels(g.nodes), Some(name));
    if k >= 0 then Some(g.nodes[k].id) else None
  }

  /** The shape a memory built by this code keeps: node `i` is
      `entity_i`, every node has a label, no label repeats, and the
      counter is the number of nodes. */
  predicate Numbered(m: Memory) {
    && WellFormed(m.graph)
    && m.counter == |m.graph.nodes|
    && (forall i :: 0 <= i < |m.graph.nodes| ==> m.graph.nodes[i].id == EntityId(i))
    && (forall i :: 0 <= i < |m.graph.nodes| ==> m.graph.nodes[i].name.Some?)
    && Distinct(Labels(m.graph.nodes))
  }

  lemma EmptyNumbered()
    ensures Numbered(Load(Empty))
  {
  }

  /** The next entity id is not yet taken. */
  lemma FreshEntity(m: Memory)
    requires Numbered(m)
    ensures EntityId(m.counter) !in Ids(m.graph.nodes)
  {
    if EntityId(m.counter) in Ids(m.graph.nodes) {
      var i :| 0 <= i < |m.graph.nodes| && Ids(m.graph.nodes)[i] == EntityId(m.counter);
      EntityIdInjective(i, m.counter);
    }
  }

  /** `_get_or_create_node(label)`: a known label gives back the first node
      carrying it and changes nothing; a new label adds node
      `entity_{counter}` carrying it and bumps the counter by one. */
  function GetOrCreateNode(m: Memory, name: string): (r: (string, Memory))
    ensures IdOf(m.graph, name).Some? ==> r == (IdOf(m.graph, name).value, m)
    ensures IdOf(m.graph, name).None? ==> r.0 == EntityId(m.counter) && r.1.counter == m.counter + 1
    ensures r.1.graph.edges == m.graph.edges
    ensures Numbered(m) && IdOf(m.graph, name).None? ==>
              r.1.graph.nodes == m.graph.nodes + [Node(r.0, Some(name))]
    ensures Numbered(m) ==> Numbered(r.1) && IdOf(r.1.graph, name) == Some(r.0)
  {
    match IdOf(m.graph, name)
    case Some(id) => (id, m)
    case None =>
      var id := EntityId(m.counter);
      var g := AddNode(m.graph, id, Some(name));
      var r := Memory(g, m.counter + 1);
      if Numbered(m) then
        FreshEntity(m);
        NewLabelNumbered(m, name);
        (id, r)
      else (id, r)
  }

  /** Appending node `entity_{counter}` for a new label keeps the shape. */
  lemma SnocNumbered(m: Memory, name: string)
    requires Numbered(m) && Some(name) !in Labels(m.graph.nodes)
    requires EntityId(m.counter) !in Ids(m.graph.nodes)
    ensures Numbered(Memory(m.graph.(nodes := m.graph.nodes + [Node(EntityId(m.counter), Some(name))]), m.counter + 1))
  {
    var n := Node(EntityId(m.counter), Some(name));
    var h := m.graph.(nodes := m.graph.nodes + [n]);
    SnocWellFormed(m.graph, n);
    LabelsSnoc(m.graph.nodes, n);
    DistinctSnoc(Labels(m.graph.nodes), Some(name));
  }

  /** Appending a node for a new label keeps the shape. */
  lemma NewLabelNumbered(m: Memory, name: string)
    requires Numbered(m) && Some(name) !in Labels(m.graph.nodes)
    requires EntityId(m.counter) !in Ids(m.graph.nodes)
    ensures var g := AddNode(m.graph, EntityId(m.counter), Some(name));
      && g.nodes == m.graph.nodes + [Node(EntityId(m.counter), Some(name))]
      && Numbered(Memory(g, m.counter + 1))
      && IdOf(g, name) == Some(EntityId(m.counter))
  {
    var id := EntityId(m.counter);
    var n := Node(id, Some(name));
    AddNodeFresh(m.graph, id, Some(name));
    SnocNumbered(m, name);
    LabelsSnoc(m.graph.nodes, n);
    IndexOfSnoc(Labels(m.graph.nodes), Some(name));
    var h := m.graph.(nodes := m.graph.nodes + [n]);
    assert IdOf(h, name) == Some(id);
  }

  lemma LabelsSnoc(nodes: seq<Node>, n: Node)
    ensures Labels(nodes + [n]) == Labels(nodes) + [n.name]
  {
  }

  /** Looking a label up again right after creating it finds the same node
      and changes nothing. */
  lemma GetOrCreateTwice(m: Memory, name: string)
    requires Numbered(m)
    ensures var (id, m1) := GetOrCreateNode(m, name);
      GetOrCreateNode(m1, name) == (id, m1)
  {
  }

  /** The relation stored on an edge: the predicate, tagged with the photo
      name exactly when one is given. */
  function Relation(p: string, photo: Option<string>): string {
    if Truthy(photo) then p + " [photo: " + photo.value + "]" else p
  }

  lemma RelationTagged(p: string, photo: Option<string>)
    ensures Relation(p, photo) == p <==> !Truthy(photo)
    ensures |Relation(p, photo)| >= |p| && Relation(p, photo)[..|p|] == p
    ensures Truthy(photo) ==> Relation(p, photo)[|p|..] == " [photo: " + photo.value + "]"
  {
    if Truthy(photo) {
      assert |Relation(p, photo)| > |p|;
    }
  }

  function Summary(t: Triplet): string {
    t.s + " " + t.p + " " + t.o
  }

  /** One pass of the triplet loop: find or create both end points, then
      add (or re-tag) the edge between them. */
  function AddTriplet(m: Memory, t: Triplet, photo: Option<string>): (r: Memory)
    ensures |r.graph.edges| <= |m.graph.edges| + 1
    ensures Numbered(m) ==> Numbered(r)
    ensures Numbered(m) ==>
              && IdOf(r.graph, t.s).Some? && IdOf(r.graph, t.o).Some?
              && Edge(IdOf(r.graph, t.s).value, IdOf(r.graph, t.o).value, Some(Relation(t.p, photo))) in r.graph.edges
  {
    var (sId, m1) := GetOrCreateNode(m, t.s);
    var (oId, m2) := GetOrCreateNode(m1, t.o);
    var r := Memory(AddEdge(m2.graph, sId, oId, Some(Relation(t.p, photo))), m2.counter);
    if Numbered(m) then
      AddTripletNumbered(m, t, photo);
      r
    else r
  }

  lemma AddTripletNumbered(m: Memory, t: Triplet, photo: Option<string>)
    requires Numbered(m)
    ensures var (sId, m1) := GetOrCreateNode(m, t.s);
      var (oId, m2) := GetOrCreateNode(m1, t.o);
      var r := Memory(AddEdge(m2.graph, sId, oId, Some(Relation(t.p, photo))), m2.counter);
      && Numbered(r)
      && IdOf(r.graph, t.s) == Some(sId) && IdOf(r.graph, t.o) == Some(oId)
      && Edge(sId, oId, Some(Relation(t.p, photo))) in r.graph.edges
  {
    var (sId, m1) := GetOrCreateNode(m, t.s);
    var (oId, m2) := GetOrCreateNode(m1, t.o);
    LookupPrefix(m1, t.o);
    LabelKept(m1, m2, t.s, sId);
    EdgeKeepsNumbered(m2, sId, oId, Some(Relation(t.p, photo)));
  }

  /** A lookup in a numbered memory keeps the existing nodes as a prefix. */
  lemma LookupPrefix(m: Memory, name: string)
    requires Numbered(m)
    ensures var m1 := GetOrCreateNode(m, name).1;
      |m1.graph.nodes| >= |m.graph.nodes| && m1.graph.nodes[..|m.graph.nodes|] == m.graph.nodes
  {
    var (id, m1) := GetOrCreateNode(m, name);
    if IdOf(m.graph, name).None? {
      assert m1.graph.nodes == m.graph.nodes + [Node(id, Some(name))];
    }
  }

  /** Adding an edge between existing nodes touches no node, so the shape
      and every lookup are kept. */
  lemma EdgeKeepsNumbered(m: Memory, u: string, v: string, attr: Option<string>)
    requires Numbered(m) && u in Ids(m.graph.nodes) && v in Ids(m.graph.nodes)
    ensures var r := Memory(AddEdge(m.graph, u, v, attr), m.counter);
      && r.graph.nodes == m.graph.nodes
      && Numbered(r)
      && Edge(u, v, attr) in r.graph.edges
  {
  }

  /** The second lookup does not disturb what the first one found. */
  lemma LabelKept(m1: Memory, m2: Memory, name: string, id: string)
    requires Numbered(m1) && Numbered(m2)
    requires IdOf(m1.graph, name) == Some(id)
    requires |m2.graph.nodes| >= |m1.graph.nodes| && m2.graph.nodes[..|m1.graph.nodes|] == m1.graph.nodes
    ensures IdOf(m2.graph, name) == Some(id)
  {
    var a := Labels(m1.graph.nodes);
    var b := Labels(m2.graph.nodes);
    var k := IndexOf(a, Some(name));
    assert b[..|a|] == a;
    assert b[k] == Some(name);
    assert b[..k] == a[..k];
  }

  /** The triplet loop of `add_chunk_to_graph`, with the summaries it
      collects. */
  function AddTriplets(m: Memory, ts: seq<Triplet>, photo: Option<string>): (r: (Memory, seq<string>))
    ensures |r.1| == |ts|
    ensures forall i :: 0 <= i < |ts| ==> r.1[i] == Summary(ts[i])
    ensures |r.0.graph.edges| <= |m.graph.edges| + |ts|
    ensures Numbered(m) ==> Numbered(r.0)
    decreases |ts|
  {
    if |ts| == 0 then (m, [])
    else
      var m1 := AddTriplet(m, ts[0], photo);
      var (m2, sums) := AddTriplets(m1, ts[1..], photo);
      (m2, [Summary(ts[0])] + sums)
  }

  /** `add_chunk_to_graph(new_messages, photo_name)`: the new memory, and
      the summaries when the graph was saved and handed to the index (none
      when no chat message survives or no triplet comes back, in which case
      nothing changes). */
  function AddChunk(m: Memory, ms: seq<RawMsg>, photo: Option<string>, ex: Extraction): (r: (Memory, Option<seq<string>>))
    ensures r.1.None? ==> r.0 == m
    ensures r.1.None? <==> |Clean(ms)| == 0 || |ExtractTriplets(Clean(ms), ex)| == 0
    ensures r.1.Some? ==> |r.1.value| == |ExtractTriplets(Clean(ms), ex)|
    ensures Numbered(m) ==> Numbered(r.0)
  {
    var clean := Clean(ms);
    if |clean| == 0 then (m, None)
    else
      var ts := ExtractTriplets(clean, ex);
      if |ts| == 0 then (m, None)
      else
        var (m1, sums) := AddTriplets(m, ts, photo);
        (m1, Some(sums))
  }

  /** When the extraction call fails, a chunk with a non-blank chat message
      is saved as the single triplet "User said <text>", whose edge the
      memory then holds. */
  lemma AddChunkFallback(m: Memory, ms: seq<RawMsg>, photo: Option<string>, x: RawMsg)
    requires Numbered(m) && x in ms && IsChat(x) && !IsBlank(Python, x.content.text)
    ensures var t := Triplet("User", "said", Prefix(ChunkText(Clean(ms)), FallbackLength));
      var r := AddChunk(m, ms, photo, Raised);
      && r.1 == Some([Summary(t)])
      && IdOf(r.0.graph, "User").Some? && IdOf(r.0.graph, t.o).Some?
      && Edge(IdOf(r.0.graph, "User").value, IdOf(r.0.graph, t.o).value, Some(Relation("said", photo))) in r.0.graph.edges
  {
    var clean := Clean(ms);
    ChunkNotBlank(ms, x);
    var t := Triplet("User", "said", Prefix(ChunkText(clean), FallbackLength));
    assert ExtractTriplets(clean, Raised) == [t];
    AddOneTriplet(m, t, photo);
    assert AddChunk(m, ms, photo, Raised) == (AddTriplet(m, t, photo), Some([Summary(t)]));
  }

  /** The triplet loop over one triplet is one pass. */
  lemma AddOneTriplet(m: Memory, t: Triplet, photo: Option<string>)
    ensures AddTriplets(m, [t], photo) == (AddTriplet(m, t, photo), [Summary(t)])
  {
    var m1 := AddTriplet(m, t, photo);
    var ts := [t];
    assert ts[0] == t && ts[1..] == [];
    assert AddTriplets(m1, ts[1..], photo) == (m1, []);
    assert [Summary(t)] + [] == [Summary(t)];
    assert AddTriplets(m, ts, photo) == (m1, [Summary(t)] + []);
  }

  /** A non-blank chat message makes the chunk's text non-blank. */
  lemma ChunkNotBlank(ms: seq<RawMsg>, x: RawMsg)
    requires x in ms && IsChat(x) && !IsBlank(Python, x.content.text)
    ensures !IsBlank(Python, ChunkText(Clean(ms)))
  {
    ChatTextsHas(Clean(ms), x);
    JoinKeepsMark(SpaceTest(Python), ChatTexts(Clean(ms)), "\n", x.content.text);
  }

  /** A chunk adds at most one edge per extracted triplet. */
  lemma AddChunkEdgeBound(m: Memory, ms: seq<RawMsg>, photo: Option<string>, ex: Extraction)
    ensures |AddChunk(m, ms, photo, ex).0.graph.edges| <= |m.graph.edges| + |ExtractTriplets(Clean(ms), ex)|
  {
  }

  /** Only chat messages matter: cleaning first changes nothing. */
  lemma AddChunkOnlyChat(m: Memory, ms: seq<RawMsg>, photo: Option<string>, ex: Extraction)
    ensures AddChunk(m, Clean(ms), photo, ex) == AddChunk(m, ms, photo, ex)
  {
    CleanIdempotent(ms);
  }

  /** A chunk without any chat message leaves the memory alone and saves
      nothing. */
  lemma AddChunkWithoutChat(m: Memory, ms: seq<RawMsg>, photo: Option<string>, ex: Extraction)
    requires forall x :: x in ms ==> !IsChat(x)
    ensures AddChunk(m, ms, photo, ex) == (m, None)
  {
    CleanNoChat(ms);
  }

  lemma {:induction false} CleanNoChat(ms: seq<RawMsg>)
    requires forall x :: x in ms ==> !IsChat(x)
    ensures Clean(ms) == []
  {
    if |ms| > 0 {
      assert ms[0] in ms;
      CleanNoChat(ms[1..]);
    }
  }

  /** The last `n` elements, or all of them when there are fewer. */
  function Last<T>(s: seq<T>, n: nat): (r: seq<T>)
    ensures |r| == if |s| <= n then |s| else n
    ensures r == s[|s| - |r|..]
  {
    if |s| <= n then s else s[|s| - n..]
  }

  lemma LastOfLast<T>(s: seq<T>, m: nat, n: nat)
    requires n <= m
    ensures Last(Last(s, m), n) == Last(s, n)
  {
  }

  /** `str(G.nodes[id].get('label'))`: a missing label prints as "None". */
  function LabelText(g: Graph, id: string): string {
    var k := IndexOf(Ids(g.nodes), id);
    if k >= 0 && g.nodes[k].name.Some? then g.nodes[k].name.value else "None"
  }

  function RenderEdge(g: Graph, e: Edge): string {
    LabelText(g, e.src) + " — " + e.attr.GetOr("") + " → " + LabelText(g, e.dst)
  }

  function RenderEdges(g: Graph, es: seq<Edge>): (r: seq<string>)
    ensures |r| == |es|
    ensures forall i :: 0 <= i < |es| ==> r[i] == RenderEdge(g, es[i])
  {
    seq(|es|, i requires 0 <= i < |es| => RenderEdge(g, es[i]))
  }

  const SemanticHeader := "Semantic recall:\n"
  const GraphHeader := "\n\nGraph recall:\n"

  /** The graph lines of the recall: the last 30 edges of the view are
      rendered, and the last 10 of those are kept. */
  function GraphLines(g: Graph): (r: seq<string>)
    ensures |r| <= 10
    ensures r == RenderEdges(g, Last(EdgeView(g), 10))
  {
    var view := EdgeView(g);
    RenderLast(g, Last(view, 30), 10);
    LastOfLast(view, 30, 10);
    Last(RenderEdges(g, Last(view, 30)), 10)
  }

  /** Rendering a suffix is taking the suffix of the rendering. */
  lemma RenderSuffix(g: Graph, es: seq<Edge>, k: nat)
    requires k <= |es|
    ensures RenderEdges(g, es)[k..] == RenderEdges(g, es[k..])
  {
    var a, b := RenderEdges(g, es)[k..], RenderEdges(g, es[k..]);
    forall i | 0 <= i < |a| ensures a[i] == b[i] {
      assert a[i] == RenderEdges(g, es)[k + i];
      assert es[k..][i] == es[k + i];
    }
  }

  /** Keeping the last `n` lines is rendering the last `n` edges. */
  lemma RenderLast(g: Graph, es: seq<Edge>, n: nat)
    ensures Last(RenderEdges(g, es), n) == RenderEdges(g, Last(es, n))
  {
    var k := if |es| <= n then 0 else |es| - n;
    assert Last(es, n) == es[k..];
    assert Last(RenderEdges(g, es), n) == RenderEdges(g, es)[k..];
    RenderSuffix(g, es, k);
  }

  /** The recall text before stripping. */
  function RecallText(hits: seq<string>, lines: seq<string>): string {
    (if |hits| > 0 then SemanticHeader + Join(hits, "\n") else "")
    + (if |lines| > 0 then GraphHeader + Join(lines, "\n") else "")
  }

  /** `retrieve_relevant_context`, given the index's search hits. */
  function RetrieveContext(m: Memory, hits: seq<string>): (r: string)
    ensures r == "" ==> |hits| == 0
    ensures Trim(Python, r) == r
  {
    var r := Trim(Python, RecallText(hits, GraphLines(m.graph)));
    RecallEmptyIff(hits, GraphLines(m.graph));
    TrimIdempotent(Python, RecallText(hits, GraphLines(m.graph)));
    r
  }

  lemma RecallEmptyIff(hits: seq<string>, lines: seq<string>)
    ensures Trim(Python, RecallText(hits, lines)) == "" <==> |hits| == 0 && |lines| == 0
  {
    var s := RecallText(hits, lines);
    var tail := if |lines| > 0 then GraphHeader + Join(lines, "\n") else "";
    if |hits| > 0 {
      var head := SemanticHeader + Join(hits, "\n");
      assert s == head + tail;
      assert head[0] == SemanticHeader[0];
      assert s[0] == 'S';
      assert !IsBlank(Python, s);
    } else if |lines| > 0 {
      assert s == tail;
      assert tail[2] == GraphHeader[2];
      assert !IsBlank(Python, s);
    } else {
      assert s == "";
    }
  }

  /** The recall is empty exactly when there are no hits and no edges. */
  lemma RetrieveEmptyIff(m: Memory, hits: seq<string>)
    requires WellFormed(m.graph)
    ensures RetrieveContext(m, hits) == "" <==> |hits| == 0 && |m.graph.edges| == 0
  {
    EdgeViewPermutation(m.graph);
    RecallEmptyIff(hits, GraphLines(m.graph));
  }

  /** With no hits the recall is the stripped graph section alone. */
  lemma RecallWithoutHits(m: Memory)
    requires |m.graph.edges| > 0 && WellFormed(m.graph)
    ensures RetrieveContext(m, []) == Trim(Python, GraphHeader + Join(GraphLines(m.graph), "\n"))
  {
    EdgeViewPermutation(m.graph);
    var lines := GraphLines(m.graph);
    assert |lines| > 0;
    assert RecallText([], lines) == GraphHeader + Join(lines, "\n");
  }

  datatype JsonNode = JsonNode(id: string, labelText: string)
  datatype JsonEdge = JsonEdge(from: string, to: string, labelText: string)
  datatype JsonGraph = JsonGraph(nodes: seq<JsonNode>, edges: seq<JsonEdge>)

  function ToJsonEdge(e: Edge): JsonEdge {
    JsonEdge(e.src, e.dst, e.attr.GetOr(""))
  }

  /** `graph_to_json`: one entry per node, in node order, whose label
      defaults to the id; one entry per edge, in edge-view order, whose
      label defaults to "". */
  function GraphToJson(g: Graph): (r: JsonGraph)
    ensures |r.nodes| == |g.nodes|
    ensures forall i :: 0 <= i < |g.nodes| ==>
              r.nodes[i].id == g.nodes[i].id && r.nodes[i].labelText == g.nodes[i].name.GetOr(g.nodes[i].id)
    ensures |r.edges| == |EdgeView(g)|
    ensures forall i :: 0 <= i < |r.edges| ==> r.edges[i] == ToJsonEdge(EdgeView(g)[i])
  {
    var view := EdgeView(g);
    JsonGraph(
      seq(|g.nodes|, i requires 0 <= i < |g.nodes| => JsonNode(g.nodes[i].id, g.nodes[i].name.GetOr(g.nodes[i].id))),
      seq(|view|, i requires 0 <= i < |view| => ToJsonEdge(view[i])))
  }

  /** Every edge of a well-formed graph is in its JSON. */
  lemma JsonHasEveryEdge(g: Graph, e: Edge)
    requires WellFormed(g) && e in g.edges
    ensures ToJsonEdge(e) in GraphToJson(g).edges
  {
    var view := EdgeView(g);
    EdgeViewPermutation(g);
    assert e in multiset(view);
    var i :| 0 <= i < |view| && view[i] == e;
    assert GraphToJson(g).edges[i] == ToJsonEdge(e);
  }

  /** Every JSON edge of a well-formed graph comes from one of its edges. */
  lemma JsonEdgeFromGraph(g: Graph, j: JsonEdge)
    requires WellFormed(g) && j in GraphToJson(g).edges
    ensures exists e :: e in g.edges && ToJsonEdge(e) == j
  {
    var view := EdgeView(g);
    EdgeViewPermutation(g);
    var i :| 0 <= i < |GraphToJson(g).edges| && GraphToJson(g).edges[i] == j;
    assert view[i] in multiset(g.edges);
  }

  /** In a well-formed graph every edge appears in the JSON, and nothing else. */
  lemma GraphToJsonCoversEdges(g: Graph)
    requires WellFormed(g)
    ensures |GraphToJson(g).edges| == |g.edges|
    ensures forall e :: e in g.edges ==> ToJsonEdge(e) in GraphToJson(g).edges
    ensures forall j :: j in GraphToJson(g).edges ==> exists e :: e in g.edges && ToJsonEdge(e) == j
  {
    EdgeViewPermutation(g);
    forall e | e in g.edges ensures ToJsonEdge(e) in GraphToJson(g).edges {
      JsonHasEveryEdge(g, e);
    }
    forall j | j in GraphToJson(g).edges ensures exists e :: e in g.edges && ToJsonEdge(e) == j {
      JsonEdgeFromGraph(g, j);
    }
  }
}

=== FILE: paths.dfy ===
/** POSIX path helpers as Python's `os.path` defines them: `str.rfind`,
    `os.path.basename` and `os.path.splitext` (with its rule that leading
    dots of a file name do not start an extension). */
module Paths {
  import opened Text

  /** `s.rfind(c)`: the last index holding `c`, or -1. */
  function RFind(s: string, c: char): (i: int)
    ensures -1 <= i < |s|
    ensures i >= 0 ==> s[i] == c
    ensures forall j :: i < j < |s| ==> s[j] != c
  {
    if |s| == 0 then -1
    else if s[|s| - 1] == c then |s| - 1
    else RFind(s[..|s| - 1], c)
  }

  /** Searching a concatenation finds the match in the second part first. */
  lemma {:induction false} RFindAppend(a: string, b: string, c: char)
    ensures RFind(a + b, c) == if RFind(b, c) >= 0 then |a| + RFind(b, c) else RFind(a, c)
    decreases |b|
  {
    if |b| > 0 && b[|b| - 1] != c {
      assert (a + b)[..|a + b| - 1] == a + b[..|b| - 1];
      RFindAppend(a, b[..|b| - 1], c);
    } else if |b| == 0 {
      assert a + b == a;
    }
  }

  /** A string without `c` has no match. */
  lemma RFindAbsent(s: string, c: char)
    requires c !in s
    ensures RFind(s, c) == -1
  {
  }

  /** `os.path.join(a, b)`: an absolute `b` replaces `a`; otherwise `b` is
      appended, after a `/` unless `a` is empty or already ends in one. */
  function PathJoin(a: string, b: string): (r: string)
    ensures |b| > 0 && b[0] == '/' ==> r == b
    ensures !(|b| > 0 && b[0] == '/') && (a == "" || a[|a| - 1] == '/') ==> r == a + b
    ensures !(|b| > 0 && b[0] == '/') && a != "" && a[|a| - 1] != '/' ==> r == a + "/" + b
  {
    if |b| > 0 && b[0] == '/' then b
    else if a == "" || a[|a| - 1] == '/' then a + b
    else a + "/" + b
  }

  /** Whatever the first part, the second part ends the joined path. */
  lemma PathJoinEndsWith(a: string, b: string)
    ensures |PathJoin(a, b)| >= |b| && PathJoin(a, b)[|PathJoin(a, b)| - |b|..] == b
  {
  }

  /** The names that `os.path.join(dir, name)` turns into `dir` itself or
      its parent: joined to an existing directory, they name a directory
      and never a file. */
  predicate NamesDirectory(name: string) {
    name == "" || name == "." || name == ".."
  }

  /** A name that can only stand for a file directly inside the directory
      it is joined to. */
  predicate PlainName(name: string) {
    !NamesDirectory(name) && '/' !in name
  }

  /** `os.path.basename(p)`: the longest suffix of `p` that holds no `/`. */
  function Basename(p: string): (r: string)
    ensures '/' !in r
    ensures |r| <= |p| && p[|p| - |r|..] == r
    ensures |r| < |p| ==> p[|p| - |r| - 1] == '/'
  {
    p[RFind(p, '/') + 1..]
  }

  /** The base name of `dir + "/" + name` is `name` when `name` holds no `/`. */
  lemma BasenameOfJoin(dir: string, name: string)
    requires '/' !in name
    ensures Basename(dir + "/" + name) == name
  {
    RFindAppend(dir + "/", name, '/');
  }

  /** No `c` follows index `i` once no position after `i` holds it. */
  lemma NoneAfter(p: string, i: int, c: char)
    requires -1 <= i < |p|
    requires forall j :: i < j < |p| ==> p[j] != c
    ensures c !in p[i + 1..]
  {
    var q := p[i + 1..];
    forall j | 0 <= j < |q| ensures q[j] != c {
      assert q[j] == p[i + 1 + j];
    }
  }

  predicate AllDots(s: string) {
    forall i :: 0 <= i < |s| ==> s[i] == '.'
  }

  /** What `splitext` relies on when the last dot follows the last slash:
      the suffix from that dot is a single dot-led, dot-free, slash-free
      piece. */
  lemma ExtensionAt(p: string, sepIndex: int, dotIndex: int)
    requires sepIndex == RFind(p, '/') && dotIndex == RFind(p, '.') && dotIndex > sepIndex
    requires !AllDots(p[sepIndex + 1..dotIndex])
    ensures p[..dotIndex] + p[dotIndex..] == p
    ensures p[dotIndex..][0] == '.' && '.' !in p[dotIndex..][1..] && '/' !in p[dotIndex..]
    ensures sepIndex < dotIndex && !AllDots(p[..dotIndex][sepIndex + 1..])
  {
    assert p[..dotIndex] + p[dotIndex..] == p;
    DotLedTail(p, sepIndex, dotIndex);
    assert p[..dotIndex][sepIndex + 1..] == p[sepIndex + 1..dotIndex];
  }

  /** The suffix from a dot with no dot after it, and no slash after an
      earlier index, is dot-led, then dot-free and slash-free. */
  lemma DotLedTail(p: string, sepIndex: int, dotIndex: int)
    requires -1 <= sepIndex < dotIndex < |p| && p[dotIndex] == '.'
    requires forall j :: dotIndex < j < |p| ==> p[j] != '.'
    requires forall j :: sepIndex < j < |p| ==> p[j] != '/'
    ensures p[dotIndex..][0] == '.' && '.' !in p[dotIndex..][1..] && '/' !in p[dotIndex..]
  {
    NoneAfter(p, dotIndex, '.');
    assert p[dotIndex..][1..] == p[dotIndex + 1..];
    NoneAfter(p, dotIndex - 1, '/');
  }

  /** `os.path.splitext(p)`: the extension runs from the last dot of the last
      path component, unless every character before that dot in the
      component is a dot too (`.bashrc`, `..`), in which case it is empty. */
  function SplitExt(p: string): (r: (string, string))
    ensures r.0 + r.1 == p
    ensures r.1 != "" ==> r.1[0] == '.' && '.' !in r.1[1..] && '/' !in r.1
    ensures r.1 != "" ==> RFind(p, '/') < |r.0| && !AllDots(r.0[RFind(p, '/') + 1..])
  {
    var sepIndex := RFind(p, '/');
    var dotIndex := RFind(p, '.');
    if dotIndex > sepIndex && !AllDots(p[sepIndex + 1..dotIndex]) then
      ExtensionAt(p, sepIndex, dotIndex);
      (p[..dotIndex], p[dotIndex..])
    else
      (p, "")
  }

  /** Inserting a dot-free, slash-free, non-empty tag between the stem and the
      extension keeps the extension: `splitext(stem + tag + ext)[1] == ext`. */
  lemma SplitExtKeepsExtension(p: string, tag: string)
    requires tag != "" && '.' !in tag && '/' !in tag
    ensures SplitExt(SplitExt(p).0 + tag + SplitExt(p).1) == (SplitExt(p).0 + tag, SplitExt(p).1)
  {
    if SplitExt(p).1 != "" {
      KeepsNonEmptyExtension(p, tag);
    } else {
      KeepsEmptyExtension(p, tag);
    }
  }

  lemma KeepsNonEmptyExtension(p: string, tag: string)
    requires tag != "" && '.' !in tag && '/' !in tag
    requires SplitExt(p).1 != ""
    ensures SplitExt(SplitExt(p).0 + tag + SplitExt(p).1) == (SplitExt(p).0 + tag, SplitExt(p).1)
  {
    var (stem, ext) := SplitExt(p);
    var front := stem + tag;
    RFindAbsent(tag, '/');
    RFindAppend(stem, tag, '/');
    var sep := RFind(front, '/');
    assert sep == RFind(stem, '/');
    var last := |front| - 1 - (sep + 1);
    assert front[sep + 1..][last] == tag[|tag| - 1];
    SplitExtOfExtension(front, ext);
  }

  /** Where `rfind` lands in `front + ext` when `ext` is a real extension. */
  lemma ExtensionFound(front: string, ext: string)
    requires ext != "" && ext[0] == '.' && '.' !in ext[1..] && '/' !in ext
    ensures RFind(front + ext, '.') == |front|
    ensures RFind(front + ext, '/') == RFind(front, '/')
  {
    var x := ext[1..];
    assert ext == "." + x;
    RFindAbsent(x, '.');
    RFindAppend(".", x, '.');
    RFindAppend(front, ext, '.');
    RFindAbsent(ext, '/');
    RFindAppend(front, ext, '/');
  }

  /** Where `rfind` lands in `stem + tag + ext` when `ext` is a real extension. */
  lemma ExtensionSearch(stem: string, tag: string, ext: string)
    requires '.' !in tag && '/' !in tag
    requires ext != "" && ext[0] == '.' && '.' !in ext[1..] && '/' !in ext
    ensures RFind(stem + tag + ext, '.') == |stem| + |tag|
    ensures RFind(stem + tag + ext, '/') == RFind(stem, '/')
  {
    ExtensionFound(stem + tag, ext);
    RFindAbsent(tag, '/');
    RFindAppend(stem, tag, '/');
  }

  /** `splitext` cuts at the last dot when it follows the last slash and the
      component before it is not all dots. */
  lemma SplitExtAt(p: string, sepIndex: int, dotIndex: int)
    requires sepIndex == RFind(p, '/') && dotIndex == RFind(p, '.') && dotIndex > sepIndex
    requires !AllDots(p[sepIndex + 1..dotIndex])
    ensures SplitExt(p) == (p[..dotIndex], p[dotIndex..])
  {
  }

  /** A real extension after a last component that is not all dots is
      exactly what `splitext` splits off. */
  lemma SplitExtOfExtension(front: string, ext: string)
    requires ext != "" && ext[0] == '.' && '.' !in ext[1..] && '/' !in ext
    requires !AllDots(front[RFind(front, '/') + 1..])
    ensures SplitExt(front + ext) == (front, ext)
  {
    var p := front + ext;
    ExtensionFound(front, ext);
    var sep := RFind(front, '/');
    assert p[sep + 1..|front|] == front[sep + 1..];
    SplitExtAt(p, sep, |front|);
    assert p[..|front|] == front && p[|front|..] == ext;
  }

  lemma KeepsEmptyExtension(p: string, tag: string)
    requires tag != "" && '.' !in tag && '/' !in tag
    requires SplitExt(p).1 == ""
    ensures SplitExt(p + tag) == (p + tag, "")
  {
    var q := p + tag;
    RFindAbsent(tag, '.');
    RFindAbsent(tag, '/');
    RFindAppend(p, tag, '.');
    RFindAppend(p, tag, '/');
    var sepIndex := RFind(p, '/');
    var dotIndex := RFind(p, '.');
    if dotIndex > sepIndex {
      assert q[sepIndex + 1..dotIndex] == p[sepIndex + 1..dotIndex];
    }
  }
}

=== FILE: photo_service.dfy ===
/** The photo service (`pkg/photo.py`): per-user, per-profile sessions
    holding three directories and the selected image; upload, listing and
    selection of images. The file system is the sequence of existing file
    paths, in creation order; writing an existing path overwrites it in
    place. Face drawing only copies the image into the processed directory
    under its base name. Sessions are keyed by the (user, profile) pair;
    `SessionKey` and `InitUserSessionAsWritten` keep the string key the
    code builds, and why it is not used. */
module PhotoService {
  import opened Wrappers
  import opened Text
  import opened Paths

  /** The directories a session works in. */
  datatype Dirs = Dirs(profileDir: string, uploadDir: string, processedDir: string)

  datatype PhotoSession = PhotoSession(dirs: Dirs, selected: Option<string>)

  type Disk = seq<string>

  const Origin := "http://127.0.0.1:8000"

  function ProfileDir(user: string, profile: string): string {
    PathJoin(PathJoin(PathJoin("data", "profiles"), user), profile)
  }

  /** The directories of a (user, profile) pair. */
  function DirsOf(user: string, profile: string): Dirs {
    var dir := ProfileDir(user, profile);
    Dirs(dir, PathJoin(dir, "uploads"), PathJoin(dir, "processed"))
  }

  /** The session a (user, profile) pair starts with: its own directories,
      nothing selected. */
  function NewSession(user: string, profile: string): PhotoSession {
    PhotoSession(DirsOf(user, profile), None)
  }

  /** The session key `init_user_session` builds. */
  function SessionKey(user: string, profile: string): string {
    user + "_" + profile
  }

  /** `init_user_session` as written: keyed by the joined string. */
  function InitUserSessionAsWritten(sessions: map<string, PhotoSession>, user: string, profile: string): (r: (PhotoSession, map<string, PhotoSession>))
    ensures SessionKey(user, profile) in r.1 && r.1[SessionKey(user, profile)] == r.0
    ensures SessionKey(user, profile) in sessions ==> r == (sessions[SessionKey(user, profile)], sessions)
  {
    var key := SessionKey(user, profile);
    if key in sessions then (sessions[key], sessions)
    else (NewSession(user, profile), sessions[key := NewSession(user, profile)])
  }

  /** The joined key is not injective: user "a_b" with profile "c" and
      user "a" with profile "b_c" share one session, so the second pair is
      handed the first pair's directories and selection. */
  lemma SessionKeyCollision()
    ensures SessionKey("a_b", "c") == SessionKey("a", "b_c")
    ensures var (_, s1) := InitUserSessionAsWritten(map[], "a_b", "c");
      var (s, _) := InitUserSessionAsWritten(s1, "a", "b_c");
      s.dirs.profileDir == ProfileDir("a_b", "c") && s.dirs.profileDir != ProfileDir("a", "b_c")
  {
    assert SessionKey("a_b", "c") == "a_b_c" == SessionKey("a", "b_c");
    var root := PathJoin("data", "profiles");
    assert root == "data/profiles";
    assert PathJoin(root, "a_b") == "data/profiles/a_b";
    assert PathJoin(root, "a") == "data/profiles/a";
    assert ProfileDir("a_b", "c") == "data/profiles/a_b/c";
    assert ProfileDir("a", "b_c") == "data/profiles/a/b_c";
    assert ProfileDir("a_b", "c")[15] != ProfileDir("a", "b_c")[15];
  }

  type Sessions = map<(string, string), PhotoSession>

  /** Every stored session lives in the directories of its own pair. */
  predicate Consistent(sessions: Sessions) {
    forall k :: k in sessions ==> sessions[k].dirs == DirsOf(k.0, k.1)
  }

  /** Storing a session in its own pair's directories keeps the map consistent. */
  lemma ConsistentUpdate(sessions: Sessions, user: string, profile: string, s: PhotoSession)
    requires Consistent(sessions) && s.dirs == DirsOf(user, profile)
    ensures Consistent(sessions[(user, profile) := s])
  {
  }

  /** `init_user_session`, keyed by the pair: a session is created only
      when the pair has none; every other session is kept. */
  function InitUserSession(sessions: Sessions, user: string, profile: string): (r: (PhotoSession, Sessions))
    ensures (user, profile) in r.1 && r.1[(user, profile)] == r.0
    ensures (user, profile) in sessions ==> r == (sessions[(user, profile)], sessions)
    ensures (user, profile) !in sessions ==> r.0 == NewSession(user, profile)
    ensures r.1 == sessions[(user, profile) := r.0]
    ensures Consistent(sessions) ==> Consistent(r.1)
  {
    if (user, profile) in sessions then (sessions[(user, profile)], sessions)
    else
      var s := NewSession(user, profile);
      if Consistent(sessions) then ConsistentUpdate(sessions, user, profile, s); (s, sessions[(user, profile) := s])
      else (s, sessions[(user, profile) := s])
  }

  /** The pair's session with a new selection; nothing else changes. */
  function SetSelected(sessions: Sessions, user: string, profile: string, selected: Option<string>): (r: Sessions)
    requires (user, profile) in sessions
    ensures r.Keys == sessions.Keys
    ensures r[(user, profile)].selected == selected && r[(user, profile)].dirs == sessions[(user, profile)].dirs
    ensures forall k :: k in sessions && k != (user, profile) ==> r[k] == sessions[k]
    ensures Consistent(sessions) ==> Consistent(r)
  {
    sessions[(user, profile) := sessions[(user, profile)].(selected := selected)]
  }

  /** Keyed by the pair, every pair works in its own directories: distinct
      pairs never share a session. */
  lemma InitUserSessionOwnDirs(sessions: Sessions, user: string, profile: string)
    requires Consistent(sessions)
    ensures InitUserSession(sessions, user, profile).0.dirs == DirsOf(user, profile)
  {
  }

  /** Writing a file: a new path is appended, an existing one stays where
      it is. */
  function Write(disk: Disk, path: string): (r: Disk)
    ensures path in r
    ensures r == disk || (path !in disk && r == disk + [path])
  {
    if path in disk then disk else disk + [path]
  }

  /** The name of `p` inside `dir`, when `p` is directly in it. */
  function EntryName(dir: string, p: string): Option<string> {
    var prefix := PathJoin(dir, "");
    if |p| > |prefix| && p[..|prefix|] == prefix && '/' !in p[|prefix|..] then Some(p[|prefix|..]) else None
  }

  /** A name found inside `dir` is plain and rebuilds the path it came from. */
  lemma EntryNameShape(dir: string, p: string)
    requires EntryName(dir, p).Some?
    ensures var n := EntryName(dir, p).value;
      n != "" && '/' !in n && PathJoin(dir, "") + n == p
  {
    var prefix := PathJoin(dir, "");
    assert p == p[..|prefix|] + p[|prefix|..];
  }

  /** `os.listdir(dir)`: the names of the files directly in `dir`. */
  function ListDir(disk: Disk, dir: string): (r: seq<string>)
    ensures forall n :: n in r ==> n != "" && '/' !in n && PathJoin(dir, "") + n in disk
    ensures forall p :: p in disk && EntryName(dir, p).Some? ==> EntryName(dir, p).value in r
  {
    if |disk| == 0 then []
    else
      var rest := ListDir(disk[1..], dir);
      assert forall p :: p in disk ==> p == disk[0] || p in disk[1..];
      match EntryName(dir, disk[0])
      case Some(n) =>
        EntryNameShape(dir, disk[0]);
        [n] + rest
      case None => rest
  }

  /** The listing sees a file written straight into the directory. */
  lemma ListDirSeesFile(disk: Disk, dir: string, name: string)
    requires dir != "" && dir[|dir| - 1] != '/'
    requires name != "" && '/' !in name
    requires PathJoin(dir, name) in disk
    ensures name in ListDir(disk, dir)
  {
    var prefix := PathJoin(dir, "");
    assert prefix == dir + "/";
    var p := PathJoin(dir, name);
    assert p == prefix + name;
    assert p[..|prefix|] == prefix && p[|prefix|..] == name;
    assert EntryName(dir, p) == Some(name);
  }

  /** One image as the listing and the selection describe it. */
  datatype PhotoEntry = PhotoEntry(filename: string, uploadedPath: string, processedPath: string,
                                   publicUrl: string, localPath: string)

  function PublicUrl(user: string, profile: string, name: string): string {
    Origin + "/static/" + user + "/" + profile + "/processed/" + name
  }

  /** The entry for `name`, every path derived from the name. */
  function EntryFor(user: string, profile: string, s: PhotoSession, name: string): (r: PhotoEntry)
    ensures r.filename == name && r.localPath == r.processedPath
    ensures r.uploadedPath == PathJoin(s.dirs.uploadDir, name) && r.processedPath == PathJoin(s.dirs.processedDir, name)
  {
    var processed := PathJoin(s.dirs.processedDir, name);
    PhotoEntry(name, PathJoin(s.dirs.uploadDir, name), processed, PublicUrl(user, profile, name), processed)
  }

  /** `draw_faces`: the image is copied into the processed directory under
      its base name, which is returned. */
  function DrawFaces(disk: Disk, imagePath: string, processedDir: string): (r: (string, Disk))
    ensures r.0 == PathJoin(processedDir, Basename(imagePath))
    ensures r.1 == Write(disk, r.0)
  {
    var processed := PathJoin(processedDir, Basename(imagePath));
    (processed, Write(disk, processed))
  }

  /** `POST /api/photo/upload`: the pair's session is created first. A
      name that joins to the upload directory itself (or its parent) cannot
      be opened for writing, and the handler fails with 500 having written
      nothing. Otherwise the file is written under its original name in the
      upload directory (replacing a same-named file), its processed copy
      becomes the selection, and the answer describes both. */
  function Upload(sessions: Sessions, disk: Disk, user: string, profile: string, filename: string): (r: (Result<PhotoEntry, ApiError>, Sessions, Disk))
    ensures var (s, st) := InitUserSession(sessions, user, profile);
      && (r.0.Failure? <==> NamesDirectory(filename))
      && (r.0.Failure? ==> r == (Failure(InternalError), st, disk))
      && (r.0.Success? ==>
            var e := r.0.value;
            && e.filename == filename
            && e.uploadedPath == PathJoin(s.dirs.uploadDir, filename)
            && e.publicUrl == PublicUrl(user, profile, filename)
            && e.processedPath == PathJoin(s.dirs.processedDir, Basename(PathJoin(s.dirs.uploadDir, filename)))
            && e.localPath == e.processedPath
            && r.1 == SetSelected(st, user, profile, Some(e.processedPath))
            && e.uploadedPath in r.2 && e.processedPath in r.2)
    ensures Consistent(sessions) ==> Consistent(r.1)
  {
    var (s, st) := InitUserSession(sessions, user, profile);
    if NamesDirectory(filename) then (Failure(InternalError), st, disk)
    else
      var filePath := PathJoin(s.dirs.uploadDir, filename);
      var disk1 := Write(disk, filePath);
      var (processed, disk2) := DrawFaces(disk1, filePath, s.dirs.processedDir);
      (Success(PhotoEntry(filename, filePath, processed, PublicUrl(user, profile, filename), processed)),
       SetSelected(st, user, profile, Some(processed)), disk2)
  }

  /** Two writes only add files, at most two of them, after the old ones. */
  lemma WriteTwice(disk: Disk, a: string, b: string)
    ensures exists added: seq<string> :: |added| <= 2 && Write(Write(disk, a), b) == disk + added
  {
    var disk1 := Write(disk, a);
    var a1 := disk1[|disk|..];
    assert disk1 == disk + a1;
    var a2 := Write(disk1, b)[|disk1|..];
    assert Write(disk1, b) == disk1 + a2;
    assert Write(disk1, b) == disk + (a1 + a2);
  }

  /** An upload only adds files: everything on disk before is still there,
      in place, and at most the upload and its processed copy are new. */
  lemma UploadKeepsFiles(sessions: Sessions, disk: Disk, user: string, profile: string, filename: string)
    ensures var d := Upload(sessions, disk, user, profile, filename).2;
      exists added: seq<string> :: |added| <= 2 && d == disk + added
  {
    var s := InitUserSession(sessions, user, profile).0;
    var filePath := PathJoin(s.dirs.uploadDir, filename);
    if NamesDirectory(filename) {
      assert disk == disk + [];
    } else {
      WriteTwice(disk, filePath, PathJoin(s.dirs.processedDir, Basename(filePath)));
    }
  }

  datatype ListAnswer = ListAnswer(uploadedImages: seq<PhotoEntry>, selectedImage: Option<PhotoEntry>)

  function Entries(user: string, profile: string, s: PhotoSession, names: seq<string>): (r: seq<PhotoEntry>)
    ensures |r| == |names|
    ensures forall i :: 0 <= i < |names| ==> r[i] == EntryFor(user, profile, s, names[i])
  {
    seq(|names|, i requires 0 <= i < |names| => EntryFor(user, profile, s, names[i]))
  }

  function FileNames(es: seq<PhotoEntry>): (r: seq<string>)
    ensures |r| == |es|
    ensures forall i :: 0 <= i < |es| ==> r[i] == es[i].filename
  {
    seq(|es|, i requires 0 <= i < |es| => es[i].filename)
  }

  /** The names of the entries built for `names` are `names`. */
  lemma EntriesNames(user: string, profile: string, s: PhotoSession, names: seq<string>)
    ensures FileNames(Entries(user, profile, s, names)) == names
  {
  }

  /** What `GET /api/photo/list` answers for session `s`: one entry per
      uploaded file, sorted by name; the selection is reported, under its
      base name, only while its file exists. */
  function Listing(user: string, profile: string, s: PhotoSession, disk: Disk): (a: ListAnswer)
    ensures Sorted(FileNames(a.uploadedImages))
    ensures multiset(FileNames(a.uploadedImages)) == multiset(ListDir(disk, s.dirs.uploadDir))
    ensures forall e :: e in a.uploadedImages ==> e == EntryFor(user, profile, s, e.filename)
    ensures a.selectedImage.Some? <==> Truthy(s.selected) && s.selected.value in disk
    ensures a.selectedImage.Some? ==> a.selectedImage.value == EntryFor(user, profile, s, Basename(s.selected.value))
  {
    var names := Sort(ListDir(disk, s.dirs.uploadDir));
    EntriesNames(user, profile, s, names);
    var selected := if Truthy(s.selected) && s.selected.value in disk
                    then Some(EntryFor(user, profile, s, Basename(s.selected.value))) else None;
    ListAnswer(Entries(user, profile, s, names), selected)
  }

  /** `GET /api/photo/list`: the pair's session is created when missing, then listed. */
  function List(sessions: Sessions, disk: Disk, user: string, profile: string): (ListAnswer, Sessions) {
    var (s, st) := InitUserSession(sessions, user, profile);
    (Listing(user, profile, s, disk), st)
  }

  datatype SelectAnswer = SelectAnswer(selectedImage: PhotoEntry, publicUrl: string)

  const ImageNotFound := "Image not found"

  /** `POST /api/photo/select`: a name with no uploaded file answers 404
      and leaves the selection alone; the joined path is compared as given,
      not resolved. A name that joins to the upload
      directory itself (or its parent) passes the existence check, but face
      drawing cannot open a directory and the handler fails with 500, again
      before the selection changes. Otherwise the image is processed again
      and its processed copy becomes the selection. */
  function Select(sessions: Sessions, disk: Disk, user: string, profile: string, name: string): (r: (Result<SelectAnswer, ApiError>, Sessions, Disk))
    ensures var (s, st) := InitUserSession(sessions, user, profile);
      && (NamesDirectory(name) ==> r == (Failure(InternalError), st, disk))
      && (!NamesDirectory(name) ==> (r.0.Failure? <==> PathJoin(s.dirs.uploadDir, name) !in disk))
      && (!NamesDirectory(name) && r.0.Failure? ==> r == (Failure(ApiError(404, ImageNotFound)), st, disk))
      && (r.0.Success? ==>
            && r.0.value.publicUrl == PublicUrl(user, profile, name)
            && r.0.value.selectedImage.filename == name
            && r.0.value.selectedImage.uploadedPath == PathJoin(s.dirs.uploadDir, name)
            && r.1 == SetSelected(st, user, profile, Some(r.0.value.selectedImage.processedPath))
            && r.0.value.selectedImage.processedPath in r.2)
    ensures Consistent(sessions) ==> Consistent(r.1)
  {
    var (s, st) := InitUserSession(sessions, user, profile);
    var imagePath := PathJoin(s.dirs.uploadDir, name);
    if NamesDirectory(name) then (Failure(InternalError), st, disk)
    else if imagePath !in disk then (Failure(ApiError(404, ImageNotFound)), st, disk)
    else
      var (processed, disk1) := DrawFaces(disk, imagePath, s.dirs.processedDir);
      var url := PublicUrl(user, profile, name);
      (Success(SelectAnswer(PhotoEntry(name, imagePath, processed, url, processed), url)),
       SetSelected(st, user, profile, Some(processed)), disk1)
  }

  /** Selection only follows success: a failed select leaves the pair's
      selection (and every other session) as it was. */
  lemma SelectFailureKeepsSelection(sessions: Sessions, disk: Disk, user: string, profile: string, name: string)
    requires (user, profile) in sessions
    requires Select(sessions, disk, user, profile, name).0.Failure?
    ensures Select(sessions, disk, user, profile, name).1 == sessions
  {
  }

  /** Session directories never end in `/`, and uploads and processed
      copies live apart. */
  lemma DirsApart(user: string, profile: string)
    ensures var d := DirsOf(user, profile);
      && d.uploadDir != "" && d.uploadDir[|d.uploadDir| - 1] != '/'
      && d.processedDir != "" && d.processedDir[|d.processedDir| - 1] != '/'
      && d.uploadDir != d.processedDir
  {
    var d := DirsOf(user, profile);
    var up, done := d.uploadDir, d.processedDir;
    PathJoinEndsWith(d.profileDir, "uploads");
    PathJoinEndsWith(d.profileDir, "processed");
    assert up[|up| - 7..][6] == 's';
    assert done[|done| - 9..][8] == 'd';
  }

  /** A plain file name joined to either directory of a pair is its own
      base name, and the joined path is never empty. */
  lemma PlainNameInDirs(user: string, profile: string, name: string)
    requires name != "" && '/' !in name
    ensures var d := DirsOf(user, profile);
      && Basename(PathJoin(d.uploadDir, name)) == name
      && Basename(PathJoin(d.processedDir, name)) == name
      && PathJoin(d.processedDir, name) != ""
  {
    DirsApart(user, profile);
    var d := DirsOf(user, profile);
    assert PathJoin(d.uploadDir, name) == d.uploadDir + "/" + name;
    BasenameOfJoin(d.uploadDir, name);
    assert PathJoin(d.processedDir, name) == d.processedDir + "/" + name;
    BasenameOfJoin(d.processedDir, name);
  }

  /** A session's listing shows every plain file of its upload directory. */
  lemma ListingShowsFile(user: string, profile: string, s: PhotoSession, disk: Disk, name: string)
    requires s.dirs == DirsOf(user, profile)
    requires name != "" && '/' !in name
    requires PathJoin(s.dirs.uploadDir, name) in disk
    ensures name in FileNames(Listing(user, profile, s, disk).uploadedImages)
  {
    DirsApart(user, profile);
    ListDirSeesFile(disk, s.dirs.uploadDir, name);
    assert name in multiset(FileNames(Listing(user, profile, s, disk).uploadedImages));
  }

  /** The listing shows every plain file of the upload directory. */
  lemma ListShowsFile(sessions: Sessions, disk: Disk, user: string, profile: string, name: string)
    requires Consistent(sessions)
    requires name != "" && '/' !in name
    requires PathJoin(DirsOf(user, profile).uploadDir, name) in disk
    ensures name in FileNames(List(sessions, disk, user, profile).0.uploadedImages)
  {
    InitUserSessionOwnDirs(sessions, user, profile);
    ListingShowsFile(user, profile, InitUserSession(sessions, user, profile).0, disk, name);
  }

  /** The listing reports an existing selection under its base name. */
  lemma ListShowsSelection(sessions: Sessions, disk: Disk, user: string, profile: string, path: string)
    requires (user, profile) in sessions && sessions[(user, profile)].selected == Some(path)
    requires path != "" && path in disk
    ensures var sel := List(sessions, disk, user, profile).0.selectedImage;
      sel.Some? && sel.value.filename == Basename(path)
  {
  }

  /** After uploading a plain file name, the listing shows it and reports
      it, under the same name, as the selection. */
  lemma UploadThenList(sessions: Sessions, disk: Disk, user: string, profile: string, filename: string)
    requires Consistent(sessions)
    requires PlainName(filename)
    ensures var (res, st, d) := Upload(sessions, disk, user, profile, filename);
      var (ans, _) := List(st, d, user, profile);
      && res.Success?
      && filename in FileNames(ans.uploadedImages)
      && ans.selectedImage.Some? && ans.selectedImage.value.filename == filename
  {
    InitUserSessionOwnDirs(sessions, user, profile);
    PlainNameInDirs(user, profile, filename);
    var dirs := DirsOf(user, profile);
    var (res, st, d) := Upload(sessions, disk, user, profile, filename);
    var e := res.value;
    var s := st[(user, profile)];
    assert s.dirs == dirs && s.selected == Some(e.processedPath);
    assert List(st, d, user, profile).0 == Listing(user, profile, s, d);
    assert e.processedPath == PathJoin(dirs.processedDir, filename);
    ListingShowsFile(user, profile, s, d, filename);
  }

  /** After uploading a plain file name, selecting it succeeds. */
  lemma UploadThenSelect(sessions: Sessions, disk: Disk, user: string, profile: string, filename: string)
    requires Consistent(sessions)
    requires PlainName(filename)
    ensures var (_, st, d) := Upload(sessions, disk, user, profile, filename);
      Select(st, d, user, profile, filename).0.Success?
  {
    var (res, st, d) := Upload(sessions, disk, user, profile, filename);
    assert InitUserSession(st, user, profile).0.dirs.uploadDir == InitUserSession(sessions, user, profile).0.dirs.uploadDir;
  }
}

=== FILE: photo_views.dfy ===
/** The photo-chat panel (`src/components/ChatPage.tsx`): a photo list, a
    selection and a transcript, all driven by the photo API. Unlike the GPT
    chat screen it trims what the user typed, and a failed request adds no
    assistant message but sets an error. */
module PhotoChatPanel {
  import opened Wrappers
  import opened Text
  import opened Gateway
  import opened Transcript

  datatype Panel = Panel(photos: seq<Photo>, selected: Option<Photo>, uploading: bool,
                         input: string, messages: seq<Msg>, error: Option<string>)

  const LoadError := "Failed to load photos"
  const SendError := "Failed to send message"
  const UploadError := "Upload failed"
  const SelectError := "Failed to select photo"
  const Intro := "Let's talk about this photo"

  /** `loadPhotos`: the list and the selection both come from the answer
      (with its defaults); a failure keeps them and sets the load error. */
  function LoadPhotos(p: Panel, res: Http<ListBody>): (r: Panel)
    ensures ListUploadedPhotos(res).Success? ==>
              r == p.(photos := ListUploadedPhotos(res).value.uploadedImages,
                      selected := ListUploadedPhotos(res).value.selectedImage)
    ensures ListUploadedPhotos(res).Failure? ==> r == p.(error := Some(LoadError))
  {
    match ListUploadedPhotos(res)
    case Success(l) => p.(photos := l.uploadedImages, selected := l.selectedImage)
    case Failure(_) => p.(error := Some(LoadError))
  }

  /** The effect that reloads on a profile change: nothing without a profile. */
  function OnProfileChange(p: Panel, profile: Option<string>, res: Http<ListBody>): (r: Panel)
    ensures !Truthy(profile) ==> r == p
    ensures Truthy(profile) ==> r == LoadPhotos(p, res)
  {
    if Truthy(profile) then LoadPhotos(p, res) else p
  }

  /** `handleSend`: no profile or blank input does nothing. Otherwise the
      trimmed text is appended as the user's message and the input clears
      before the request; a good answer appends its reply, a failed one
      sets the send error and adds nothing more. */
  function HandleSend(p: Panel, profile: Option<string>, res: Http<ChatReply>): (r: Panel)
    ensures !Truthy(profile) || IsBlank(JavaScript, p.input) ==> r == p
    ensures Truthy(profile) && !IsBlank(JavaScript, p.input) ==>
              && r.input == ""
              && |r.messages| >= |p.messages| + 1
              && r.messages[..|p.messages| + 1] == p.messages + [Msg("user", Trim(JavaScript, p.input))]
              && r.photos == p.photos && r.selected == p.selected
    ensures Truthy(profile) && !IsBlank(JavaScript, p.input) && SendPhotoChat(res).Success? ==>
              r.messages == p.messages + [Msg("user", Trim(JavaScript, p.input)), Msg("assistant", SendPhotoChat(res).value.reply.GetOr(""))]
              && r.error == p.error
    ensures Truthy(profile) && !IsBlank(JavaScript, p.input) && SendPhotoChat(res).Failure? ==>
              r.messages == p.messages + [Msg("user", Trim(JavaScript, p.input))] && r.error == Some(SendError)
  {
    if !Truthy(profile) || Trim(JavaScript, p.input) == "" then p
    else
      var p1 := p.(messages := p.messages + [Msg("user", Trim(JavaScript, p.input))], input := "");
      match SendPhotoChat(res)
      case Success(data) => p1.(messages := p1.messages + [Msg("assistant", data.reply.GetOr(""))])
      case Failure(_) => p1.(error := Some(SendError))
  }

  /** `handleUpload`: needs a profile and a picked file. A completed upload
      reloads the list (whose own failure sets only the load error); a failed
      one sets the upload error. `uploading` ends false either way. */
  function HandleUpload(p: Panel, profile: Option<string>, file: Option<FileRef>,
                        upload: Http<Photo>, select: Http<()>, list: Http<ListBody>): (r: Panel)
    ensures !Truthy(profile) || file.None? ==> r == p
    ensures Truthy(profile) && file.Some? ==> !r.uploading
    ensures Truthy(profile) && file.Some? && UploadPhoto(upload, select).result.Success? ==>
              r == LoadPhotos(p, list).(uploading := false)
    ensures Truthy(profile) && file.Some? && UploadPhoto(upload, select).result.Failure? ==>
              r == p.(error := Some(UploadError), uploading := false)
  {
    if !Truthy(profile) || file.None? then p
    else if UploadPhoto(upload, select).result.Success? then LoadPhotos(p, list).(uploading := false)
    else p.(error := Some(UploadError), uploading := false)
  }

  /** `handleSelect(photo)`: once the select request is accepted the
      selection becomes what it returned and the intro is sent as the user's
      message; the chat reply is appended when that request succeeds too. A
      failure at either step sets the select error, and a failure of the
      chat step keeps the new selection and the intro. */
  function HandleSelect(p: Panel, profile: Option<string>, photo: Photo,
                        select: Http<SelectBody>, chat: Http<ChatReply>): (r: Panel)
    ensures !Truthy(profile) ==> r == p
    ensures Truthy(profile) && SelectPhoto(photo.filename, select).Failure? ==> r == p.(error := Some(SelectError))
    ensures Truthy(profile) && SelectPhoto(photo.filename, select).Success? ==>
              && r.selected == Some(SelectPhoto(photo.filename, select).value)
              && r.selected.value.filename == photo.filename
              && |r.messages| >= |p.messages| + 1
              && r.messages[..|p.messages| + 1] == p.messages + [Msg("user", Intro)]
              && (SendPhotoChat(chat).Success? ==>
                    r.messages == p.messages + [Msg("user", Intro), Msg("assistant", SendPhotoChat(chat).value.reply.GetOr(""))])
              && (SendPhotoChat(chat).Failure? ==>
                    r.messages == p.messages + [Msg("user", Intro)] && r.error == Some(SelectError))
  {
    if !Truthy(profile) then p
    else
      match SelectPhoto(photo.filename, select)
      case Failure(_) => p.(error := Some(SelectError))
      case Success(chosen) =>
        var p1 := p.(selected := Some(chosen), messages := p.messages + [Msg("user", Intro)]);
        match SendPhotoChat(chat)
        case Success(data) => p1.(messages := p1.messages + [Msg("assistant", data.reply.GetOr(""))])
        case Failure(_) => p1.(error := Some(SelectError))
  }
}

/** The photo library screen (`src/pages/PhotosPage.tsx`). */
module PhotosPage {
  import opened Wrappers
  import opened Gateway

  datatype Screen = Screen(images: seq<Photo>, selected: Option<Photo>, file: Option<FileRef>,
                           loading: bool, error: Option<string>)

  const LoadError := "Failed to load images"
  const UploadError := "Failed to upload photo"
  const SelectError := "Failed to select photo"

  /** `loadPhotos`: nothing without a profile; otherwise the images and the
      selection come from the answer, or the load error is set. */
  function LoadPhotos(sc: Screen, profile: Option<string>, res: Http<ListBody>): (r: Screen)
    ensures !Truthy(profile) ==> r == sc
    ensures Truthy(profile) ==> !r.loading && r.file == sc.file
    ensures Truthy(profile) && ListUploadedPhotos(res).Success? ==>
              r.images == ListUploadedPhotos(res).value.uploadedImages
              && r.selected == ListUploadedPhotos(res).value.selectedImage && r.error == sc.error
    ensures Truthy(profile) && ListUploadedPhotos(res).Failure? ==>
              r.images == sc.images && r.selected == sc.selected && r.error == Some(LoadError)
  {
    if !Truthy(profile) then sc
    else
      match ListUploadedPhotos(res)
      case Success(l) => sc.(images := l.uploadedImages, selected := l.selectedImage, loading := false)
      case Failure(_) => sc.(error := Some(LoadError), loading := false)
  }

  /** `handleUpload`: needs a file and a profile; a completed upload clears
      the picked file and reloads, a failed one sets the upload error. */
  function HandleUpload(sc: Screen, profile: Option<string>, upload: Http<Photo>,
                        select: Http<()>, list: Http<ListBody>): (r: Screen)
    ensures sc.file.None? || !Truthy(profile) ==> r == sc
    ensures sc.file.Some? && Truthy(profile) ==> !r.loading
    ensures sc.file.Some? && Truthy(profile) && UploadPhoto(upload, select).result.Success? ==>
              r == LoadPhotos(sc.(file := None), profile, list)
    ensures sc.file.Some? && Truthy(profile) && UploadPhoto(upload, select).result.Failure? ==>
              r == sc.(error := Some(UploadError), loading := false)
  {
    if sc.file.None? || !Truthy(profile) then sc
    else if UploadPhoto(upload, select).result.Success? then LoadPhotos(sc.(file := None), profile, list)
    else sc.(error := Some(UploadError), loading := false)
  }

  /** `handleSelect(photo)`: the photo passed in (not the backend's answer)
      becomes the selection once the request is accepted; a failure keeps
      the old selection and sets the select error. */
  function HandleSelect(sc: Screen, profile: Option<string>, photo: Photo, res: Http<SelectBody>): (r: Screen)
    ensures !Truthy(profile) ==> r == sc
    ensures Truthy(profile) ==> !r.loading && r.images == sc.images && r.file == sc.file
    ensures Truthy(profile) && SelectPhoto(photo.filename, res).Success? ==> r.selected == Some(photo) && r.error == sc.error
    ensures Truthy(profile) && SelectPhoto(photo.filename, res).Failure? ==>
              r.selected == sc.selected && r.error == Some(SelectError)
  {
    if !Truthy(profile) then sc
    else if SelectPhoto(photo.filename, res).Success? then sc.(selected := Some(photo), loading := false)
    else sc.(error := Some(SelectError), loading := false)
  }
}

/** The photo picker (`src/components/PhotosPage.tsx`): failures are only
    reported by an alert, so they leave the state as it was. */
module PhotoPicker {
  import opened Wrappers
  import opened Gateway

  datatype Picker = Picker(uploaded: seq<Photo>, selected: Option<Photo>)

  /** Index of the first photo named `name`, or -1 when there is none. */
  function FirstIndex(photos: seq<Photo>, name: string): (i: int)
    ensures -1 <= i < |photos|
    ensures i >= 0 ==> photos[i].filename == name
    ensures forall j :: 0 <= j < |photos| && (i < 0 || j < i) ==> photos[j].filename != name
  {
    if |photos| == 0 then -1
    else if photos[0].filename == name then 0
    else
      var k := FirstIndex(photos[1..], name);
      if k < 0 then -1 else k + 1
  }

  /** `photos.find(p => p.filename === name)`: the first photo with that name. */
  function FindByFilename(photos: seq<Photo>, name: string): (r: Option<Photo>)
    ensures r.Some? ==> r.value in photos && r.value.filename == name
    ensures r.None? <==> forall i :: 0 <= i < |photos| ==> photos[i].filename != name
    ensures r.Some? ==> exists i :: 0 <= i < |photos| && photos[i] == r.value
                           && forall j :: 0 <= j < i ==> photos[j].filename != name
  {
    var i := FirstIndex(photos, name);
    if i < 0 then None else Some(photos[i])
  }

  /** The fetch effect: without a profile nothing happens. The list is
      replaced by the answer's; the selection only when the answer names
      one, so an answer without a selection keeps the previous one. */
  function FetchPhotos(pk: Picker, profile: Option<string>, res: Http<ListBody>): (r: Picker)
    ensures !Truthy(profile) || ListUploadedPhotos(res).Failure? ==> r == pk
    ensures Truthy(profile) && ListUploadedPhotos(res).Success? ==>
              && r.uploaded == ListUploadedPhotos(res).value.uploadedImages
              && r.selected == (if ListUploadedPhotos(res).value.selectedImage.Some?
                                then ListUploadedPhotos(res).value.selectedImage else pk.selected)
  {
    if !Truthy(profile) then pk
    else
      match ListUploadedPhotos(res)
      case Failure(_) => pk
      case Success(l) =>
        var pk1 := pk.(uploaded := l.uploadedImages);
        if l.selectedImage.Some? then pk1.(selected := l.selectedImage) else pk1
  }

  /** `handleFileChange`: needs a file and a profile. After a completed upload
      and a good relisting, the list is replaced and the entry carrying the
      uploaded file name becomes the selection; with no such entry the
      selection stays. Any failure leaves everything as it was. */
  function HandleFileChange(pk: Picker, profile: Option<string>, file: Option<FileRef>,
                            upload: Http<Photo>, select: Http<()>, list: Http<ListBody>): (r: Picker)
    ensures file.None? || !Truthy(profile) ==> r == pk
    ensures UploadPhoto(upload, select).result.Failure? || ListUploadedPhotos(list).Failure? ==> r == pk
    ensures file.Some? && Truthy(profile) && UploadPhoto(upload, select).result.Success?
            && ListUploadedPhotos(list).Success? ==>
              && r.uploaded == ListUploadedPhotos(list).value.uploadedImages
              && (r.selected == pk.selected || (r.selected.Some? && r.selected.value in r.uploaded))
              && (r.selected != pk.selected ==>
                    r.selected.value.filename == UploadPhoto(upload, select).result.value.filename)
              && ((exists i :: 0 <= i < |r.uploaded| &&
                     r.uploaded[i].filename == UploadPhoto(upload, select).result.value.filename) ==>
                    r.selected.Some? && r.selected.value.filename == UploadPhoto(upload, select).result.value.filename)
  {
    if file.None? || !Truthy(profile) then pk
    else
      match UploadPhoto(upload, select).result
      case Failure(_) => pk
      case Success(uploaded) =>
        match ListUploadedPhotos(list)
        case Failure(_) => pk
        case Success(l) =>
          var pk1 := pk.(uploaded := l.uploadedImages);
          match FindByFilename(l.uploadedImages, uploaded.filename)
          case Some(found) => pk1.(selected := Some(found))
          case None => pk1
  }

  /** `handleSelectPhoto(photo)`: the photo passed in becomes the selection
      only after the select request is accepted. */
  function HandleSelectPhoto(pk: Picker, profile: Option<string>, photo: Photo, res: Http<SelectBody>): (r: Picker)
    ensures !Truthy(profile) || SelectPhoto(photo.filename, res).Failure? ==> r == pk
    ensures Truthy(profile) && SelectPhoto(photo.filename, res).Success? ==> r == pk.(selected := Some(photo))
  {
    if Truthy(profile) && SelectPhoto(photo.filename, res).Success? then pk.(selected := Some(photo)) else pk
  }
}

=== FILE: profile_registry.dfy ===
/** The backend profile registry (`pkg/profiles.py`): a JSON file holding
    the list of profile names, read on every request. The file is a
    sequence, or `None` while it does not exist yet. */
module ProfileRegistry {
  import opened Wrappers
  import opened Text

  type StoreFile = Option<seq<string>>

  datatype Entry = Entry(name: string)

  const EmptyName := "Profile name cannot be empty"
  const Exists := "Profile already exists"
  const NotFound := "Profile not found"

  predicate NoDuplicates(ps: seq<string>) {
    forall i, j :: 0 <= i < j < |ps| ==> ps[i] != ps[j]
  }

  /** `load_profiles`: a missing file is created holding `[]` and reads as `[]`. */
  function Load(f: StoreFile): (r: (seq<string>, StoreFile))
    ensures r.1 == Some(r.0)
    ensures f.None? ==> r.0 == []
    ensures f.Some? ==> r.0 == f.value
  {
    match f
    case None => ([], Some([]))
    case Some(ps) => (ps, f)
  }

  /** `list_profiles`: one `{"name": p}` per stored name, in stored order. */
  function List(f: StoreFile): (r: (seq<Entry>, StoreFile))
    ensures r.1 == Load(f).1
    ensures |r.0| == |Load(f).0|
    ensures forall i :: 0 <= i < |r.0| ==> r.0[i] == Entry(Load(f).0[i])
  {
    var ps := Load(f).0;
    (seq(|ps|, i requires 0 <= i < |ps| => Entry(ps[i])), Load(f).1)
  }

  /** `create_profile`: the name is stripped; an empty result is refused
      before the file is even read; a stored name is refused; otherwise the
      name goes to the end of the list and is returned. */
  function Create(f: StoreFile, name: string): (r: (Result<string, ApiError>, StoreFile))
    ensures IsBlank(Python, name) ==> r == (Failure(ApiError(400, EmptyName)), f)
    ensures !IsBlank(Python, name) && Trim(Python, name) in Load(f).0 ==>
              r == (Failure(ApiError(400, Exists)), Load(f).1)
    ensures !IsBlank(Python, name) && Trim(Python, name) !in Load(f).0 ==>
              r == (Success(Trim(Python, name)), Some(Load(f).0 + [Trim(Python, name)]))
  {
    var n := Trim(Python, name);
    if n == "" then (Failure(ApiError(400, EmptyName)), f)
    else
      var (ps, f1) := Load(f);
      if n in ps then (Failure(ApiError(400, Exists)), f1)
      else (Success(n), Some(ps + [n]))
  }

  /** Creating never introduces a duplicate. */
  lemma CreateKeepsNoDuplicates(f: StoreFile, name: string)
    requires f.Some? ==> NoDuplicates(f.value)
    ensures var r := Create(f, name).1; r.Some? ==> NoDuplicates(r.value)
  {
  }

  /** Index of the first occurrence of `x`. */
  function FirstIndexOf(ps: seq<string>, x: string): (k: nat)
    requires x in ps
    ensures k < |ps| && ps[k] == x
    ensures x !in ps[..k]
  {
    if ps[0] == x then 0
    else
      var k := FirstIndexOf(ps[1..], x);
      assert ps[..k + 1] == [ps[0]] + ps[1..][..k];
      k + 1
  }

  /** `list.remove(x)`: drops the first occurrence of `x`, others keep their order. */
  function RemoveFirst(ps: seq<string>, x: string): (r: seq<string>)
    requires x in ps
    ensures |r| == |ps| - 1
    ensures multiset(r) == multiset(ps) - multiset{x}
  {
    var k := FirstIndexOf(ps, x);
    assert ps == ps[..k] + [x] + ps[k + 1..];
    ps[..k] + ps[k + 1..]
  }

  /** Where the remaining names sit: before the removed one, in place;
      after it, one position earlier. */
  lemma RemoveFirstAt(ps: seq<string>, x: string)
    requires x in ps
    ensures var k := FirstIndexOf(ps, x);
      forall i :: 0 <= i < |RemoveFirst(ps, x)| ==>
        RemoveFirst(ps, x)[i] == ps[if i < k then i else i + 1]
  {
    var k := FirstIndexOf(ps, x);
    var r := RemoveFirst(ps, x);
    assert r == ps[..k] + ps[k + 1..];
  }

  /** Removing from a duplicate-free list removes the name entirely and
      leaves the others in their order. */
  lemma RemoveFirstOrder(ps: seq<string>, x: string)
    requires NoDuplicates(ps) && x in ps
    ensures x !in RemoveFirst(ps, x)
    ensures NoDuplicates(RemoveFirst(ps, x))
    ensures forall y :: y in RemoveFirst(ps, x) <==> y in ps && y != x
  {
    var k := FirstIndexOf(ps, x);
    var r := RemoveFirst(ps, x);
    RemoveFirstAt(ps, x);
    forall i | 0 <= i < |r| ensures r[i] != x && r[i] in ps {
      var j := if i < k then i else i + 1;
      assert r[i] == ps[j] && j != k;
    }
    forall y | y in ps && y != x ensures y in r {
      var i :| 0 <= i < |ps| && ps[i] == y;
      assert i != k;
      if i < k { assert r[i] == y; } else { assert r[i - 1] == y; }
    }
  }

  /** `delete_profile`: an unknown name is refused with 404; otherwise its
      first occurrence is removed. */
  function Delete(f: StoreFile, name: string): (r: (Result<(), ApiError>, StoreFile))
    ensures name !in Load(f).0 ==> r == (Failure(ApiError(404, NotFound)), Load(f).1)
    ensures name in Load(f).0 ==> r == (Success(()), Some(RemoveFirst(Load(f).0, name)))
  {
    var (ps, f1) := Load(f);
    if name !in ps then (Failure(ApiError(404, NotFound)), f1)
    else (Success(()), Some(RemoveFirst(ps, name)))
  }

  /** Deleting what was just created gives back the list as it was. */
  lemma CreateThenDelete(ps: seq<string>, name: string)
    requires Create(Some(ps), name).0.Success?
    ensures Delete(Create(Some(ps), name).1, Create(Some(ps), name).0.value).1 == Some(ps)
  {
    var n := Trim(Python, name);
    var qs := ps + [n];
    var k := FirstIndexOf(qs, n);
    assert Create(Some(ps), name) == (Success(n), Some(qs));
    assert k == |ps|;
    assert RemoveFirst(qs, n) == qs[..k] + qs[k + 1..];
    assert qs[..|ps|] == ps && qs[k + 1..] == [];
    assert Delete(Some(qs), n).1 == Some(RemoveFirst(qs, n));
    assert RemoveFirst(qs, n) == ps;
  }

  /** `select_profile`: a stored name is echoed back, an unknown one is
      refused with 404; the list is never changed. */
  function Select(f: StoreFile, name: string): (r: (Result<string, ApiError>, StoreFile))
    ensures r.1 == Load(f).1
    ensures name in Load(f).0 <==> r.0.Success?
    ensures r.0.Success? ==> r.0.value == name
    ensures r.0.Failure? ==> r.0.error == ApiError(404, NotFound)
  {
    var (ps, f1) := Load(f);
    if name in ps then (Success(name), f1) else (Failure(ApiError(404, NotFound)), f1)
  }
}

=== FILE: profiles_page.dfy ===
/** The profile management screen (`src/pages/ProfilesPage.tsx`). Every
    handler commits to the profile context only after the backend accepted
    the request; a failure leaves the selection alone and sets an error. */
module ProfilesPage {
  import opened Wrappers
  import opened Text
  import opened Gateway
  import opened SessionStore

  datatype Screen = Screen(profiles: seq<string>, newProfile: string, error: Option<string>,
                           loading: bool, showCreate: bool, route: string)

  const LoadError := "Failed to load profiles"
  const CreateError := "Failed to create profile"
  const DeleteError := "Failed to delete profile"
  const SelectError := "Failed to select profile"
  const FortuneRoute := "/fortune"

  /** `data.map(p => p.name)`. */
  function Names(entries: seq<ProfileEntry>): (r: seq<string>)
    ensures |r| == |entries|
    ensures forall i :: 0 <= i < |entries| ==> r[i] == entries[i].name
  {
    Map((e: ProfileEntry) => e.name, entries)
  }

  /** `loadProfiles`: the error is cleared first; a good list replaces the
      names in response order; a failed request, or a body that is not a
      list (`{}`, on which `.map` throws), keeps the old names and sets the
      load error. */
  function LoadProfiles(sc: Screen, res: Http<seq<ProfileEntry>>): (r: Screen)
    ensures !r.loading
    ensures r.newProfile == sc.newProfile && r.showCreate == sc.showCreate && r.route == sc.route
    ensures r.error.None? <==> FetchProfiles(res).Success? && FetchProfiles(res).value.Body?
    ensures r.error.None? ==> r.profiles == Names(FetchProfiles(res).value.value)
    ensures r.error.Some? ==> r.error.value == LoadError && r.profiles == sc.profiles
  {
    match FetchProfiles(res)
    case Success(Body(entries)) => sc.(profiles := Names(entries), error := None, loading := false)
    case _ => sc.(error := Some(LoadError), loading := false)
  }

  /** The mount effect: profiles are loaded and a saved "activeProfile" is
      applied again as the selection. */
  function Mount(sc: Screen, t: Tab, res: Http<seq<ProfileEntry>>): (r: (Screen, Tab))
    ensures r.0 == LoadProfiles(sc, res)
    ensures ReadSlot(t.storage, ActiveProfileKey).Some? ==> r.1.store.profile == ReadSlot(t.storage, ActiveProfileKey)
    ensures ReadSlot(t.storage, ActiveProfileKey).None? ==> r.1 == t
    ensures r.1.store.photo == t.store.photo
  {
    var sc1 := LoadProfiles(sc, res);
    match ReadSlot(t.storage, ActiveProfileKey)
    case Some(saved) => (sc1, SetSelectedProfile(t, Some(saved)))
    case None => (sc1, t)
  }

  /** Re-applying the saved profile writes back the value the slot already
      holds, so storage is unchanged by the mount. */
  lemma MountKeepsStorage(sc: Screen, t: Tab, res: Http<seq<ProfileEntry>>)
    ensures Mount(sc, t, res).1.storage == t.storage
  {
    var r := Mount(sc, t, res).1;
    if ReadSlot(t.storage, ActiveProfileKey).Some? {
      assert r.storage == t.storage[ActiveProfileKey := t.storage[ActiveProfileKey]];
    }
  }

  /** `handleCreate`: a blank name does nothing. Otherwise the trimmed name
      is sent; once accepted it becomes the selection and the saved profile,
      the input clears, the list reloads, the dialog closes and the screen
      moves on. A refusal only sets the create error. */
  function HandleCreate(sc: Screen, t: Tab, create: Http<()>, list: Http<seq<ProfileEntry>>): (r: (Screen, Tab))
    ensures IsBlank(JavaScript, sc.newProfile) ==> r == (sc, t)
    ensures !IsBlank(JavaScript, sc.newProfile) ==> !r.0.loading
    ensures !IsBlank(JavaScript, sc.newProfile) && CreateProfile(Trim(JavaScript, sc.newProfile), create).Success? ==>
              && r.1.store.profile == Some(Trim(JavaScript, sc.newProfile))
              && ReadSlot(r.1.storage, ActiveProfileKey) == Some(Trim(JavaScript, sc.newProfile))
              && r.1.store.photo == t.store.photo
              && r.0.newProfile == "" && !r.0.showCreate && r.0.route == FortuneRoute
    ensures !IsBlank(JavaScript, sc.newProfile) && CreateProfile(Trim(JavaScript, sc.newProfile), create).Failure? ==>
              r == (sc.(error := Some(CreateError), loading := false), t)
  {
    if Trim(JavaScript, sc.newProfile) == "" then (sc, t)
    else
      match CreateProfile(Trim(JavaScript, sc.newProfile), create)
      case Failure(_) => (sc.(error := Some(CreateError), loading := false), t)
      case Success(name) =>
        var t1 := SetSelectedProfile(t, Some(name));
        var t2 := Tab(t1.store, SetItem(t1.storage, ActiveProfileKey, name));
        var sc1 := LoadProfiles(sc.(newProfile := ""), list);
        (sc1.(showCreate := false, route := FortuneRoute, loading := false), t2)
  }

  /** `handleDelete(name)`: once the backend deleted it, the selection and
      its slot are cleared exactly when `name` was the selection, and the
      list reloads; a refusal only sets the delete error. */
  function HandleDelete(sc: Screen, t: Tab, name: string, del: Http<()>, list: Http<seq<ProfileEntry>>): (r: (Screen, Tab))
    ensures !r.0.loading
    ensures r.1.store.photo == t.store.photo
    ensures DeleteProfile(name, del).Failure? ==> r == (sc.(error := Some(DeleteError), loading := false), t)
    ensures DeleteProfile(name, del).Success? ==> r.0 == LoadProfiles(sc, list)
    ensures DeleteProfile(name, del).Success? ==>
              (r.1.store.profile.None? <==> t.store.profile == Some(name) || t.store.profile.None?)
    ensures DeleteProfile(name, del).Success? && t.store.profile == Some(name) ==> ActiveProfileKey !in r.1.storage
    ensures t.store.profile != Some(name) ==> r.1 == t
  {
    match DeleteProfile(name, del)
    case Failure(_) => (sc.(error := Some(DeleteError), loading := false), t)
    case Success(_) =>
      var t1 := if t.store.profile == Some(name)
                then var c := SetSelectedProfile(t, None); Tab(c.store, RemoveItem(c.storage, ActiveProfileKey))
                else t;
      (LoadProfiles(sc, list), t1)
  }

  /** `handleSelect(name)`: the name becomes the selection and is saved only
      after the backend accepted it; a refusal keeps the old selection and
      sets the select error. */
  function HandleSelect(sc: Screen, t: Tab, name: string, res: Http<()>): (r: (Screen, Tab))
    ensures !r.0.loading
    ensures r.1.store.photo == t.store.photo
    ensures SelectProfile(name, res).Success? ==>
              && r.1.store.profile == Some(name)
              && ActiveProfileKey in r.1.storage && r.1.storage[ActiveProfileKey] == name
              && AgreeExcept(t.storage, r.1.storage, ActiveProfileKey)
              && r.0.route == FortuneRoute && r.0.error == sc.error
    ensures SelectProfile(name, res).Failure? ==> r == (sc.(error := Some(SelectError), loading := false), t)
  {
    match SelectProfile(name, res)
    case Failure(_) => (sc.(error := Some(SelectError), loading := false), t)
    case Success(n) =>
      var t1 := SetSelectedProfile(t, Some(n));
      (sc.(route := FortuneRoute, loading := false), Tab(t1.store, SetItem(t1.storage, ActiveProfileKey, n)))
  }

  /** A successful select survives a reload whenever the name is non-empty. */
  lemma SelectThenReload(sc: Screen, t: Tab, name: string, res: Http<()>)
    requires SelectProfile(name, res).Success? && name != ""
    ensures Hydrate(HandleSelect(sc, t, name, res).1.storage).store.profile == Some(name)
  {
  }

  /** Deleting the active profile is final: a reload does not bring it back,
      and the photo slot is left as it was. */
  lemma DeleteActiveThenReload(sc: Screen, t: Tab, name: string, del: Http<()>, list: Http<seq<ProfileEntry>>)
    requires DeleteProfile(name, del).Success? && t.store.profile == Some(name)
    ensures var s := HandleDelete(sc, t, name, del, list).1.storage;
      Hydrate(s).store == Store(None, ReadSlot(t.storage, UploadedPhotoKey))
  {
  }
}

/** The compact profile panel (`src/components/ProfilePanel.tsx`): the same
    three requests, but errors are only logged, creating a profile does not
    select it, and the panel keeps whatever `fetchProfiles` returned. */
module ProfilePanel {
  import opened Wrappers
  import opened Text
  import opened Gateway
  import opened SessionStore

  datatype Panel = Panel(profiles: Parsed<seq<ProfileEntry>>, newProfile: string, route: string)

  const FortuneCookieRoute := "/fortune-cookie"

  /** `loadProfiles`: a good answer replaces the list with the parsed body
      (or `{}`); a failure is only logged. */
  function LoadProfiles(p: Panel, res: Http<seq<ProfileEntry>>): (r: Panel)
    ensures FetchProfiles(res).Success? ==> r == p.(profiles := FetchProfiles(res).value)
    ensures FetchProfiles(res).Failure? ==> r == p
  {
    match FetchProfiles(res)
    case Success(data) => p.(profiles := data)
    case Failure(_) => p
  }

  /** `handleCreate`: a blank name does nothing; an accepted one clears the
      input and reloads the list. The selection is never touched. */
  function HandleCreate(p: Panel, create: Http<()>, list: Http<seq<ProfileEntry>>): (r: Panel)
    ensures IsBlank(JavaScript, p.newProfile) ==> r == p
    ensures !IsBlank(JavaScript, p.newProfile) && CreateProfile(Trim(JavaScript, p.newProfile), create).Success? ==>
              r == LoadProfiles(p.(newProfile := ""), list)
    ensures CreateProfile(Trim(JavaScript, p.newProfile), create).Failure? ==> r == p
  {
    if Trim(JavaScript, p.newProfile) == "" then p
    else
      match CreateProfile(Trim(JavaScript, p.newProfile), create)
      case Failure(_) => p
      case Success(_) => LoadProfiles(p.(newProfile := ""), list)
  }

  /** `handleDelete(name)`: after an accepted delete the selection is
      cleared if and only if it was `name`; the list reloads. */
  function HandleDelete(p: Panel, t: Tab, name: string, del: Http<()>, list: Http<seq<ProfileEntry>>): (r: (Panel, Tab))
    ensures DeleteProfile(name, del).Failure? ==> r == (p, t)
    ensures DeleteProfile(name, del).Success? ==> r.0 == LoadProfiles(p, list)
    ensures DeleteProfile(name, del).Success? && t.store.profile == Some(name) ==>
              r.1.store.profile.None? && ActiveProfileKey !in r.1.storage
    ensures t.store.profile != Some(name) ==> r.1 == t
    ensures r.1.store.photo == t.store.photo
  {
    match DeleteProfile(name, del)
    case Failure(_) => (p, t)
    case Success(_) =>
      var t1 := if t.store.profile == Some(name) then SetSelectedProfile(t, None) else t;
      (LoadProfiles(p, list), t1)
  }

  /** `handleSelect(name)`: selected, and on to the fortune-cookie screen,
      only after the backend accepted it. */
  function HandleSelect(p: Panel, t: Tab, name: string, res: Http<()>): (r: (Panel, Tab))
    ensures SelectProfile(name, res).Failure? ==> r == (p, t)
    ensures SelectProfile(name, res).Success? ==>
              r.1.store.profile == Some(name) && r.0.route == FortuneCookieRoute
              && r.1.store.photo == t.store.photo
  {
    match SelectProfile(name, res)
    case Failure(_) => (p, t)
    case Success(_) => (p.(route := FortuneCookieRoute), SetSelectedProfile(t, Some(name)))
  }
}

=== FILE: session_store.dfy ===
/** The tab-wide profile/photo context (`ProfileProvider`): two independent
    in-memory fields, each mirrored to its own slot of the browser's
    string-keyed storage and read back once when the provider mounts. */
module SessionStore {
  import opened Wrappers

  /** `localStorage`: absent keys are what `getItem` reports as `null`. */
  type Storage = map<string, string>

  const ActiveProfileKey := "activeProfile"
  const UploadedPhotoKey := "uploadedPhoto"
  /** Slot the upload pipeline leaves for the chat screen; see `FortunePage` and `ChatPage`. */
  const InitialChatKey := "initialChat"

  datatype Store = Store(profile: Option<string>, photo: Option<string>)

  /** The context's state together with the storage it mirrors to. */
  datatype Tab = Tab(store: Store, storage: Storage)

  /** Both storages agree on every key other than `key`. */
  predicate AgreeExcept(a: Storage, b: Storage, key: string) {
    (forall k :: k in a && k != key ==> k in b && b[k] == a[k]) &&
    (forall k :: k in b && k != key ==> k in a)
  }

  /** Both storages agree on every key outside `keys`. */
  predicate AgreeOutside(a: Storage, b: Storage, keys: set<string>) {
    (forall k :: k in a && k !in keys ==> k in b && b[k] == a[k]) &&
    (forall k :: k in b && k !in keys ==> k in a)
  }

  /** `localStorage.getItem(key)` read through JavaScript truthiness:
      an absent or empty slot reads as nothing. */
  function ReadSlot(storage: Storage, key: string): (r: Option<string>)
    ensures r.Some? <==> key in storage && storage[key] != ""
    ensures r.Some? ==> r.value == storage[key]
  {
    if key in storage && storage[key] != "" then Some(storage[key]) else None
  }

  /** The mirror rule of both setters: a truthy value is written, anything
      else (null or "") removes the slot. */
  function Mirror(storage: Storage, key: string, v: Option<string>): (r: Storage)
    ensures key in r <==> Truthy(v)
    ensures Truthy(v) ==> r[key] == v.value
    ensures AgreeExcept(storage, r, key)
  {
    if Truthy(v) then storage[key := v.value] else storage - {key}
  }

  /** A plain `localStorage.setItem(key, v)`, as several screens call directly. */
  function SetItem(storage: Storage, key: string, v: string): (r: Storage)
    ensures key in r && r[key] == v
    ensures AgreeExcept(storage, r, key)
  {
    storage[key := v]
  }

  /** `localStorage.removeItem(key)`. */
  function RemoveItem(storage: Storage, key: string): (r: Storage)
    ensures key !in r
    ensures AgreeExcept(storage, r, key)
  {
    storage - {key}
  }

  /** The provider on mount: both fields start null, then each is filled from
      its own slot when that slot is truthy. Storage is only read. */
  function Hydrate(storage: Storage): (t: Tab)
    ensures t.storage == storage
    ensures t.store.profile.Some? <==> ActiveProfileKey in storage && storage[ActiveProfileKey] != ""
    ensures t.store.photo.Some? <==> UploadedPhotoKey in storage && storage[UploadedPhotoKey] != ""
    ensures t.store.profile.Some? ==> t.store.profile.value == storage[ActiveProfileKey]
    ensures t.store.photo.Some? ==> t.store.photo.value == storage[UploadedPhotoKey]
  {
    var initial := Store(None, None);
    var withProfile := match ReadSlot(storage, ActiveProfileKey)
      case Some(p) => initial.(profile := Some(p))
      case None => initial;
    var withPhoto := match ReadSlot(storage, UploadedPhotoKey)
      case Some(p) => withProfile.(photo := Some(p))
      case None => withProfile;
    Tab(withPhoto, storage)
  }

  /** `setSelectedProfile(p)`: the profile becomes `p`; the photo, its slot
      and every other slot stay as they were. */
  function SetSelectedProfile(t: Tab, p: Option<string>): (r: Tab)
    ensures r.store.profile == p
    ensures r.store.photo == t.store.photo
    ensures ActiveProfileKey in r.storage <==> Truthy(p)
    ensures Truthy(p) ==> r.storage[ActiveProfileKey] == p.value
    ensures AgreeExcept(t.storage, r.storage, ActiveProfileKey)
  {
    Tab(t.store.(profile := p), Mirror(t.storage, ActiveProfileKey, p))
  }

  /** `setUploadedPhoto(p)`: the same rule on the photo field and its slot;
      the profile and its slot are never touched. */
  function SetUploadedPhoto(t: Tab, p: Option<string>): (r: Tab)
    ensures r.store.photo == p
    ensures r.store.profile == t.store.profile
    ensures UploadedPhotoKey in r.storage <==> Truthy(p)
    ensures Truthy(p) ==> r.storage[UploadedPhotoKey] == p.value
    ensures AgreeExcept(t.storage, r.storage, UploadedPhotoKey)
  {
    Tab(t.store.(photo := p), Mirror(t.storage, UploadedPhotoKey, p))
  }

  /** A fresh tab over empty storage holds neither a profile nor a photo. */
  lemma HydrateEmpty()
    ensures Hydrate(map[]).store == Store(None, None)
  {
  }

  /** Reload round trip for the profile: a reload after `setSelectedProfile(p)`
      yields `p` when it is non-empty and null otherwise (so `""` held in
      memory does not survive a reload); the photo read back is the one the
      photo slot already held. */
  lemma ReloadAfterSetProfile(t: Tab, p: Option<string>)
    ensures Hydrate(SetSelectedProfile(t, p).storage).store.profile == (if Truthy(p) then p else None)
    ensures Hydrate(SetSelectedProfile(t, p).storage).store.photo == ReadSlot(t.storage, UploadedPhotoKey)
  {
  }

  /** Reload round trip for the photo, mirroring `ReloadAfterSetProfile`. */
  lemma ReloadAfterSetPhoto(t: Tab, p: Option<string>)
    ensures Hydrate(SetUploadedPhoto(t, p).storage).store.photo == (if Truthy(p) then p else None)
    ensures Hydrate(SetUploadedPhoto(t, p).storage).store.profile == ReadSlot(t.storage, ActiveProfileKey)
  {
  }

  /** Switching profile twice never clears the photo, in memory or in storage. */
  lemma ProfileSwitchKeepsPhoto(t: Tab, a: Option<string>, b: Option<string>)
    ensures SetSelectedProfile(SetSelectedProfile(t, a), b).store.photo == t.store.photo
    ensures ReadSlot(SetSelectedProfile(SetSelectedProfile(t, a), b).storage, UploadedPhotoKey)
         == ReadSlot(t.storage, UploadedPhotoKey)
  {
  }
}

=== FILE: text.dfy ===
/** String helpers shared by the client and the backend models: whitespace
    trimming (JavaScript `trim()` and Python `strip()`, each with its own
    whitespace set), `join`, decimal
    rendering of integers, ASCII lower-casing, and Python's code-point
    ordering of strings together with the sort that `sorted()` performs. */
module Text {

  /** Whose notion of whitespace a trim follows: Python's `str.strip()` or
      JavaScript's `String.prototype.trim()`. */
  datatype Lang = Python | JavaScript

  /** Characters both languages treat as whitespace: tab to carriage return,
      space, no-break space, the Unicode space separators, and the line and
      paragraph separators. */
  predicate IsCommonSpace(c: char) {
    || ('\t' <= c <= '\r') || c == ' ' || c == '\U{00A0}' || c == '\U{1680}'
    || ('\U{2000}' <= c <= '\U{200A}') || c == '\U{2028}' || c == '\U{2029}'
    || c == '\U{202F}' || c == '\U{205F}' || c == '\U{3000}'
  }

  /** Python's `str.isspace()` adds the information separators U+001C to
      U+001F and NEXT LINE U+0085; ECMAScript's WhiteSpace and
      LineTerminator, which `trim()` removes, add the byte order mark U+FEFF. */
  predicate IsSpace(lang: Lang, c: char) {
    || IsCommonSpace(c)
    || (lang == Python && (('\U{001C}' <= c <= '\U{001F}') || c == '\U{0085}'))
    || (lang == JavaScript && c == '\U{FEFF}')
  }

  /** The whitespace test of `lang`, as a value the trimming functions take. */
  function SpaceTest(lang: Lang): (sp: char -> bool) {
    c => IsSpace(lang, c)
  }

  /** Every character of `s` passes `sp`. */
  predicate AllIn(sp: char -> bool, s: string) {
    forall i :: 0 <= i < |s| ==> sp(s[i])
  }

  predicate IsBlank(lang: Lang, s: string) {
    AllIn(SpaceTest(lang), s)
  }

  /** Number of characters passing `sp` at the start of `s`. */
  function LeadingSpaces(sp: char -> bool, s: string): (n: nat)
    ensures n <= |s|
    ensures AllIn(sp, s[..n])
    ensures n < |s| ==> !sp(s[n])
  {
    if |s| == 0 || !sp(s[0]) then 0
    else
      var m := LeadingSpaces(sp, s[1..]);
      assert s[..1 + m] == [s[0]] + s[1..][..m];
      1 + m
  }

  /** Number of characters passing `sp` at the end of `s`. */
  function TrailingSpaces(sp: char -> bool, s: string): (n: nat)
    ensures n <= |s|
    ensures AllIn(sp, s[|s| - n..])
    ensures n < |s| ==> !sp(s[|s| - n - 1])
  {
    if |s| == 0 || !sp(s[|s| - 1]) then 0
    else
      var init := s[..|s| - 1];
      var m := TrailingSpaces(sp, init);
      assert s[|s| - (1 + m)..] == init[|init| - m..] + [s[|s| - 1]];
      1 + m
  }

  /** `s` without the characters passing `sp` at either end: it sits
      between two pieces that pass `sp` entirely, is empty exactly when all
      of `s` passes, and otherwise neither starts nor ends with a passing
      character. */
  function TrimBy(sp: char -> bool, s: string): (r: string)
    ensures LeadingSpaces(sp, s) + |r| <= |s|
    ensures s[LeadingSpaces(sp, s)..LeadingSpaces(sp, s) + |r|] == r
    ensures AllIn(sp, s[..LeadingSpaces(sp, s)]) && AllIn(sp, s[LeadingSpaces(sp, s) + |r|..])
    ensures r == "" <==> AllIn(sp, s)
    ensures r != "" ==> !sp(r[0]) && !sp(r[|r| - 1])
  {
    var a := LeadingSpaces(sp, s);
    var t := s[a..];
    var b := TrailingSpaces(sp, t);
    var r := t[..|t| - b];
    assert s[a + |r|..] == t[|t| - b..];
    assert a == |s| ==> s[..a] == s;
    assert a < |s| ==> b < |t| && r[0] == s[a] by {
      if a < |s| {
        assert t[0] == s[a] && !sp(t[0]);
        assert t[|t| - |t|..] == t;
      }
    }
    r
  }

  /** Trimming by the same test twice is trimming once. */
  lemma TrimByIdempotent(sp: char -> bool, s: string)
    ensures TrimBy(sp, TrimBy(sp, s)) == TrimBy(sp, s)
  {
    var r := TrimBy(sp, s);
    if r != "" {
      assert LeadingSpaces(sp, r) == 0;
      assert TrailingSpaces(sp, r) == 0;
    }
  }

  /** Number of `lang` whitespace characters at the start of `s`. */
  function Leading(lang: Lang, s: string): nat {
    LeadingSpaces(SpaceTest(lang), s)
  }

  /** `s.strip()` (Python) or `s.trim()` (JavaScript): `s` is the result
      surrounded by that language's whitespace only; the result is empty
      exactly for blank input and otherwise neither starts nor ends with
      whitespace. */
  function Trim(lang: Lang, s: string): (r: string)
    ensures Leading(lang, s) + |r| <= |s|
    ensures s[Leading(lang, s)..Leading(lang, s) + |r|] == r
    ensures IsBlank(lang, s[..Leading(lang, s)]) && IsBlank(lang, s[Leading(lang, s) + |r|..])
    ensures r == "" <==> IsBlank(lang, s)
    ensures r != "" ==> !IsSpace(lang, r[0]) && !IsSpace(lang, r[|r| - 1])
  {
    var r := TrimBy(SpaceTest(lang), s);
    assert r != "" ==> SpaceTest(lang)(r[0]) == IsSpace(lang, r[0]) && SpaceTest(lang)(r[|r| - 1]) == IsSpace(lang, r[|r| - 1]);
    r
  }

  /** Trimming twice is trimming once. */
  lemma TrimIdempotent(lang: Lang, s: string)
    ensures Trim(lang, Trim(lang, s)) == Trim(lang, s)
  {
    TrimByIdempotent(SpaceTest(lang), s);
  }

  /** The two languages disagree on whitespace: a no-break space is blank
      for both, an information separator only for Python, a byte order mark
      only for JavaScript. */
  lemma TrimsDiffer()
    ensures IsBlank(Python, "\U{00A0}") && IsBlank(JavaScript, "\U{00A0}")
    ensures IsBlank(Python, "\U{001F}") && !IsBlank(JavaScript, "\U{001F}")
    ensures !IsBlank(Python, "\U{FEFF}") && IsBlank(JavaScript, "\U{FEFF}")
  {
    assert !SpaceTest(JavaScript)("\U{001F}"[0]);
    assert !SpaceTest(Python)("\U{FEFF}"[0]);
  }

  /** `sep.join(parts)` in Python, `parts.join(sep)` in JavaScript. */
  function Join(parts: seq<string>, sep: string): string
  {
    if |parts| == 0 then ""
    else if |parts| == 1 then parts[0]
    else parts[0] + sep + Join(parts[1..], sep)
  }

  /** Adding one more part appends the separator and the part. */
  lemma {:induction false} JoinSnoc(parts: seq<string>, last: string, sep: string)
    requires |parts| > 0
    ensures Join(parts + [last], sep) == Join(parts, sep) + sep + last
  {
    if |parts| == 1 {
      assert parts + [last] == [parts[0], last];
    } else {
      assert (parts + [last])[1..] == parts[1..] + [last];
      JoinSnoc(parts[1..], last, sep);
    }
  }

  /** The first part always begins the joined string. */
  lemma {:induction false} JoinStartsWithFirst(parts: seq<string>, sep: string)
    requires |parts| > 0
    ensures |parts[0]| <= |Join(parts, sep)|
    ensures Join(parts, sep)[..|parts[0]|] == parts[0]
  {
    if |parts| > 1 {
      var rest := sep + Join(parts[1..], sep);
      assert Join(parts, sep) == parts[0] + rest;
    }
  }

  /** A part holding a character that fails `sp` keeps the joined string
      from passing `sp` throughout. */
  lemma {:induction false} JoinKeepsMark(sp: char -> bool, parts: seq<string>, sep: string, p: string)
    requires p in parts && !AllIn(sp, p)
    ensures !AllIn(sp, Join(parts, sep))
  {
    var j := Join(parts, sep);
    if p == parts[0] {
      JoinStartsWithFirst(parts, sep);
      var k :| 0 <= k < |p| && !sp(p[k]);
      assert j[k] == p[k];
    } else {
      assert p in parts[1..];
      JoinKeepsMark(sp, parts[1..], sep, p);
      var rest := Join(parts[1..], sep);
      var k :| 0 <= k < |rest| && !sp(rest[k]);
      assert j == parts[0] + sep + rest;
      assert j[|parts[0]| + |sep| + k] == rest[k];
    }
  }

  predicate IsDigit(c: char) {
    '0' <= c <= '9'
  }

  function DigitChar(d: nat): (c: char)
    requires d < 10
    ensures IsDigit(c)
    ensures (c as int) - ('0' as int) == d
  {
    (('0' as int) + d) as char
  }

  /** Decimal rendering of a natural number (`str(n)`, `${n}`): digits only, no leading zero. */
  function NatToString(n: nat): (r: string)
    ensures |r| >= 1
    ensures forall i :: 0 <= i < |r| ==> IsDigit(r[i])
    ensures |r| > 1 ==> r[0] != '0'
    decreases n
  {
    if n < 10 then [DigitChar(n)] else NatToString(n / 10) + [DigitChar(n % 10)]
  }

  predicate AllDigits(s: string) {
    forall i :: 0 <= i < |s| ==> IsDigit(s[i])
  }

  /** Reads a string of decimal digits back as a number (`int(s)`). */
  function ParseDecimal(s: string): nat
    requires AllDigits(s)
  {
    if |s| == 0 then 0
    else 10 * ParseDecimal(s[..|s| - 1]) + ((s[|s| - 1] as int) - ('0' as int))
  }

  /** Reading back a rendered number yields the number. */
  lemma {:induction false} ParseNatToString(n: nat)
    ensures ParseDecimal(NatToString(n)) == n
    decreases n
  {
    if n >= 10 {
      var r := NatToString(n);
      assert r[..|r| - 1] == NatToString(n / 10);
      ParseNatToString(n / 10);
    }
  }

  /** Distinct numbers render as distinct strings. */
  lemma NatToStringInjective(m: nat, n: nat)
    ensures NatToString(m) == NatToString(n) ==> m == n
  {
    ParseNatToString(m);
    ParseNatToString(n);
  }

  function LowerChar(c: char): char {
    if 'A' <= c <= 'Z' then ((c as int) + 32) as char else c
  }

  /** `str.lower()` on ASCII: every letter `A`-`Z` replaced by its lower-case form, every other
      character and the length kept. */
  function Lower(s: string): (r: string)
    ensures |r| == |s|
    ensures forall i :: 0 <= i < |s| ==> !('A' <= r[i] <= 'Z')
    ensures forall i :: 0 <= i < |s| && !('A' <= s[i] <= 'Z') ==> r[i] == s[i]
  {
    seq(|s|, i requires 0 <= i < |s| => LowerChar(s[i]))
  }

  /** Python's `<=` on strings: lexicographic by code point. */
  predicate LexLe(a: string, b: string)
    decreases |a|
  {
    |a| == 0 || (|b| > 0 && (a[0] < b[0] || (a[0] == b[0] && LexLe(a[1..], b[1..]))))
  }

  lemma {:induction false} LexLeTotal(a: string, b: string)
    ensures LexLe(a, b) || LexLe(b, a)
    decreases |a|
  {
    if |a| > 0 && |b| > 0 && a[0] == b[0] {
      LexLeTotal(a[1..], b[1..]);
    }
  }

  lemma {:induction false} LexLeReflexive(a: string)
    ensures LexLe(a, a)
    decreases |a|
  {
    if |a| > 0 {
      LexLeReflexive(a[1..]);
    }
  }

  lemma {:induction false} LexLeTransitive(a: string, b: string, c: string)
    requires LexLe(a, b) && LexLe(b, c)
    ensures LexLe(a, c)
    decreases |a|
  {
    if |a| > 0 && a[0] == b[0] && b[0] == c[0] {
      LexLeTransitive(a[1..], b[1..], c[1..]);
    }
  }

  lemma {:induction false} LexLeAntisymmetric(a: string, b: string)
    requires LexLe(a, b) && LexLe(b, a)
    ensures a == b
    decreases |a|
  {
    if |a| > 0 {
      LexLeAntisymmetric(a[1..], b[1..]);
      assert a == [a[0]] + a[1..] && b == [b[0]] + b[1..];
    }
  }

  predicate Sorted(s: seq<string>) {
    forall i, j :: 0 <= i < j < |s| ==> LexLe(s[i], s[j])
  }

  /** Prepending an element no greater than any other keeps a sequence sorted. */
  lemma SortedCons(x: string, s: seq<string>)
    requires Sorted(s)
    requires forall y :: y in s ==> LexLe(x, y)
    ensures Sorted([x] + s)
  {
    var r := [x] + s;
    forall i, j | 0 <= i < j < |r| ensures LexLe(r[i], r[j]) {
      if i == 0 {
        assert r[j] == s[j - 1];
      } else {
        assert r[i] == s[i - 1] && r[j] == s[j - 1];
      }
    }
  }

  /** In a sorted sequence the head is no greater than any element. */
  lemma HeadLeast(x: string, s: seq<string>)
    requires Sorted(s) && |s| > 0 && LexLe(x, s[0])
    ensures forall y :: y in s ==> LexLe(x, y)
  {
    forall y | y in s ensures LexLe(x, y) {
      var k :| 0 <= k < |s| && s[k] == y;
      if k > 0 { LexLeTransitive(x, s[0], s[k]); }
    }
  }

  /** Inserts `x` into a sorted sequence, keeping it sorted. */
  function Insert(x: string, s: seq<string>): (r: seq<string>)
    requires Sorted(s)
    ensures Sorted(r)
    ensures multiset(r) == multiset(s) + multiset{x}
    ensures forall y :: y in r ==> y == x || y in s
  {
    if |s| == 0 then [x]
    else if LexLe(x, s[0]) then
      HeadLeast(x, s);
      SortedCons(x, s);
      [x] + s
    else
      LexLeTotal(x, s[0]);
      LexLeReflexive(s[0]);
      var t := Insert(x, s[1..]);
      HeadLeast(s[0], s);
      assert forall y :: y in t ==> LexLe(s[0], y);
      SortedCons(s[0], t);
      assert s == [s[0]] + s[1..];
      [s[0]] + t
  }

  /** `sorted(names)`: an ordered permutation of the input. */
  function Sort(s: seq<string>): (r: seq<string>)
    ensures Sorted(r)
    ensures multiset(r) == multiset(s)
  {
    if |s| == 0 then []
    else
      assert s == [s[0]] + s[1..];
      Insert(s[0], Sort(s[1..]))
  }

  /** Dropping the head of a sequence removes one copy of it from its multiset. */
  lemma TailMultiset(a: seq<string>)
    requires |a| > 0
    ensures multiset(a[1..]) == multiset(a) - multiset{a[0]}
  {
    assert a == [a[0]] + a[1..];
  }

  /** Sorted sequences holding the same strings start with the same one. */
  lemma SortedHeadsEqual(a: seq<string>, b: seq<string>)
    requires Sorted(a) && Sorted(b)
    requires multiset(a) == multiset(b) && |a| > 0
    ensures |b| > 0 && a[0] == b[0]
  {
    assert a[0] in multiset(b);
    var i :| 0 <= i < |b| && b[i] == a[0];
    assert b[0] in multiset(a);
    var j :| 0 <= j < |a| && a[j] == b[0];
    LexLeReflexive(a[0]);
    assert LexLe(b[0], a[0]) by { if i > 0 { assert LexLe(b[0], b[i]); } }
    assert LexLe(a[0], b[0]) by { if j > 0 { assert LexLe(a[0], a[j]); } }
    LexLeAntisymmetric(a[0], b[0]);
  }

  /** Two sorted sequences holding the same strings are equal: the order
      `sorted()` produces does not depend on the order of its input. */
  lemma {:induction false} SortedPermutationsEqual(a: seq<string>, b: seq<string>)
    requires Sorted(a) && Sorted(b)
    requires multiset(a) == multiset(b)
    ensures a == b
    decreases |a|
  {
    if |a| == 0 {
      assert |b| == |multiset(b)| == 0;
    } else {
      SortedHeadsEqual(a, b);
      TailMultiset(a);
      TailMultiset(b);
      SortedPermutationsEqual(a[1..], b[1..]);
      assert a == [a[0]] + a[1..] && b == [b[0]] + b[1..];
    }
  }
}

=== FILE: transcript.dfy ===
/** Chat messages and the JSON text that carries a seeded transcript through
    browser storage. `Encode` is `JSON.stringify` of an array of
    `{role, content}` objects (no whitespace, keys in that order, the escapes
    `JSON.stringify` emits); `Decode` is `JSON.parse` restricted to that
    canonical form, and rejects everything else. */
module Transcript {
  import opened Wrappers

  datatype Msg = Msg(role: string, content: string)

  predicate StartsWith(t: string, p: string) {
    |p| <= |t| && t[..|p|] == p
  }

  function HexDigit(d: nat): char
    requires d < 16
  {
    "0123456789abcdef"[d]
  }

  function HexValue(c: char): Option<nat> {
    if '0' <= c <= '9' then Some((c as int) - ('0' as int))
    else if 'a' <= c <= 'f' then Some((c as int) - ('a' as int) + 10)
    else if 'A' <= c <= 'F' then Some((c as int) - ('A' as int) + 10)
    else None
  }

  lemma HexRoundTrip(d: nat)
    requires d < 16
    ensures HexValue(HexDigit(d)) == Some(d)
  {
  }

  /** How `JSON.stringify` writes one character inside a string literal. */
  function EscapeChar(c: char): string {
    if c != '"' && c != '\\' && (c as int) >= 32 then [c]
    else if c == '"' then "\\\""
    else if c == '\\' then "\\\\"
    else if c == '\n' then "\\n"
    else if c == '\r' then "\\r"
    else if c == '\t' then "\\t"
    else if c as int == 8 then "\\b"
    else if c as int == 12 then "\\f"
    else "\\u00" + [HexDigit(c as int / 16), HexDigit(c as int % 16)]
  }

  /** The pieces of a string, one after the other. */
  function Concat(parts: seq<string>): string {
    if |parts| == 0 then "" else parts[0] + Concat(parts[1..])
  }

  /** The escaped characters of a string literal, one after the other. */
  function EscapeBody(s: string): string {
    Concat(seq(|s|, i requires 0 <= i < |s| => EscapeChar(s[i])))
  }

  /** The body of a non-empty string: its first character escaped, then the
      body of the rest. */
  lemma EscapeBodyCons(s: string)
    requires |s| > 0
    ensures EscapeBody(s) == EscapeChar(s[0]) + EscapeBody(s[1..])
  {
    var p := seq(|s|, i requires 0 <= i < |s| => EscapeChar(s[i]));
    assert p[1..] == seq(|s| - 1, i requires 0 <= i < |s| - 1 => EscapeChar(s[1..][i]));
  }

  /** A JSON string literal. */
  function Quote(s: string): string {
    "\"" + EscapeBody(s) + "\""
  }

  /** Reads the character an escape sequence stands for; `t` starts just
      after the backslash. Returns the character and how many characters of
      `t` the escape used. */
  function Unescape(t: string): (r: Option<(char, nat)>)
    ensures r.Some? ==> 1 <= r.value.1 <= |t|
  {
    if |t| == 0 then None
    else if t[0] == '"' then Some(('"', 1))
    else if t[0] == '\\' then Some(('\\', 1))
    else if t[0] == '/' then Some(('/', 1))
    else if t[0] == 'n' then Some(('\n', 1))
    else if t[0] == 'r' then Some(('\r', 1))
    else if t[0] == 't' then Some(('\t', 1))
    else if t[0] == 'b' then Some((8 as char, 1))
    else if t[0] == 'f' then Some((12 as char, 1))
    else if t[0] == 'u' && |t| >= 5 then
      match (HexValue(t[1]), HexValue(t[2]), HexValue(t[3]), HexValue(t[4]))
      case (Some(a), Some(b), Some(c), Some(d)) =>
        var v := ((a * 16 + b) * 16 + c) * 16 + d;
        if v < 0xD800 || 0xE000 <= v < 0x11_0000 then Some((v as char, 5)) else None
      case _ => None
    else None
  }

  /** Reads the body of a string literal up to and including its closing
      quote; returns the text and what follows the quote. */
  function Unquote(t: string): (r: Option<(string, string)>)
    ensures r.Some? ==> |r.value.1| < |t|
    decreases |t|
  {
    if |t| == 0 then None
    else if t[0] == '"' then Some(("", t[1..]))
    else if t[0] == '\\' then
      match Unescape(t[1..])
      case None => None
      case Some((c, used)) =>
        match Unquote(t[1 + used..])
        case None => None
        case Some((body, rest)) => Some(([c] + body, rest))
    else if (t[0] as int) < 32 then None
    else
      match Unquote(t[1..])
      case None => None
      case Some((body, rest)) => Some(([t[0]] + body, rest))
  }

  /** One escaped character followed by anything is read back as that character. */
  lemma UnquoteEscapeChar(c: char, u: string)
    ensures Unquote(EscapeChar(c) + u) ==
      match Unquote(u)
      case None => None
      case Some((body, rest)) => Some(([c] + body, rest))
  {
    if (c as int) < 32 && c != '\n' && c != '\r' && c != '\t' && c as int != 8 && c as int != 12 {
      UnquoteHexEscape(c, u);
    } else if c == '"' || c == '\\' || c == '\n' || c == '\r' || c == '\t' || c as int == 8 || c as int == 12 {
      UnquoteShortEscape(c, u);
    } else {
      assert (EscapeChar(c) + u)[1..] == u;
    }
  }

  /** A control character without a short escape comes back from `\u00XY`. */
  lemma UnquoteHexEscape(c: char, u: string)
    requires (c as int) < 32 && c != '\n' && c != '\r' && c != '\t' && c as int != 8 && c as int != 12
    ensures Unquote(EscapeChar(c) + u) ==
      match Unquote(u)
      case None => None
      case Some((body, rest)) => Some(([c] + body, rest))
  {
    var hex := [HexDigit(c as int / 16), HexDigit(c as int % 16)];
    var t := "\\u00" + hex + u;
    assert EscapeChar(c) + u == t;
    var e := t[1..];
    assert e == "u00" + hex + u;
    assert e[0] == 'u' && e[1] == '0' && e[2] == '0' && e[3] == hex[0] && e[4] == hex[1];
    HexRoundTrip(c as int / 16);
    HexRoundTrip(c as int % 16);
    assert Unescape(e) == Some((c, 5));
    assert t[1 + 5..] == u;
  }

  /** A character with a two-character escape comes back from it. */
  lemma UnquoteShortEscape(c: char, u: string)
    requires c == '"' || c == '\\' || c == '\n' || c == '\r' || c == '\t' || c as int == 8 || c as int == 12
    ensures Unquote(EscapeChar(c) + u) ==
      match Unquote(u)
      case None => None
      case Some((body, rest)) => Some(([c] + body, rest))
  {
    var t := EscapeChar(c) + u;
    assert |EscapeChar(c)| == 2 && t[0] == '\\';
    assert Unescape(t[1..]) == Some((c, 1));
    assert t[1 + 1..] == u;
  }

  /** The body of a string literal reads back as the string. */
  lemma {:induction false} UnquoteEscapeBody(s: string, rest: string)
    ensures Unquote(EscapeBody(s) + ("\"" + rest)) == Some((s, rest))
    decreases |s|
  {
    if |s| == 0 {
      assert EscapeBody(s) + ("\"" + rest) == "\"" + rest;
    } else {
      var u := EscapeBody(s[1..]) + ("\"" + rest);
      EscapeBodyCons(s);
      assert EscapeBody(s) + ("\"" + rest) == EscapeChar(s[0]) + u;
      UnquoteEscapeBody(s[1..], rest);
      UnquoteEscapeChar(s[0], u);
      assert [s[0]] + s[1..] == s;
    }
  }

  const RolePrefix := "{\"role\":\""
  const ContentInfix := ",\"content\":\""

  /** `{"role":"…","content":"…"}`, the object `JSON.stringify` writes for one message. */
  function EncodeMsg(m: Msg): string {
    RolePrefix + (EscapeBody(m.role) + ("\"" + (ContentInfix + (EscapeBody(m.content) + "\"}"))))
  }

  /** The objects of a non-empty array up to the closing bracket: the first
      object, then what follows it. */
  function EncodeItems(ms: seq<Msg>): string
    requires |ms| > 0
    decreases |ms|, 1
  {
    EncodeMsg(ms[0]) + ItemsTail(ms[1..])
  }

  /** What follows an object: `]` after the last one, otherwise `,` and the
      remaining objects. */
  function ItemsTail(rest: seq<Msg>): string
    decreases |rest|, 2
  {
    if |rest| == 0 then "]" else "," + EncodeItems(rest)
  }

  /** `JSON.stringify(messages)`. */
  function Encode(ms: seq<Msg>): string {
    if |ms| == 0 then "[]" else "[" + EncodeItems(ms)
  }

  /** Reads one `{"role":…,"content":…}` object; returns it and what follows. */
  function DecodeMsg(t: string): (r: Option<(Msg, string)>)
    ensures r.Some? ==> |r.value.1| < |t|
  {
    if !StartsWith(t, RolePrefix) then None
    else
      match Unquote(t[|RolePrefix|..])
      case None => None
      case Some((role, r1)) =>
        if !StartsWith(r1, ContentInfix) then None
        else
          match Unquote(r1[|ContentInfix|..])
          case None => None
          case Some((content, r2)) =>
            if |r2| == 0 || r2[0] != '}' then None else Some((Msg(role, content), r2[1..]))
  }

  /** Reads comma-separated objects up to the closing bracket, which must end the text. */
  function DecodeItems(t: string): Option<seq<Msg>>
    decreases |t|, 1
  {
    match DecodeMsg(t)
    case None => None
    case Some((m, rest)) =>
      match AfterItem(rest)
      case None => None
      case Some(more) => Some([m] + more)
  }

  /** What may follow an object: the closing bracket, which must end the
      text, or a comma and more objects. */
  function AfterItem(rest: string): Option<seq<Msg>>
    decreases |rest|, 0
  {
    if rest == "]" then Some([])
    else if |rest| > 0 && rest[0] == ',' then DecodeItems(rest[1..])
    else None
  }

  /** `JSON.parse` of a stored transcript; `None` where parsing throws. */
  function Decode(s: string): Option<seq<Msg>> {
    if s == "[]" then Some([])
    else if |s| > 0 && s[0] == '[' then DecodeItems(s[1..])
    else None
  }

  /** `DecodeMsg` unfolded: the steps it takes on a well-formed object. */
  lemma DecodeMsgSteps(t: string, role: string, r1: string, content: string, r2: string)
    requires StartsWith(t, RolePrefix) && Unquote(t[|RolePrefix|..]) == Some((role, r1))
    requires StartsWith(r1, ContentInfix) && Unquote(r1[|ContentInfix|..]) == Some((content, r2))
    requires |r2| > 0 && r2[0] == '}'
    ensures DecodeMsg(t) == Some((Msg(role, content), r2[1..]))
  {
  }

  lemma SplitAt(a: string, b: string)
    ensures (a + b)[..|a|] == a && (a + b)[|a|..] == b
  {
  }

  lemma DecodeMsgEncodeMsg(m: Msg, u: string)
    ensures DecodeMsg(EncodeMsg(m) + u) == Some((m, u))
  {
    var r2 := "}" + u;
    var r1' := EscapeBody(m.content) + ("\"" + r2);
    var r1 := ContentInfix + r1';
    var t' := EscapeBody(m.role) + ("\"" + r1);
    var t := RolePrefix + t';
    assert EncodeMsg(m) + u == t;
    SplitAt(RolePrefix, t');
    SplitAt(ContentInfix, r1');
    UnquoteEscapeBody(m.role, r1);
    UnquoteEscapeBody(m.content, r2);
    assert r2[1..] == u;
    DecodeMsgSteps(t, m.role, r1, m.content, r2);
  }

  /** An object's encoding followed by anything: the decoder reads the
      object and goes on with what follows. */
  lemma DecodeItemsFront(m: Msg, rest: string)
    ensures DecodeItems(EncodeMsg(m) + rest) ==
      match AfterItem(rest)
      case None => None
      case Some(more) => Some([m] + more)
  {
    DecodeMsgEncodeMsg(m, rest);
  }

  /** After a comma the decoder reads the remaining objects. */
  lemma AfterComma(tail: string)
    ensures AfterItem("," + tail) == DecodeItems(tail)
  {
    assert ("," + tail)[1..] == tail;
  }

  /** After the last object only the closing bracket follows. */
  lemma AfterLast(rest: seq<Msg>)
    requires |rest| == 0
    ensures AfterItem(ItemsTail(rest)) == Some([])
  {
  }

  /** After any other object a comma and the remaining objects follow. */
  lemma AfterMore(rest: seq<Msg>)
    requires |rest| > 0
    ensures AfterItem(ItemsTail(rest)) == DecodeItems(EncodeItems(rest))
  {
    assert ItemsTail(rest) == "," + EncodeItems(rest);
    AfterComma(EncodeItems(rest));
  }

  lemma {:induction false} DecodeItemsEncodeItems(ms: seq<Msg>)
    requires |ms| > 0
    ensures DecodeItems(EncodeItems(ms)) == Some(ms)
    decreases |ms|
  {
    DecodeItemsFront(ms[0], ItemsTail(ms[1..]));
    if |ms| == 1 {
      AfterLast(ms[1..]);
    } else {
      DecodeItemsEncodeItems(ms[1..]);
      AfterMore(ms[1..]);
    }
    assert [ms[0]] + ms[1..] == ms;
  }

  /** Round trip: parsing what was stringified gives back the same messages. */
  lemma DecodeEncode(ms: seq<Msg>)
    ensures Decode(Encode(ms)) == Some(ms)
  {
    if |ms| > 0 {
      var s := Encode(ms);
      SplitAt("[", EncodeItems(ms));
      assert s != "[]" by {
        assert EncodeItems(ms)[0] == '{';
      }
      DecodeItemsEncodeItems(ms);
    }
  }
}

=== FILE: vision.dfy ===
/** The GPT-4V backend's in-memory sessions (`pkg/gpt4v.py`): one session
    per profile holding its image URLs, its conversation history and the
    selected image. The model's replies, the clock and the upload directory
    are parameters: a reply is a string, the time is a whole number of
    seconds, and the disk is the set of (profile, file name) pairs present
    under that profile's upload directory. */
module VisionSessions {
  import opened Wrappers
  import opened Text
  import opened Paths

  datatype Turn = Turn(user: string, assistant: string)

  datatype Session = Session(images: seq<string>, history: seq<Turn>, selected: Option<string>)

  type Sessions = map<string, Session>

  type Disk = set<(string, string)>

  const ShortTermWindow := 15
  const BackendBaseUrl := "http://127.0.0.1:8000"
  const EmptySession := Session([], [], None)
  const AutoMessage := "Let's talk about this photo."
  const YearMessage := "Show me my year in review"

  /** Every profile other than `p` has the same session (or none) in both maps. */
  predicate OthersUnchanged(a: Sessions, b: Sessions, p: string) {
    (forall q :: q in a && q != p ==> q in b && b[q] == a[q]) &&
    (forall q :: q in b && q != p ==> q in a)
  }

  /** `session_for(profile)`: the profile's session, created empty when absent. */
  function SessionFor(ss: Sessions, profile: string): (r: (Session, Sessions))
    ensures profile in r.1 && r.1[profile] == r.0
    ensures profile in ss ==> r == (ss[profile], ss)
    ensures profile !in ss ==> r.0 == EmptySession
    ensures OthersUnchanged(ss, r.1, profile)
  {
    if profile in ss then (ss[profile], ss) else (EmptySession, ss[profile := EmptySession])
  }

  /** Asking twice creates nothing more. */
  lemma SessionForIdempotent(ss: Sessions, profile: string)
    ensures SessionFor(SessionFor(ss, profile).1, profile) == SessionFor(ss, profile)
  {
  }

  /** `history[-15:]`: the last fifteen turns, or all of them when fewer. */
  function Recent(h: seq<Turn>): (r: seq<Turn>)
    ensures |r| == if |h| < ShortTermWindow then |h| else ShortTermWindow
    ensures r == h[|h| - |r|..]
  {
    if |h| <= ShortTermWindow then h else h[|h| - ShortTermWindow..]
  }

  /** Once the window is full, one more turn pushes the oldest one out. */
  lemma RecentSlides(h: seq<Turn>, t: Turn)
    requires |h| >= ShortTermWindow
    ensures Recent(h + [t]) == Recent(h)[1..] + [t]
  {
    assert (h + [t])[|h| + 1 - ShortTermWindow..] == h[|h| - ShortTermWindow..][1..] + [t];
  }

  function RenderTurn(t: Turn): string {
    "User: " + t.user + "\nAssistant: " + t.assistant
  }

  function RenderTurns(ts: seq<Turn>): (r: seq<string>)
    ensures |r| == |ts|
    ensures forall i :: 0 <= i < |ts| ==> r[i] == RenderTurn(ts[i])
  {
    seq(|ts|, i requires 0 <= i < |ts| => RenderTurn(ts[i]))
  }

  /** `get_short_term_memory(session)`: the recent turns, one rendered
      exchange each, joined by line breaks; empty without history. */
  function ShortTermMemory(s: Session): string {
    if |s.history| == 0 then "" else Join(RenderTurns(Recent(s.history)), "\n")
  }

  /** The context is empty exactly when there is no history: otherwise it
      opens with the oldest turn of the window. */
  lemma ShortTermMemoryEmptyIff(s: Session)
    ensures ShortTermMemory(s) == "" <==> |s.history| == 0
    ensures |s.history| > 0 ==> StartsWithTurn(ShortTermMemory(s), Recent(s.history)[0])
  {
    if |s.history| > 0 {
      var parts := RenderTurns(Recent(s.history));
      JoinStartsWithFirst(parts, "\n");
      assert |RenderTurn(Recent(s.history)[0])| > 0;
    }
  }

  predicate StartsWithTurn(text: string, t: Turn) {
    |RenderTurn(t)| <= |text| && text[..|RenderTurn(t)|] == RenderTurn(t)
  }

  /** While the window is not full, a new turn is appended to the context
      after a line break, and nothing else changes. */
  lemma ShortTermMemoryGrows(s: Session, t: Turn)
    requires 0 < |s.history| < ShortTermWindow
    ensures ShortTermMemory(s.(history := s.history + [t])) == ShortTermMemory(s) + "\n" + RenderTurn(t)
  {
    var h := s.history;
    assert RenderTurns(h + [t]) == RenderTurns(h) + [RenderTurn(t)];
    JoinSnoc(RenderTurns(h), RenderTurn(t), "\n");
  }

  /** The stored name of an upload, `f"{stem}_{int(time.time())}{ext}"`
      with `stem, ext = os.path.splitext(filename)`. */
  function UniqueName(filename: string, seconds: nat): string {
    SplitExt(filename).0 + ("_" + NatToString(seconds)) + SplitExt(filename).1
  }

  /** The timestamp tag holds neither a dot nor a slash. */
  lemma TagIsPlain(seconds: nat)
    ensures '.' !in "_" + NatToString(seconds) && '/' !in "_" + NatToString(seconds)
  {
    var tag := "_" + NatToString(seconds);
    forall i | 0 <= i < |tag| ensures tag[i] != '.' && tag[i] != '/' {
      if i > 0 { assert tag[i] == NatToString(seconds)[i - 1]; }
    }
  }

  /** The stored name keeps the upload's extension: splitting it again
      gives the tagged stem and the original extension. */
  lemma UniqueNameKeepsExtension(filename: string, seconds: nat)
    ensures SplitExt(UniqueName(filename, seconds)) ==
              (SplitExt(filename).0 + ("_" + NatToString(seconds)), SplitExt(filename).1)
  {
    TagIsPlain(seconds);
    SplitExtKeepsExtension(filename, "_" + NatToString(seconds));
  }

  /** Uploads of one file in different seconds get different names; in the
      same second they get the same name (and the second overwrites the first). */
  lemma UniqueNameInjective(filename: string, a: nat, b: nat)
    ensures UniqueName(filename, a) == UniqueName(filename, b) <==> a == b
  {
    var (stem, ext) := SplitExt(filename);
    var x := NatToString(a);
    var y := NatToString(b);
    if UniqueName(filename, a) == UniqueName(filename, b) {
      MiddleEqual(stem, "_" + x, "_" + y, ext);
      assert x == ("_" + x)[1..] && y == ("_" + y)[1..];
      NatToStringInjective(a, b);
    }
  }

  /** Equal strings with the same front and back have the same middle. */
  lemma MiddleEqual(p: string, x: string, y: string, q: string)
    requires p + x + q == p + y + q
    ensures x == y
  {
    var u := p + x + q;
    assert |x| == |y|;
    assert u[|p|..|p| + |x|] == x;
    assert (p + y + q)[|p|..|p| + |y|] == y;
  }

  /** Where the static route serves a profile's uploads. */
  function UploadsUrl(profile: string): string {
    BackendBaseUrl + "/static/" + profile + "/uploads"
  }

  function PublicUrl(profile: string, name: string): string {
    UploadsUrl(profile) + "/" + name
  }

  datatype UploadReply = UploadReply(filename: string, publicUrl: string)

  /** `upload_image`: the file is written under its unique name, its URL is
      appended to the profile's images and becomes the selection; the
      history is untouched and no other profile changes. */
  function UploadImage(ss: Sessions, disk: Disk, profile: string, filename: string, seconds: nat): (r: (UploadReply, Sessions, Disk))
    ensures r.0.filename == UniqueName(filename, seconds)
    ensures r.0.publicUrl == PublicUrl(profile, r.0.filename)
    ensures r.2 == disk + {(profile, r.0.filename)}
    ensures profile in r.1
    ensures r.1[profile].images == SessionFor(ss, profile).0.images + [r.0.publicUrl]
    ensures r.1[profile].selected == Some(r.0.publicUrl)
    ensures r.1[profile].history == SessionFor(ss, profile).0.history
    ensures OthersUnchanged(ss, r.1, profile)
  {
    var name := UniqueName(filename, seconds);
    var url := PublicUrl(profile, name);
    var (s, ss1) := SessionFor(ss, profile);
    (UploadReply(name, url), ss1[profile := s.(images := s.images + [url], selected := Some(url))],
     disk + {(profile, name)})
  }

  /** `select_image`: a file missing from the profile's uploads is refused
      with 404 before any session is touched; the name is compared as given,
      not resolved as a path. A name that joins to the
      uploads directory itself (or its parent) passes the existence check:
      the session is fetched and its selection set to that name's URL, and
      then reading the image fails, so the handler answers 500 with the
      history untouched. Otherwise the image's URL becomes the selection and
      exactly one turn — the fixed opener and the model's reply — is added
      to the history; the reply is returned. */
  function SelectImage(ss: Sessions, disk: Disk, profile: string, imageName: string, reply: string): (r: (Result<string, ApiError>, Sessions))
    ensures !NamesDirectory(imageName) && (profile, imageName) !in disk ==> r == (Failure(ApiError(404, "Not Found")), ss)
    ensures NamesDirectory(imageName) ==>
              && r.0 == Failure(InternalError)
              && profile in r.1
              && r.1[profile] == SessionFor(ss, profile).0.(selected := Some(PublicUrl(profile, imageName)))
              && OthersUnchanged(ss, r.1, profile)
    ensures !NamesDirectory(imageName) && (profile, imageName) in disk ==>
              && r.0 == Success(reply)
              && profile in r.1
              && r.1[profile].selected == Some(PublicUrl(profile, imageName))
              && r.1[profile].history == SessionFor(ss, profile).0.history + [Turn(AutoMessage, reply)]
              && r.1[profile].images == SessionFor(ss, profile).0.images
              && OthersUnchanged(ss, r.1, profile)
  {
    if !NamesDirectory(imageName) && (profile, imageName) !in disk then (Failure(ApiError(404, "Not Found")), ss)
    else
      var (s, ss1) := SessionFor(ss, profile);
      var s1 := s.(selected := Some(PublicUrl(profile, imageName)));
      if NamesDirectory(imageName) then (Failure(InternalError), ss1[profile := s1])
      else (Success(reply), ss1[profile := s1.(history := s.history + [Turn(AutoMessage, reply)])])
  }

  /** `chat_with_gpt4v`: the session is fetched (and so created) first. With
      nothing selected the answer is 400; when the selection's base name
      joins to the uploads directory itself (or its parent) the existence
      check passes but reading fails, so the answer is 500; with the
      selected file gone from the uploads it is 404. In all three cases the
      history is as it was. Otherwise exactly one turn is added and the
      reply is returned. */
  function Chat(ss: Sessions, disk: Disk, profile: string, message: string, reply: string): (r: (Result<string, ApiError>, Sessions))
    ensures var s := SessionFor(ss, profile).0;
      && (!Truthy(s.selected) ==> r == (Failure(ApiError(400, "No image selected")), SessionFor(ss, profile).1))
      && (Truthy(s.selected) && NamesDirectory(Basename(s.selected.value)) ==>
            r == (Failure(InternalError), SessionFor(ss, profile).1))
      && (Truthy(s.selected) && !NamesDirectory(Basename(s.selected.value)) && (profile, Basename(s.selected.value)) !in disk ==>
            r == (Failure(ApiError(404, "Image not found")), SessionFor(ss, profile).1))
      && (Truthy(s.selected) && !NamesDirectory(Basename(s.selected.value)) && (profile, Basename(s.selected.value)) in disk ==>
            && r.0 == Success(reply)
            && profile in r.1
            && r.1[profile] == s.(history := s.history + [Turn(message, reply)])
            && OthersUnchanged(ss, r.1, profile))
  {
    var (s, ss1) := SessionFor(ss, profile);
    if !Truthy(s.selected) then (Failure(ApiError(400, "No image selected")), ss1)
    else
      var name := Basename(s.selected.value);
      if NamesDirectory(name) then (Failure(InternalError), ss1)
      else if (profile, name) !in disk then (Failure(ApiError(404, "Image not found")), ss1)
      else (Success(reply), ss1[profile := s.(history := s.history + [Turn(message, reply)])])
  }

  /** `year_in_review`: one turn with the fixed request and the reply. */
  function YearInReview(ss: Sessions, profile: string, reply: string): (r: (string, Sessions))
    ensures r.0 == reply
    ensures profile in r.1
    ensures r.1[profile] == SessionFor(ss, profile).0.(history := SessionFor(ss, profile).0.history + [Turn(YearMessage, reply)])
    ensures OthersUnchanged(ss, r.1, profile)
  {
    var (s, ss1) := SessionFor(ss, profile);
    (reply, ss1[profile := s.(history := s.history + [Turn(YearMessage, reply)])])
  }

  lemma NoSlashSplit(a: string, b: string)
    ensures '/' !in a + b <==> '/' !in a && '/' !in b
  {
    if '/' in a + b {
      var i :| 0 <= i < |a + b| && (a + b)[i] == '/';
      if i < |a| { assert a[i] == '/'; } else { assert b[i - |a|] == '/'; }
    }
  }

  /** The stored name of a slash-free file name is slash-free. */
  lemma UniqueNameHasNoSlash(filename: string, seconds: nat)
    requires '/' !in filename
    ensures '/' !in UniqueName(filename, seconds)
  {
    var stem := SplitExt(filename).0;
    var ext := SplitExt(filename).1;
    var tag := "_" + NatToString(seconds);
    TagIsPlain(seconds);
    NoSlashSplit(stem, ext);
    NoSlashSplit(stem, tag);
    NoSlashSplit(stem + tag, ext);
  }

  /** A stored name always holds the timestamp tag, so it never joins to
      a directory. */
  lemma UniqueNameNotDirectory(filename: string, seconds: nat)
    ensures !NamesDirectory(UniqueName(filename, seconds))
  {
    var u := UniqueName(filename, seconds);
    assert u[|SplitExt(filename).0|] == '_';
  }

  /** Upload, then chat: the chat finds the image the upload selected (its
      URL's base name is the stored file) and records exactly one turn. */
  lemma UploadThenChat(ss: Sessions, disk: Disk, profile: string, filename: string, seconds: nat,
                       message: string, reply: string)
    requires '/' !in filename
    ensures var (up, ss1, disk1) := UploadImage(ss, disk, profile, filename, seconds);
      var r := Chat(ss1, disk1, profile, message, reply);
      && r.0 == Success(reply)
      && r.1[profile].history == SessionFor(ss, profile).0.history + [Turn(message, reply)]
  {
    var (up, ss1, disk1) := UploadImage(ss, disk, profile, filename, seconds);
    UniqueNameHasNoSlash(filename, seconds);
    UniqueNameNotDirectory(filename, seconds);
    BasenameOfJoin(UploadsUrl(profile), up.filename);
    assert Basename(up.publicUrl) == up.filename;
  }

  /** Upload, then select the stored name: the select finds the file. */
  lemma UploadThenSelect(ss: Sessions, disk: Disk, profile: string, filename: string, seconds: nat, reply: string)
    ensures var (up, ss1, disk1) := UploadImage(ss, disk, profile, filename, seconds);
      SelectImage(ss1, disk1, profile, up.filename, reply).0 == Success(reply)
  {
    UniqueNameNotDirectory(filename, seconds);
  }
}

=== FILE: wire.dfy ===
/** How the backend's answers reach the client, and what the screens do
    with them end to end. A handler's result becomes a response: a success
    is status 200 with its JSON body; an error is its status, with the
    error's detail standing in for the response text and a body the client
    never reads. The profile screens talk to `pkg/profiles.py`; the photo
    screens upload, select and chat through `pkg/gpt4v.py` and list through
    `pkg/photo.py`. */
module Wire {
  import opened Wrappers
  import opened Text
  import opened Gateway
  import opened SessionStore
  import opened Transcript
  import opened Paths
  import ProfileRegistry
  import VisionSessions
  import PhotoService
  import ProfilePanel
  import PhotoChatPanel
  import PhotosPage
  import PhotoPicker

  function Ok<T>(body: T): Http<T> {
    Response(200, Some(body), "")
  }

  function Refused<T>(e: ApiError): Http<T> {
    Response(e.status, None, e.detail)
  }

  /** The answer of a profile request whose body the client ignores. */
  function StatusAnswer<T>(r: Result<T, ApiError>): Http<()> {
    match r
    case Success(_) => Ok(())
    case Failure(e) => Refused(e)
  }

  function ProfilesAnswer(es: seq<ProfileRegistry.Entry>): (h: Http<seq<ProfileEntry>>)
    ensures h.Response? && h.status == 200 && h.body.Some?
    ensures |h.body.value| == |es|
    ensures forall i :: 0 <= i < |es| ==> h.body.value[i] == ProfileEntry(es[i].name)
  {
    Ok(Map((e: ProfileRegistry.Entry) => ProfileEntry(e.name), es))
  }

  /** A listing entry as the client's `Photo`. */
  function PhotoOf(e: PhotoService.PhotoEntry): Photo {
    Photo(e.filename, e.uploadedPath, e.processedPath, e.publicUrl, Some(e.localPath))
  }

  function Photos(es: seq<PhotoService.PhotoEntry>): (r: seq<Photo>)
    ensures |r| == |es|
    ensures forall i :: 0 <= i < |es| ==> r[i] == PhotoOf(es[i])
  {
    Map(PhotoOf, es)
  }

  function Names(ps: seq<Photo>): (r: seq<string>)
    ensures |r| == |ps|
    ensures forall i :: 0 <= i < |ps| ==> r[i] == ps[i].filename
  {
    Map((p: Photo) => p.filename, ps)
  }

  /** `GET /api/photo/list`'s answer. */
  function ListAnswer(a: PhotoService.ListAnswer): Http<ListBody> {
    Ok(ListBody(Some(Photos(a.uploadedImages)),
                if a.selectedImage.Some? then Some(PhotoOf(a.selectedImage.value)) else None))
  }

  /** `POST /api/gpt4v/upload`'s answer carries only `filename` and
      `public_url`; the path fields the client's type declares are absent
      and read here as empty. */
  function UploadAnswer(up: VisionSessions.UploadReply): Http<Photo> {
    Ok(Photo(up.filename, "", "", up.publicUrl, None))
  }

  /** `POST /api/gpt4v/select` answers `auto_reply` and no `url`. */
  function SelectAnswer(r: Result<string, ApiError>): Http<SelectBody> {
    match r
    case Success(_) => Ok(SelectBody(None))
    case Failure(e) => Refused(e)
  }

  /** `POST /api/gpt4v/chat` answers `reply`. */
  function ChatAnswer(r: Result<string, ApiError>): Http<ChatReply> {
    match r
    case Success(reply) => Ok(ChatReply(Some(reply)))
    case Failure(e) => Refused(e)
  }

  /** The client reads back the listing the photo service answered:
      the same entries, in the same (name) order, and the same selection. */
  lemma ListArrives(a: PhotoService.ListAnswer)
    ensures ListUploadedPhotos(ListAnswer(a)).Success?
    ensures var l := ListUploadedPhotos(ListAnswer(a)).value;
      && l.uploadedImages == Photos(a.uploadedImages)
      && Names(l.uploadedImages) == PhotoService.FileNames(a.uploadedImages)
      && (l.selectedImage.Some? <==> a.selectedImage.Some?)
      && (a.selectedImage.Some? ==> l.selectedImage.value.filename == a.selectedImage.value.filename)
  {
    var l := ListUploadedPhotos(ListAnswer(a)).value;
    assert l.uploadedImages == Photos(a.uploadedImages);
  }

  /** Once the registry accepts a name, its listing shows the name as stored. */
  lemma ListShowsCreated(f: ProfileRegistry.StoreFile, name: string)
    requires ProfileRegistry.Create(f, name).0.Success?
    ensures var (res, f1) := ProfileRegistry.Create(f, name);
      ProfileEntry(res.value) in ProfilesAnswer(ProfileRegistry.List(f1).0).body.value
  {
    var (res, f1) := ProfileRegistry.Create(f, name);
    var es := ProfileRegistry.List(f1).0;
    var ps := ProfileRegistry.Load(f1).0;
    assert ps[|ps| - 1] == res.value;
    assert es[|ps| - 1] == ProfileRegistry.Entry(res.value);
    assert ProfilesAnswer(es).body.value[|ps| - 1] == ProfileEntry(res.value);
  }

  /** Creating a profile on the panel: the panel's request succeeds exactly
      when the registry accepts the name, and then the reloaded list shows
      the name as the registry stored it. A refused name leaves the panel
      as it was. */
  lemma PanelCreateShows(p: ProfilePanel.Panel, f: ProfileRegistry.StoreFile)
    requires !IsBlank(JavaScript, p.newProfile)
    ensures var (res, f1) := ProfileRegistry.Create(f, Trim(JavaScript, p.newProfile));
      var r := ProfilePanel.HandleCreate(p, StatusAnswer(res), ProfilesAnswer(ProfileRegistry.List(f1).0));
      && (res.Success? ==> r.newProfile == "" && r.profiles.Body? && ProfileEntry(res.value) in r.profiles.value)
      && (res.Failure? ==> r == p)
  {
    var n := Trim(JavaScript, p.newProfile);
    var (res, f1) := ProfileRegistry.Create(f, n);
    var list := ProfilesAnswer(ProfileRegistry.List(f1).0);
    if res.Success? {
      ListShowsCreated(f, n);
      assert CreateProfile(n, StatusAnswer(res)).Success?;
      assert ProfilePanel.HandleCreate(p, StatusAnswer(res), list) == ProfilePanel.LoadProfiles(p.(newProfile := ""), list);
    } else {
      assert CreateProfile(n, StatusAnswer(res)).Failure?;
    }
  }

  /** Creating a profile on the panel and then deleting it brings the panel
      back to the list the registry held before, and leaves the selection
      and the browser storage as they were. */
  lemma PanelCreateThenDelete(p: ProfilePanel.Panel, t: Tab, ps: seq<string>)
    requires !IsBlank(JavaScript, p.newProfile)
    requires ProfileRegistry.Create(Some(ps), Trim(JavaScript, p.newProfile)).0.Success?
    requires t.store.profile != Some(ProfileRegistry.Create(Some(ps), Trim(JavaScript, p.newProfile)).0.value)
    ensures var (res, f1) := ProfileRegistry.Create(Some(ps), Trim(JavaScript, p.newProfile));
      var p1 := ProfilePanel.HandleCreate(p, StatusAnswer(res), ProfilesAnswer(ProfileRegistry.List(f1).0));
      var (del, f2) := ProfileRegistry.Delete(f1, res.value);
      var (p2, t2) := ProfilePanel.HandleDelete(p1, t, res.value, StatusAnswer(del), ProfilesAnswer(ProfileRegistry.List(f2).0));
      && p2.profiles == Body(ProfilesAnswer(ProfileRegistry.List(Some(ps)).0).body.value)
      && t2 == t
  {
    var (res, f1) := ProfileRegistry.Create(Some(ps), Trim(JavaScript, p.newProfile));
    ProfileRegistry.CreateThenDelete(ps, Trim(JavaScript, p.newProfile));
    var (del, f2) := ProfileRegistry.Delete(f1, res.value);
    assert f2 == Some(ps);
    assert del.Success?;
  }

  /** An upload through the client: `uploadPhoto` returns the stored name
      the backend chose, sends the follow-up select request for exactly
      that name, and the backend accepts it. */
  lemma AutoSelectAccepted(ss: VisionSessions.Sessions, disk: VisionSessions.Disk, profile: string,
                           filename: string, seconds: nat, select: Http<()>, reply: string)
    ensures var (up, ss1, disk1) := VisionSessions.UploadImage(ss, disk, profile, filename, seconds);
      var run := UploadPhoto(UploadAnswer(up), select);
      && run.result.Success?
      && run.result.value.filename == VisionSessions.UniqueName(filename, seconds)
      && run.selectSent == Some(up.filename)
      && VisionSessions.SelectImage(ss1, disk1, profile, run.selectSent.value, reply).0 == Success(reply)
  {
    VisionSessions.UploadThenSelect(ss, disk, profile, filename, seconds, reply);
  }

  /** Selecting an uploaded photo on the chat panel: the panel holds the
      photo by name but with an empty public URL (the select answer has no
      `url`), and shows the intro and the chat's reply. The backend keeps
      two turns — the select's own opener with its reply, which the panel
      never shows, then the intro with the chat's reply. */
  lemma PanelSelectThenChat(p: PhotoChatPanel.Panel, ss: VisionSessions.Sessions, disk: VisionSessions.Disk,
                            profile: string, photo: Photo, r1: string, r2: string)
    requires profile != ""
    requires PlainName(photo.filename) && (profile, photo.filename) in disk
    ensures var (sel, ss1) := VisionSessions.SelectImage(ss, disk, profile, photo.filename, r1);
      var (ch, ss2) := VisionSessions.Chat(ss1, disk, profile, PhotoChatPanel.Intro, r2);
      var q := PhotoChatPanel.HandleSelect(p, Some(profile), photo, SelectAnswer(sel), ChatAnswer(ch));
      && q.selected == Some(Photo(photo.filename, "", "", "", Some("")))
      && q.messages == p.messages + [Msg("user", PhotoChatPanel.Intro), Msg("assistant", r2)]
      && profile in ss2
      && ss2[profile].history == VisionSessions.SessionFor(ss, profile).0.history
           + [VisionSessions.Turn(VisionSessions.AutoMessage, r1), VisionSessions.Turn(PhotoChatPanel.Intro, r2)]
  {
    var (sel, ss1) := VisionSessions.SelectImage(ss, disk, profile, photo.filename, r1);
    var url := VisionSessions.PublicUrl(profile, photo.filename);
    assert url == VisionSessions.UploadsUrl(profile) + "/" + photo.filename;
    BasenameOfJoin(VisionSessions.UploadsUrl(profile), photo.filename);
    assert Basename(url) == photo.filename;
    assert VisionSessions.SessionFor(ss1, profile).0 == ss1[profile];
  }

  /** A message sent on the chat panel: when the backend answers, the panel
      and the backend's history gain the same exchange — the trimmed text
      and the reply. When it refuses (nothing selected, or the image gone),
      the panel keeps the user's line and sets the send error, and the
      history is as it was. */
  lemma PanelSendAgrees(p: PhotoChatPanel.Panel, ss: VisionSessions.Sessions, disk: VisionSessions.Disk,
                        profile: string, reply: string)
    requires profile != "" && !IsBlank(JavaScript, p.input)
    ensures var m := Trim(JavaScript, p.input);
      var (ch, ss1) := VisionSessions.Chat(ss, disk, profile, m, reply);
      var q := PhotoChatPanel.HandleSend(p, Some(profile), ChatAnswer(ch));
      && (ch.Success? ==>
            && q.messages == p.messages + [Msg("user", m), Msg("assistant", reply)]
            && profile in ss1
            && ss1[profile].history == VisionSessions.SessionFor(ss, profile).0.history + [VisionSessions.Turn(m, reply)])
      && (ch.Failure? ==>
            && q.messages == p.messages + [Msg("user", m)] && q.error == Some(PhotoChatPanel.SendError)
            && VisionSessions.SessionFor(ss1, profile).0.history == VisionSessions.SessionFor(ss, profile).0.history)
  {
    var m := Trim(JavaScript, p.input);
    var (ch, ss1) := VisionSessions.Chat(ss, disk, profile, m, reply);
    if ch.Failure? {
      assert ss1 == VisionSessions.SessionFor(ss, profile).1;
    }
  }

  /** Selecting on the photo library screen: the screen shows the photo as
      selected exactly when the backend accepted it, and then the backend
      goes on to chat about that very file. A refusal keeps the screen's
      selection and sets the select error. */
  lemma ScreenSelectFollowsBackend(sc: PhotosPage.Screen, ss: VisionSessions.Sessions, disk: VisionSessions.Disk,
                                   profile: string, photo: Photo, r1: string, m: string, r2: string)
    requires profile != "" && '/' !in photo.filename
    ensures var (sel, ss1) := VisionSessions.SelectImage(ss, disk, profile, photo.filename, r1);
      var r := PhotosPage.HandleSelect(sc, Some(profile), photo, SelectAnswer(sel));
      && (sel.Success? <==> PlainName(photo.filename) && (profile, photo.filename) in disk)
      && (sel.Success? ==> r.selected == Some(photo) && VisionSessions.Chat(ss1, disk, profile, m, r2).0 == Success(r2))
      && (sel.Failure? ==> r.selected == sc.selected && r.error == Some(PhotosPage.SelectError))
  {
    var (sel, ss1) := VisionSessions.SelectImage(ss, disk, profile, photo.filename, r1);
    if sel.Success? {
      var url := VisionSessions.PublicUrl(profile, photo.filename);
      assert url == VisionSessions.UploadsUrl(profile) + "/" + photo.filename;
      BasenameOfJoin(VisionSessions.UploadsUrl(profile), photo.filename);
      assert VisionSessions.SessionFor(ss1, profile).0 == ss1[profile];
    }
  }

  /** Uploading on the photo picker: the upload goes to the vision backend,
      the relisting comes from the photo service, which reads the user's own
      copy of the profile's upload directory. When the stored file is there
      too, the picker selects the listed entry for it. */
  lemma PickerSelectsUpload(pk: PhotoPicker.Picker, ss: VisionSessions.Sessions, vdisk: VisionSessions.Disk,
                            sessions: PhotoService.Sessions, pdisk: PhotoService.Disk, user: string, profile: string,
                            filename: string, seconds: nat, select: Http<()>)
    requires profile != "" && '/' !in filename
    requires PhotoService.Consistent(sessions)
    requires PathJoin(PhotoService.DirsOf(user, profile).uploadDir, VisionSessions.UniqueName(filename, seconds)) in pdisk
    ensures var (up, _, _) := VisionSessions.UploadImage(ss, vdisk, profile, filename, seconds);
      var (ans, _) := PhotoService.List(sessions, pdisk, user, profile);
      var r := PhotoPicker.HandleFileChange(pk, Some(profile), Some(FileRef(filename)), UploadAnswer(up), select, ListAnswer(ans));
      && r.uploaded == Photos(ans.uploadedImages)
      && r.selected.Some? && r.selected.value in r.uploaded && r.selected.value.filename == up.filename
  {
    var (up, _, _) := VisionSessions.UploadImage(ss, vdisk, profile, filename, seconds);
    var (ans, _) := PhotoService.List(sessions, pdisk, user, profile);
    var name := up.filename;
    VisionSessions.UniqueNameHasNoSlash(filename, seconds);
    VisionSessions.UniqueNameNotDirectory(filename, seconds);
    PhotoService.ListShowsFile(sessions, pdisk, user, profile, name);
    ListArrives(ans);
    NameShown(ans.uploadedImages, name);
  }

  /** A listed name is the name of a photo the client receives. */
  lemma NameShown(es: seq<PhotoService.PhotoEntry>, name: string)
    requires name in PhotoService.FileNames(es)
    ensures exists i :: 0 <= i < |Photos(es)| && Photos(es)[i].filename == name
  {
    var names := PhotoService.FileNames(es);
    var i :| 0 <= i < |names| && names[i] == name;
    assert Photos(es)[i].filename == name;
  }

  /** Uploading on the chat panel: the panel ends not uploading and shows
      the photo service's listing — its files in name order and its
      selection. */
  lemma PanelUploadShowsListing(p: PhotoChatPanel.Panel, ss: VisionSessions.Sessions, vdisk: VisionSessions.Disk,
                                sessions: PhotoService.Sessions, pdisk: PhotoService.Disk, user: string, profile: string,
                                filename: string, seconds: nat, select: Http<()>)
    requires profile != ""
    ensures var (up, _, _) := VisionSessions.UploadImage(ss, vdisk, profile, filename, seconds);
      var (ans, _) := PhotoService.List(sessions, pdisk, user, profile);
      var q := PhotoChatPanel.HandleUpload(p, Some(profile), Some(FileRef(filename)), UploadAnswer(up), select, ListAnswer(ans));
      && !q.uploading
      && Sorted(Names(q.photos))
      && multiset(Names(q.photos)) == multiset(PhotoService.ListDir(pdisk, PhotoService.InitUserSession(sessions, user, profile).0.dirs.uploadDir))
      && (q.selected.Some? <==> ans.selectedImage.Some?)
  {
    var (ans, _) := PhotoService.List(sessions, pdisk, user, profile);
    ListArrives(ans);
  }

  /** Choosing a profile on the panel: the panel selects the name and moves
      to the fortune-cookie screen exactly when the registry holds the name;
      otherwise the panel and the tab stay as they were. */
  lemma PanelSelectFollowsRegistry(p: ProfilePanel.Panel, t: Tab, f: ProfileRegistry.StoreFile, name: string)
    ensures var (res, _) := ProfileRegistry.Select(f, name);
      var (q, t1) := ProfilePanel.HandleSelect(p, t, name, StatusAnswer(res));
      && (name in ProfileRegistry.Load(f).0 ==>
            t1.store.profile == Some(name) && q.route == ProfilePanel.FortuneCookieRoute)
      && (name !in ProfileRegistry.Load(f).0 ==> q == p && t1 == t)
  {
    var (res, _) := ProfileRegistry.Select(f, name);
    if res.Success? {
      assert SelectProfile(name, StatusAnswer(res)).Success?;
    } else {
      assert SelectProfile(name, StatusAnswer(res)).Failure?;
    }
  }

  /** Uploading on the photo library screen: the picked file is cleared and
      the screen shows the photo service's listing, its files in name order
      and its selection. */
  lemma ScreenUploadShowsListing(sc: PhotosPage.Screen, ss: VisionSessions.Sessions, vdisk: VisionSessions.Disk,
                                 sessions: PhotoService.Sessions, pdisk: PhotoService.Disk, user: string, profile: string,
                                 filename: string, seconds: nat, select: Http<()>)
    requires profile != "" && sc.file == Some(FileRef(filename))
    ensures var (up, _, _) := VisionSessions.UploadImage(ss, vdisk, profile, filename, seconds);
      var (ans, _) := PhotoService.List(sessions, pdisk, user, profile);
      var r := PhotosPage.HandleUpload(sc, Some(profile), UploadAnswer(up), select, ListAnswer(ans));
      && r.file.None? && !r.loading
      && r.images == Photos(ans.uploadedImages)
      && Sorted(Names(r.images))
      && multiset(Names(r.images)) == multiset(PhotoService.ListDir(pdisk, PhotoService.InitUserSession(sessions, user, profile).0.dirs.uploadDir))
      && (r.selected.Some? <==> ans.selectedImage.Some?)
  {
    var (ans, _) := PhotoService.List(sessions, pdisk, user, profile);
    ListArrives(ans);
  }

  /** The picker's fetch shows the photo service's listing; it takes the
      service's selection when there is one and keeps its own otherwise. */
  lemma PickerFetchShowsListing(pk: PhotoPicker.Picker, sessions: PhotoService.Sessions, pdisk: PhotoService.Disk,
                                user: string, profile: string)
    requires profile != ""
    ensures var (ans, _) := PhotoService.List(sessions, pdisk, user, profile);
      var r := PhotoPicker.FetchPhotos(pk, Some(profile), ListAnswer(ans));
      && r.uploaded == Photos(ans.uploadedImages)
      && Sorted(Names(r.uploaded))
      && (ans.selectedImage.Some? ==> r.selected == Some(PhotoOf(ans.selectedImage.value)))
      && (ans.selectedImage.None? ==> r.selected == pk.selected)
  {
    var (ans, _) := PhotoService.List(sessions, pdisk, user, profile);
    ListArrives(ans);
  }

  /** Selecting on the picker: the photo becomes the picker's selection
      exactly when the vision backend finds its file; otherwise the picker
      is unchanged. */
  lemma PickerSelectFollowsBackend(pk: PhotoPicker.Picker, ss: VisionSessions.Sessions, disk: VisionSessions.Disk,
                                   profile: string, photo: Photo, reply: string)
    requires profile != "" && '/' !in photo.filename
    ensures var (sel, _) := VisionSessions.SelectImage(ss, disk, profile, photo.filename, reply);
      var r := PhotoPicker.HandleSelectPhoto(pk, Some(profile), photo, SelectAnswer(sel));
      && (PlainName(photo.filename) && (profile, photo.filename) in disk ==> r == pk.(selected := Some(photo)))
      && (!(PlainName(photo.filename) && (profile, photo.filename) in disk) ==> r == pk)
  {
    var (sel, _) := VisionSessions.SelectImage(ss, disk, profile, photo.filename, reply);
    if sel.Success? {
      assert SelectPhoto(photo.filename, SelectAnswer(sel)).Success?;
    } else {
      assert SelectPhoto(photo.filename, SelectAnswer(sel)).Failure?;
    }
  }
}

=== FILE: wrappers.dfy ===
/** Failure-compatible wrappers shared by every module of the model:
    `Option` stands for a JavaScript `null`/`undefined` or a Python `None`,
    `Result` for a call that either returns or raises/throws. */
module Wrappers {

  datatype Option<+T> = None | Some(value: T) {

    /** The value, or `default` when there is none (JavaScript's `x ?? default`). */
    function GetOr(default: T): T {
      match this
      case Some(v) => v
      case None => default
    }
  }

  datatype Result<+R, +E> = Success(value: R) | Failure(error: E) {

    predicate IsFailure() {
      Failure?
    }

    function PropagateFailure<U>(): Result<U, E>
      requires Failure?
    {
      Failure(error)
    }

    function Extract(): R
      requires Success?
    {
      value
    }
  }

  /** JavaScript and Python truthiness of an optional string:
      `null`, `undefined`, `None` and the empty string are all falsy. */
  predicate Truthy(o: Option<string>) {
    o.Some? && o.value != ""
  }

  /** `xs.map(f)`, and the comprehensions that build one value per element:
      one result per element, in order. */
  function Map<A, B>(f: A -> B, xs: seq<A>): (r: seq<B>)
    ensures |r| == |xs|
    ensures forall i :: 0 <= i < |xs| ==> r[i] == f(xs[i])
  {
    seq(|xs|, i requires 0 <= i < |xs| => f(xs[i]))
  }

  /** An error answer of a backend handler: an `HTTPException(status_code,
      detail)` or a `JSONResponse` sent with an error status. */
  datatype ApiError = ApiError(status: nat, detail: string)

  /** What FastAPI answers when a handler raises an exception it does not
      catch. */
  const InternalError := ApiError(500, "Internal Server Error")
}
